=== FILE: README.md ===
# Kit entitlements, course catalogue and helpers — a Dafny model

This project models the server-side core of a SvelteKit learning platform
that sells electronics kits. Buying a kit, redeeming a single-use kit code
or receiving an admin grant gives a user `course_access` to the kit's
courses. Users who hold a kit may author community courses and lessons for
it and upload lesson files.

The database is one immutable `Store` value (`store.dfy`). Every request
handler is a pure function from the store and its inputs to its reply and
the store afterwards. Inputs include:

- the signed-in user;
- the form fields, already parsed;
- the clock `now`;
- the fresh ids the database hands out;
- the random draws;
- whether each database or storage call fails.

Modules:

- `Common`: `Option`, JavaScript truthiness defaults (`x || d`), `String.prototype.trim`, and decimal numerals.
- `Store`: the tables and the upserts and appends the handlers share.
- `Redeem`: code redemption. It is a guarded pipeline that ends in a compare-and-swap claim, split into checks and commit so that two requests can interleave.
- `AdminKits`: the admin kit panel.
  - The admin guard.
  - Kit creation.
  - Code generation, as a loop over random draws.
  - Code deletion.
  - Access grants.
- `Shop`: the shop page. It covers the held-kit projection and the free purchase.
- `CourseAuthoring`: the authoring page. It covers its load, course creation and update, and lesson creation and deletion, behind ownership and permission guards.
- `Sorting`: query semantics. A filter plus an `order by` is a stable insertion sort with a permutation contract.
- `CourseListing`: the catalogue page. It covers the kit-scoped filtering of official and community courses, `canCreateCourses`, and the catalogue's own `createCourse`.
- `LessonFiles`: the lesson-file upload endpoint.
  - Extension classification.
  - The validation and authorisation chain.
  - Storage paths.
  - Removing what was uploaded on every failure.
- `Cart`: the client-side cart store and its totals.
- `Email`: template substitution, defined as sequential literal replace-all, plus the amount label, template selection and the never-throwing senders.
- `Profile`: the dashboard load, covering analytics counts, course-title resolution and kit flattening.
- `System`: all writing actions as one state machine over the store and the storage bucket. Its run lemmas show three things:
  - a code is claimed at most once, and only by a redemption;
  - the ledger only grows;
  - stored files keep their objects.

Where the documented intent and the code disagree, the model follows the
code:

- No handler consults a permission's `expires_at`, so entitlement is "a `course_access` row exists", expired or not (`Shop.ExpiredPermissionStillListed`).
- Generated codes are not checked for uniqueness, so two generated rows may carry the same code (`AdminKits.GeneratedCodesMayCollide`).

## Model

| member | source | states |
|---|---|---|
| Common.OrDefaultSpec | src/routes/create-course/+page.server.ts:68 | `parsed \|\| d` gives `d` exactly when the parse is NaN, 0 or `d` itself, and otherwise the parsed number |
| Common.Trim | src/routes/redeem/+page.server.ts:29 | the trimmed code is a contiguous slice with no whitespace at either end; it is empty iff the input is all whitespace |
| Common.TrimBy | src/routes/redeem/+page.server.ts:29 | stripping a character class from both ends leaves a slice with no such character at either end; it is empty iff every character is in the class |
| Common.TrimByIdempotent | src/routes/redeem/+page.server.ts:40 | stripping twice is stripping once |
| Common.TrimIdempotent | src/routes/redeem/+page.server.ts:40 | trimming a trimmed code changes nothing |
| Common.NatToString | src/lib/services/emailService.ts:35 | a numeral is a non-empty digit string, with a leading `0` only for zero |
| Common.NatToStringRoundTrip | src/lib/services/emailService.ts:35 | reading the numeral back gives the number |
| Common.NatToStringInjective | src/lib/services/emailService.ts:35 | different amounts print differently |
| Store.CourseKitIds | src/routes/courses/+page.server.ts:18-27 | a kit is listed iff the user has a `course_access` row for it |
| Store.UpsertCourseAccess | src/routes/redeem/+page.server.ts:84-91 | afterwards the (user, kit, `course_access`) row exists with the given expiry, and every other permission row is as before |
| Store.RecordPurchase | src/routes/redeem/+page.server.ts:98-109 | the ledger gains exactly the one row, at the end |
| Redeem.Lookup | src/routes/redeem/+page.server.ts:34-46 | `.single()` on unused rows: a row is found iff exactly one unused row carries the code, and it is that row |
| Redeem.IsExpired | src/routes/redeem/+page.server.ts:48 | a code without an expiry date never expires; one with a date expires only once the clock is strictly past it, and `Redeem.ExpiryIsFinal` shows it then stays expired |
| Redeem.CheckRequest | src/routes/redeem/+page.server.ts:29-63 | checks pass only for a non-blank code whose single unused row is unexpired and whose kit the user does not hold (or whose permission read failed); each stop is one of the four messages |
| Redeem.Claim | src/routes/redeem/+page.server.ts:66-81 | the conditional update succeeds iff the row exists and is still unused, and it then marks that row alone used by the user at `now` |
| Redeem.Commit | src/routes/redeem/+page.server.ts:65-128 | see below |
| Redeem.CommitKeepsUsedAndLedger | src/routes/redeem/+page.server.ts:65-110 | a commit leaves every used code as it was and only appends to the ledger |
| Redeem.RedeemCode | src/routes/redeem/+page.server.ts:18-133 | see below |
| Redeem.InterleavedClaims | src/routes/redeem/+page.server.ts:33-81 | two requests whose checks both passed found the same row; once the first commit claims it, the second reports "already used" and changes nothing |
| Redeem.SecondRedeemFails | src/routes/redeem/+page.server.ts:65-81 | once a redemption has claimed a row, even if its later writes failed, no later redemption by anyone claims that row again |
| AdminKits.Load | src/routes/admin/kits/+page.server.ts:4-65 | see below |
| AdminKits.CreateKit | src/routes/admin/kits/+page.server.ts:68-115 | see below |
| AdminKits.GenerateUniqueCode | src/routes/admin/kits/+page.server.ts:260-267 | the code has eight characters; the i-th is the alphabet entry of the i-th draw |
| AdminKits.CodeFromDrawInAlphabet | src/routes/admin/kits/+page.server.ts:261-265 | every character of a generated code is one of A–Z0–9 |
| AdminKits.CodeFromDraw | src/routes/admin/kits/+page.server.ts:263-265 | the code has eight characters; the j-th is the j-th draw's entry of `ABCDEFGHIJKLMNOPQRSTUVWXYZ0123456789` (a letter for 0–25, a digit for 26–35) |
| AdminKits.RowCount | src/routes/admin/kits/+page.server.ts:135-139 | the loop builds a row for index `i` exactly when its test `i < quantity` holds; a `NaN` quantity fails every test |
| AdminKits.CodesMatchDraws | src/routes/admin/kits/+page.server.ts:260-267 | two codes are equal iff their draws are, so a code says which draws made it |
| AdminKits.GeneratedRows | src/routes/admin/kits/+page.server.ts:138-148 | exactly `n` rows, each unused with the form's kit, code type and expiry |
| AdminKits.GeneratedRowsDetermined | src/routes/admin/kits/+page.server.ts:138-148 | the generated-row conditions pin every row down, so the loop's rows are exactly `GeneratedRows` |
| AdminKits.BuildRows | src/routes/admin/kits/+page.server.ts:138-148 | the loop builds `n` rows, the i-th generated from the i-th draws |
| AdminKits.NewRows | src/routes/admin/kits/+page.server.ts:150-152 | the inserted rows are keyed by their assigned ids, and by no others |
| AdminKits.InsertCodes | src/routes/admin/kits/+page.server.ts:150-152 | the batch insert keeps every existing code row, adds each new row under its id, adds nothing else and touches no other table |
| AdminKits.GenerateKitCodes | src/routes/admin/kits/+page.server.ts:117-163 | see below |
| AdminKits.GeneratedCodesMayCollide | src/routes/admin/kits/+page.server.ts:140-141 | rows from equal draws carry equal codes: generation does not guarantee uniqueness |
| AdminKits.DeleteKitCode | src/routes/admin/kits/+page.server.ts:165-197 | see below |
| AdminKits.GrantKitAccess | src/routes/admin/kits/+page.server.ts:199-256 | see below |
| Shop.Load | src/routes/shop/+page.server.ts:4-44 | a failed kit query gives the empty error page; otherwise all kits are listed, and the held kits are exactly those of the user's `course_access` rows (none when signed out or when the read fails) |
| Shop.ExpiredPermissionStillListed | src/routes/shop/+page.server.ts:21-27 | a permission whose expiry has passed still lists its kit as held |
| Shop.PurchaseKit | src/routes/shop/+page.server.ts:47-121 | see below |
| CourseAuthoring.AuthorKits | src/routes/create-course/+page.server.ts:13-19 | the kits offered for authoring are exactly the user's `course_access` kits, or none when the read fails |
| CourseAuthoring.Load | src/routes/create-course/+page.server.ts:4-53 | see below |
| CourseAuthoring.LoadOffersHeldKits | src/routes/create-course/+page.server.ts:21-35 | the kits offered are exactly the stored kits the user holds `course_access` to (none when the permission read fails), and the courses listed are exactly the stored courses they created |
| CourseAuthoring.CreateCourse | src/routes/create-course/+page.server.ts:56-110 | see below |
| CourseAuthoring.CreatedCourseIsListed | src/routes/create-course/+page.server.ts:29-34 | a course the page created is among its author's courses the next time the page loads |
| CourseAuthoring.UpdateCourse | src/routes/create-course/+page.server.ts:112-164 | see below |
| CourseAuthoring.CreateLesson | src/routes/create-course/+page.server.ts:166-217 | see below |
| CourseAuthoring.DeleteLesson | src/routes/create-course/+page.server.ts:219-263 | see below |
| Sorting.Filter | src/routes/courses/+page.server.ts:44-48 | a filtered list holds exactly the rows that pass, and is no longer than the input |
| Sorting.Insert | src/routes/courses/+page.server.ts:49 | inserting into an ordered list keeps it ordered and adds exactly that element |
| Sorting.SortBy | src/routes/courses/+page.server.ts:49 | `order by` gives an ordered permutation of its input |
| Sorting.SortSortedIsIdentity | src/routes/courses/+page.server.ts:49 | ordering an already ordered list changes nothing |
| Sorting.ListsMembers | src/routes/courses/+page.server.ts:44-52 | a listing of filtered, ordered rows contains exactly the input rows that pass the filter |
| Sorting.FilterRejectingAll | src/routes/courses/+page.server.ts:53-56 | a filter no row passes lists nothing |
| CourseListing.ScopeOf | src/routes/courses/+page.server.ts:32-56 | a non-empty `kit` parameter overrides the held kits; with neither, there is no scope |
| CourseListing.UserKits | src/routes/courses/+page.server.ts:18-27 | the held kits are the user's `course_access` kits, and none when signed out or when the read fails |
| CourseListing.Load | src/routes/courses/+page.server.ts:4-124 | see below |
| CourseListing.SelectedKitListing | src/routes/courses/+page.server.ts:32-71 | with a selected kit, the official courses are exactly the published ones of that kit, in level order, held or not; the community courses are exactly its published public ones |
| CourseListing.OwnedKitsListing | src/routes/courses/+page.server.ts:42-83 | without a selected kit, the listed courses are exactly the published (and, for community courses, public) ones of kits the user holds |
| CourseListing.AnonymousSeesNothing | src/routes/courses/+page.server.ts:17-107 | a signed-out visitor with no kit parameter gets no courses and cannot create any |
| CourseListing.CustomCoursesArePublic | src/routes/courses/+page.server.ts:61-83 | every listed community course is published and public |
| CourseListing.CreateCourse | src/routes/courses/+page.server.ts:127-166 | see below |
| CourseListing.SameCourseAsAuthoring | src/routes/courses/+page.server.ts:137-160 | the catalogue's `createCourse` writes the same store as the authoring page's, given a zero price and no duration; it succeeds and refuses in the same cases |
| LessonFiles.Extension | src/routes/api/lesson-files/+server.ts:8 | the extension is the dot-free suffix after the last dot, or the whole name when there is no dot |
| LessonFiles.Lower | src/routes/api/lesson-files/+server.ts:8 | lowercasing keeps the length and lowercases character by character |
| LessonFiles.Classify | src/routes/api/lesson-files/+server.ts:5-13 | `md` means markdown, `svelte` means a component, and the five video extensions mean video; no other extension is accepted |
| LessonFiles.GetFileType | src/routes/api/lesson-files/+server.ts:7-13 | a name is markdown iff its lowercased extension is `md`, a component iff it is `svelte`, a video iff it is one of the five video extensions, and has no type iff it is none of these |
| LessonFiles.ExtensionAfterLastDot | src/routes/api/lesson-files/+server.ts:8 | `base.ext` has extension `ext` whatever `base` holds |
| LessonFiles.ExtensionOfDotless | src/routes/api/lesson-files/+server.ts:8 | a name without a dot is its own extension |
| LessonFiles.FileTypeOfSuffix | src/routes/api/lesson-files/+server.ts:7-13 | the type of `base.ext` is the type of `ext` alone |
| LessonFiles.LowerCommutesWithExtension | src/routes/api/lesson-files/+server.ts:8 | taking the extension and lowercasing can be done in either order |
| LessonFiles.ExtensionSnoc | src/routes/api/lesson-files/+server.ts:8 | a character added at the end of a name ends the extension if it is a dot, and otherwise extends it |
| LessonFiles.LowerIdempotent | src/routes/api/lesson-files/+server.ts:8 | lowercasing twice is lowercasing once |
| LessonFiles.FileTypeIgnoresCase | src/routes/api/lesson-files/+server.ts:7-13 | a name and its lowercase form have the same type |
| LessonFiles.Upload | src/routes/api/lesson-files/+server.ts:84-94 | an upload without overwrite succeeds iff the call works and the path is free, and then it adds exactly that object |
| LessonFiles.Remove | src/routes/api/lesson-files/+server.ts:121 | a removal never adds anything; when it works it drops exactly the paths, and when it fails nothing changes |
| LessonFiles.SourceAndCompiledPathsDiffer | src/routes/api/lesson-files/+server.ts:80-108 | a component's source and compiled module never share a path |
| LessonFiles.Record | src/routes/api/lesson-files/+server.ts:139-163 | a failed insert gives 500 "Failed to save file record" and removes this request's objects (a failed removal leaves them); otherwise 201 with the row, and the bucket keeps them |
| LessonFiles.Finish | src/routes/api/lesson-files/+server.ts:96-163 | see below |
| LessonFiles.MayUpload | src/routes/api/lesson-files/+server.ts:56-75 | an admin (whose profile was read) may always upload; a lesson of an official course admits admins only; anyone else must be the creator of the lesson's community course, read successfully |
| LessonFiles.Refusal | src/routes/api/lesson-files/+server.ts:15-77 | the status and message of the first failing check, in the handler's order, and none exactly when every check passes |
| LessonFiles.SaveUpload | src/routes/api/lesson-files/+server.ts:84-163 | a failed or colliding source upload gives 500 "Failed to upload file to storage" and changes nothing; otherwise the remaining steps run on the bucket with the source in it |
| LessonFiles.Post | src/routes/api/lesson-files/+server.ts:15-164 | see below |
| LessonFiles.WorkingCallsCreate | src/routes/api/lesson-files/+server.ts:84-163 | a request that passes the checks and whose calls all work is answered 201 (a component must also compile and find its paths free) |
| Cart.GetTotal | src/lib/stores/cart.ts:122-128 | the left-to-right reduction equals the sum of price times quantity |
| Cart.GetItemCount | src/lib/stores/cart.ts:130-136 | the left-to-right reduction equals the sum of the quantities |
| Cart.SumsOfConcat | src/lib/stores/cart.ts:122-136 | the total and the count of two item lists joined are the sums of their totals and counts |
| Cart.TotalNonNegative | src/lib/stores/cart.ts:122-136 | with no negative quantities, the total and the count are not negative |
| Cart.Incremented | src/lib/stores/cart.ts:47-51 | each line with the id gains one unit, and every other line is unchanged |
| Cart.WithQuantity | src/lib/stores/cart.ts:91-95 | each line with the id gets the quantity, and every other line is unchanged |
| Cart.Without | src/lib/stores/cart.ts:71 | the remaining lines are exactly those with another id, one fewer for each line with the id |
| Cart.WithoutConcat | src/lib/stores/cart.ts:71 | the filter works line by line, so the kept lines stay in their order |
| Cart.AddItem | src/lib/stores/cart.ts:41-65 | see below |
| Cart.RemoveItem | src/lib/stores/cart.ts:67-76 | no line with the id remains, every other line stays (in order, by `Cart.WithoutConcat`), the cart shrinks by the lines with the id, and the open flag is kept |
| Cart.UpdateQuantity | src/lib/stores/cart.ts:78-100 | a quantity of 0 or less is exactly `removeItem`; otherwise only the lines with the id change, to that quantity |
| Cart.ClearCart | src/lib/stores/cart.ts:102-108 | the cart is emptied and the open flag is kept |
| Cart.OpenCart | src/lib/stores/cart.ts:110-112 | the cart is open afterwards, with the same items |
| Cart.CloseCart | src/lib/stores/cart.ts:114-116 | the cart is closed afterwards, with the same items |
| Cart.ToggleCart | src/lib/stores/cart.ts:118-120 | the open flag flips and the items stay |
| Cart.ToggleTwiceIsIdentity | src/lib/stores/cart.ts:118-120 | toggling twice restores the cart |
| Cart.IncrementedSums | src/lib/stores/cart.ts:47-51 | an increment adds one unit per matching line to the count, and that line's price to the total |
| Cart.PresentIdOnOneLine | src/lib/stores/cart.ts:43-51 | with unique ids, an id in the cart is on exactly one line |
| Cart.AddItemAddsOneUnit | src/lib/stores/cart.ts:41-65 | adding keeps ids unique and adds one unit; the total grows by the stored line's price when the id is present, or by the new item's price |
| Cart.IncrementOnPresentLine | src/lib/stores/cart.ts:43-51 | incrementing the one line with the id keeps ids unique, adds one unit and adds that line's price |
| Cart.AppendNewIdKeepsUniqueIds | src/lib/stores/cart.ts:54-61 | appending a line with a new id keeps ids unique |
| Cart.RemovePreservesUniqueIds | src/lib/stores/cart.ts:67-76 | removal keeps ids unique |
| Cart.WithoutKeepsUniqueIds | src/lib/stores/cart.ts:71 | filtering lines keeps ids unique |
| Cart.UpdatePreservesUniqueIds | src/lib/stores/cart.ts:78-100 | updating a quantity keeps ids unique |
| Email.ReplaceAll | src/lib/services/emailService.ts:330 | text without the pattern comes back unchanged; with `Email.ReplaceAllAtMatch`, `Email.CopiesUnmatchedPrefix` and `Email.ReplaceAllFirstMatch`, the text before the first match is kept, the match becomes the replacement and the scan resumes after it |
| Email.ReplaceAllBySelf | src/lib/services/emailService.ts:330 | replacing a pattern by itself changes nothing |
| Email.Placeholder | src/lib/services/emailService.ts:330 | the placeholder of a key is the key between braces |
| Email.PlaceholderAlignment | src/lib/services/emailService.ts:330 | placeholders of brace-free keys cannot overlap |
| Email.PlaceholderSurvivesReplace | src/lib/services/emailService.ts:330 | replacing one variable leaves every placeholder of a different variable in the text |
| Email.ReplaceAllAtMatch | src/lib/services/emailService.ts:330 | a match at the start of the text becomes the replacement, and the global replace carries on after it |
| Email.CopiesUnmatchedPrefix | src/lib/services/emailService.ts:330 | a prefix in which the pattern starts nowhere is copied through, and the replace carries on after it |
| Email.ReplaceAllFirstMatch | src/lib/services/emailService.ts:330 | the first match becomes the replacement, the text before it is kept, and the replace carries on after it |
| Email.NoMatchInForeignPrefix | src/lib/services/emailService.ts:330 | text none of whose characters can begin the pattern holds no match |
| Email.BraceFreeHasNoPlaceholder | src/lib/services/emailService.ts:330 | text without braces holds no placeholder of any key |
| Email.PlaceholderReplacedByValue | src/lib/services/emailService.ts:327-333 | with one variable, its first placeholder becomes the value, the text before it is kept (braces there included), and the text after it is replaced in turn |
| Email.BracesBeforePlaceholder | src/lib/services/emailService.ts:327-333 | a style rule such as `p{m}` before a placeholder does not stop it being filled in |
| Email.FillsPlaceholder | src/lib/services/emailService.ts:327-333 | a template whose only braced text is the first key's placeholder comes out as the surrounding text with that key's value in its place, whatever the other variables are |
| Email.ReplaceVariables | src/lib/services/emailService.ts:327-333 | content that mentions no supplied key comes back unchanged; `Email.PlaceholderReplacedByValue` shows a key's placeholder filled by its value, and `Email.UnsuppliedPlaceholderSurvives` that a key nobody supplies stays in place |
| Email.UnsuppliedPlaceholderSurvives | src/lib/services/emailService.ts:327-333 | a placeholder whose key is not supplied is still in the result |
| Email.DefaultPurchaseSubjectNamesKit | src/lib/services/emailService.ts:135 | the built-in purchase subject, filled in with the subject variables, reads `Welcome to <kit name> - Your Electrofun Kit is Ready!` |
| Email.DefaultRedemptionSubjectNamesKit | src/lib/services/emailService.ts:233 | the built-in redemption subject, filled in with the subject variables, reads `Kit Unlocked: <kit name> - Welcome to Electrofun!` |
| Email.SubjectKeepsOtherPlaceholders | src/lib/services/emailService.ts:24-27 | the subject fills in only the kit and user names; any other placeholder reaches the recipient as written |
| Email.AmountLabel | src/lib/services/emailService.ts:35 | the label is `FREE` iff the amount is 0; a positive amount is `$` followed by a numeral that reads back as the amount |
| Email.GetEmailTemplate | src/lib/services/emailService.ts:112-129 | no template on a failed call or an empty answer; otherwise the first row |
| Email.ChooseTemplate | src/lib/services/emailService.ts:17-21 | the stored template wins; without one, the created default is used, and there is none only when creation threw |
| Email.SendPurchaseConfirmation | src/lib/services/emailService.ts:14-67 | see below |
| Email.SendCodeRedemptionConfirmation | src/lib/services/emailService.ts:70-109 | see below |
| Profile.CountStatus | src/routes/profile/+page.server.ts:83-84 | a status count is the number of rows with that status (its multiplicity among the rows' statuses), so never more than the rows |
| Profile.CountStatusConcat | src/routes/profile/+page.server.ts:83-84 | counts add up over concatenated row lists |
| Profile.CompletedAndInProgressWithinTotal | src/routes/profile/+page.server.ts:82-86 | completed plus in-progress rows never exceed all rows |
| Profile.ComputeAnalytics | src/routes/profile/+page.server.ts:81-89 | see below |
| Profile.ResolveCourse | src/routes/profile/+page.server.ts:93-102 | the course comes from the official course if joined, else from the community course, else it is unknown with no id |
| Profile.LessonTitle | src/routes/profile/+page.server.ts:108 | the lesson's non-empty title, or the placeholder title; never empty |
| Profile.ProcessAll | src/routes/profile/+page.server.ts:92-110 | one processed row per progress row, in order, each keeping the original row |
| Profile.DropMissing | src/routes/profile/+page.server.ts:113 | the first filter keeps exactly the joined kit values that are present, and never lengthens the list |
| Profile.DropMissingConcat | src/routes/profile/+page.server.ts:113 | the first filter works row by row, so the kept values stay in their order |
| Profile.FirstOfArrays | src/routes/profile/+page.server.ts:116-121 | one entry per embed, in order: a single kit is kept, an array gives its first kit, and an empty array or a missing kit gives nothing |
| Profile.DropNone | src/routes/profile/+page.server.ts:121 | the second filter keeps exactly the present kits, and never lengthens the list |
| Profile.DropNoneConcat | src/routes/profile/+page.server.ts:121 | the second filter works entry by entry, so the kept kits stay in their order |
| Profile.KitsOfRows | src/routes/profile/+page.server.ts:113-121 | each row contributes at most one kit |
| Profile.FlattenKitsIsOnePass | src/routes/profile/+page.server.ts:113-121 | the page's three-step flattening equals the one-pass reading: each row gives its kit or the first of its array, or nothing |
| Profile.SingleKitsKept | src/routes/profile/+page.server.ts:113-121 | when every row holds one kit, the page lists exactly those kits in order |
| Profile.SingleKitsKeptOnePass | src/routes/profile/+page.server.ts:113-121 | the same for the one-pass reading |
| Profile.Load | src/routes/profile/+page.server.ts:4-152 | see below |
| System.Generated | src/routes/admin/kits/+page.server.ts:138-152 | code generation keeps every existing code row and adds only unused ones |
| System.ApplyRedeem | src/routes/redeem/+page.server.ts:65-110 | a redemption leaves the lesson files and the bucket alone, keeps every used code as it is and only appends to the ledger |
| System.ApplyPurchase | src/routes/shop/+page.server.ts:47-121 | a purchase leaves the lesson files, the bucket and the codes alone and only appends to the ledger |
| System.ApplyAdmin | src/routes/admin/kits/+page.server.ts:68-256 | the admin actions leave the lesson files and the bucket alone, keep every remaining code row as it was and only append to the ledger |
| System.ApplyAuthoring | src/routes/create-course/+page.server.ts:56-263 | the authoring actions leave the lesson files, the bucket, the codes and the ledger alone |
| System.ApplyUpload | src/routes/api/lesson-files/+server.ts:15-164 | an upload leaves the codes and the ledger alone |
| System.StepKeepsUsedCodesAndLedger | src/routes/redeem/+page.server.ts:66-76 | every action leaves each used code as it is while it exists, and only appends to the ledger |
| System.OthersKeepCodes | src/routes/admin/kits/+page.server.ts:150-186 | every action but redemption leaves each remaining code row as it was |
| System.OnlyRedemptionClaims | src/routes/redeem/+page.server.ts:66-76 | a code goes from unused to used only through a redemption, and the one that claimed it |
| System.StepKeepsFilesStored | src/routes/api/lesson-files/+server.ts:84-161 | every action keeps each stored file's objects in the bucket |
| System.PostKeepsFilesStored | src/routes/api/lesson-files/+server.ts:84-163 | the upload endpoint, whatever fails, keeps every stored file's objects in the bucket, including the new file's |
| System.UsedStaysUsed | src/routes/redeem/+page.server.ts:74 | once used, a code stays exactly as it is while it exists |
| System.ClaimedAtMostOnce | src/routes/redeem/+page.server.ts:65-81 | in any run of requests, a code that exists throughout is claimed at most once |
| System.LedgerExtendsAlong | src/routes/admin/kits/+page.server.ts:234-249 | step-by-step ledger growth adds up over a run |
| System.RunExtendsLedger | src/routes/admin/kits/+page.server.ts:234-249 | over any run the final ledger extends the first: purchases are never rewritten or dropped |
| System.RunKeepsFilesStored | src/routes/api/lesson-files/+server.ts:139-163 | over any run every stored file keeps its objects in the bucket |

The members marked "see below" are:

- **Redeem.Commit**:
  - The claim succeeds iff the claim call works and the row exists and is still unused.
  - A failed claim is "already used" and changes nothing.
  - A successful claim marks exactly that row used.
  - A success writes the permission with no expiry and one `code_redemption` ledger row, or no row when the ledger write fails.
  - A failed grant after the claim writes no permission or purchase, keeps the code used, and reports the grant failure.
  - A success replies with the kit and the success message when the kit is found, and with the processing error otherwise. The email is attempted iff the grant was written.
- **Redeem.RedeemCode**:
  - Used codes stay frozen and the ledger only grows.
  - Every refusal before the claim leaves the store untouched: no user, a blank code, no single unused match, an expired code, or a kit already held.
  - A claim takes the one unused, unexpired row with the trimmed code.
  - A request that passes every check claims the looked-up row unless the claim call fails, and is redeemed when the grant works and the kit exists.
  - A success grants access, appends the ledger row and attempts the email.
  - A failed grant does not roll the claim back.
- **AdminKits.Load**: non-admins are redirected to `/`. That includes a caller with no profile and a caller whose profile read failed. The dashboard carries an error iff a query failed; the error page has empty lists. Otherwise it shows all kits, codes and purchases.
- **AdminKits.CreateKit**:
  - A non-admin, a failed profile read, or a failed insert changes nothing.
  - For an admin, a working insert always succeeds. It adds exactly one kit under the new id, with the form's name, theme, level, description, price and kit type, and empty QR and access codes.
- **AdminKits.GenerateKitCodes**:
  - A non-admin, or a caller whose profile read failed, builds and writes nothing.
  - An admin builds exactly `RowCount(quantity)` generated rows; NaN and non-positive quantities build none.
  - A failed insert changes nothing.
  - A success inserts exactly those rows under fresh ids.
- **AdminKits.DeleteKitCode**: only an admin whose profile was read deletes. For such an admin a working delete always succeeds with "Code deleted successfully". It removes exactly that code row and leaves the rest of the store unchanged.
- **AdminKits.GrantKitAccess**:
  - A non-admin, a failed profile read, or a failed upsert changes nothing.
  - A success upserts the permission with the given expiry and appends one `admin_grant` row, unless the ledger write fails; it still reports success.
- **Shop.PurchaseKit**:
  - No user, an empty kit id, or a failed upsert refuses with its message and changes nothing.
  - With a user, a kit id and a working upsert the purchase always succeeds. It grants access with no expiry and appends one `admin_grant` row of amount 0, unless the ledger write fails.
  - The email is attempted iff the row was written and the kit was found.
- **CourseAuthoring.Load**:
  - A signed-out visitor is redirected to `/login`.
  - A failed kit or course query gives the empty page with the error.
  - Otherwise it lists the held kits by level and the user's own courses, newest first. Both lists are drawn from the rows of the store's tables.
- **CourseAuthoring.CreateCourse**:
  - A signed-out user, a missing kit, a failed permission read, or a kit without `course_access` is refused, and nothing changes.
  - With a kit the user may use and a working insert, creation always succeeds with "Course created successfully!". A failed insert refuses with its message.
  - A new course is owned by the user, for the form's kit, with the form's title, description and duration, stamped `now`, and unpublished.
  - It is public iff the form says exactly `true`.
  - Its price is the parsed price, or 0 when the parse gave NaN or 0.
- **CourseAuthoring.UpdateCourse**:
  - Only the creator's own course changes.
  - Title, description, price, the two flags and the duration take the form's values.
  - The creator and the kit never change, and refusals change nothing.
  - For the creator a working update always succeeds with "Course updated successfully!".
- **CourseAuthoring.CreateLesson**:
  - Only the course's creator may add a lesson.
  - The lesson is custom, text and unpublished.
  - Its order index is the parsed value, or 1 when the parse gives NaN or 0.
  - For the creator a working insert always succeeds with "Lesson created!".
- **CourseAuthoring.DeleteLesson**:
  - A missing or official lesson is "not found".
  - A lesson of someone else's course, or one whose course cannot be read, is "forbidden".
  - Success removes exactly that lesson, and a working delete of a lesson the user may remove always succeeds with "Lesson deleted".
- **CourseListing.Load**:
  - The page is an error exactly when the kit query fails, or when a course query that actually runs fails. The error page is empty and cannot create.
  - Otherwise every list holds the filtered rows of the store's kit, official-course and community-course tables, in the requested order.
  - `canCreateCourses` holds iff the user holds a kit.
  - The user's own courses are loaded only then.
- **CourseListing.CreateCourse**:
  - Refuses without a user or without `course_access` to the kit.
  - A failed insert refuses with its message.
  - Otherwise it always inserts a free, unpublished course with the given title and description, no duration, stamped `now`, and redirects with 303 to its editor.
- **LessonFiles.Finish**:
  - A component whose compile throws gives 422.
  - A compiled component whose upload fails, or whose path is taken, gives 500 "Failed to store compiled component".
  - Once every object is stored, the answer is 201 iff the insert works; a failed insert gives 500 "Failed to save file record".
  - Each failure removes what this request uploaded.
  - A compiled path exists iff the file is a component.
- **LessonFiles.Post**: the checks run in this order, each with its status and message:
  1. no user gives 401;
  2. unreadable form data gives 400;
  3. a missing lesson id or file gives 400;
  4. an unsupported type gives 400;
  5. an unknown lesson gives 404;
  6. a lesson the user may not upload to gives 403 (an admin may upload anywhere, a creator only to lessons of their own community course).

  Past the checks, a failed or colliding source upload gives 500 "Failed to upload file to storage"; otherwise the answer is `Finish`'s, so a failed compile gives 422, a failed compiled upload or insert gives 500, and working calls give 201. Nothing reaches the database unless the answer is 201. Every failure restores the bucket, unless removal fails. A 201 carries the row with the computed type and paths and adds exactly its objects.
- **Cart.AddItem**: a new id is appended with one unit. A present id gains one unit on its line, keeping the stored name and price. Nothing else changes.
- **Email.SendPurchaseConfirmation**:
  - It fails, with the thrown message or "Unknown error", exactly when there is no template and creating the default threw.
  - Otherwise it logs a pending row and hands over a message whose subject substitutes the kit and user names, and whose bodies substitute every purchase variable.
- **Email.SendCodeRedemptionConfirmation**: the same as the purchase confirmation, without a log row and with the redemption variables.
- **Profile.ComputeAnalytics**:
  - Total courses and total lessons are both the number of rows.
  - Completed courses and completed lessons are both the count of completed rows.
  - In-progress courses are the count of in-progress rows, and completed plus in-progress is within the total.
  - The average completion time and the streak are 0.
- **Profile.Load**:
  - A signed-out visitor is redirected to `/login?redirect=/dashboard`.
  - An exception gives the default dashboard with its error.
  - Otherwise the profile defaults to the student role, failed queries read as no rows, and the analytics, processed progress and flattened kits are as above.

## Left out

- Database, RPC and storage calls are an abstract store. Each call's failure, including the admin guard's profile read, is an explicit input. Row-level security and query planning are not modelled.
- Fresh ids from the database or `crypto.randomUUID` are inputs assumed unused (the `requires` on the creating actions and `System.Enabled`).
- `Math.random` draws are inputs. `new Date()` is the integer `now`, and `toLocaleDateString` output is a string input.
- The conflict target of the `user_permissions` upsert is not visible in the code. The model assumes it is (user, kit, permission type).
- A database uniqueness constraint on code strings is not modelled. An insert that such a constraint rejects is one of the insert failures the model already allows.
- Thrown exceptions caught by a handler's generic `catch` (an unreadable form, say) and their fixed messages are not modelled. The catalogue's `createCourse` has no `catch`, so such an exception escapes; that is not modelled either. The lesson-file endpoint's unreadable form is modelled.
- Floating point is not modelled:
  - prices and amounts are whole dollars (integers), and cart prices are naturals;
  - `parseFloat`/`parseInt` results are inputs that are either NaN or an integer.
- AdminKits.CreateKit: takes level and price already parsed to integers; a NaN level or price is not modelled.
- AdminKits.Load: returns the three tables as maps, so the level and creation-time orders of its lists are not modelled.
- Shop.Load: returns the kits as a map, so their level order is not modelled.
- CourseListing.Load: the user's own courses are listed without the joined kit name, theme and level.
- Email.AmountLabel: takes a whole-dollar amount. A fractional amount such as 9.99 is printed as `$9.99` by the template literal; that case is not modelled.
- Profile.Load: the recent orders are whatever the query returned; the newest-first order and the limit of five are not modelled.
- Email.ReplaceAll: replacement values are inserted verbatim. The `$&`, `$$`, `` $` `` and `$'` patterns that `String.prototype.replace` interprets in a replacement string are not modelled. The keys are fixed identifiers, so each `{key}` pattern is a literal match.
- LessonFiles.Lower: lowercases ASCII letters only. No other character lowercases into one of the recognised extensions, so file classification is unaffected.
- The HTML and text bodies of the default email templates, delivery through `sendEmail`, and the effect of a failed `logEmail` (it is only logged) are not modelled.
- The Svelte compiler is an oracle that returns code or throws. File bytes, content types and the text encoding are not modelled.
- Persisting the cart to `localStorage`, and reading it back at start-up, are browser I/O and are not modelled.
- Ties in an `order by` are broken by the model's stable sort. The contracts (ordered, and exactly the filtered rows) hold for any tie-break.
- Deleting a lesson does not model any cascade to its files or progress rows.
- The payment, checkout, analytics-service, authentication, layout and UI-constant files are not part of this model.

=== FILE: admin_kits.dfy ===
/** The admin kit panel: its page load and the `createKit`,
    `generateKitCodes`, `deleteKitCode` and `grantKitAccess` actions. Every
    one of them first repeats the same guard: a signed-in caller whose
    profile role is `admin`. */
module AdminKits {
  import opened Common
  import opened Store

  const Unauthorized := "Unauthorized"
  const LoadFailed := "Failed to load admin kit data"

  /** The characters a generated code is drawn from, and its length. */
  const CodeAlphabet := "ABCDEFGHIJKLMNOPQRSTUVWXYZ0123456789"
  const CodeLength := 8

  datatype Reply = Done(message: string) | KitCreated(kitId: Id) | Refused(error: string)

  /** The guard every admin handler repeats. It reads the caller's profile
      and requires the `admin` role; a failed read leaves no profile, and a
      missing profile is not an admin. */
  predicate AdminCaller(s: Store, caller: Option<Id>, profileFails: bool) {
    !profileFails && IsAdmin(s, caller)
  }

  datatype Page =
    | Redirect(location: string)
    | Dashboard(kits: map<Id, Kit>, codes: map<Id, KitCode>, purchases: seq<Purchase>, error: Option<string>)

  /** The page load: non-admins, and callers whose profile read fails, are
      redirected to the home page; a failed query yields empty lists and an
      error message. Row ordering is left to the store. */
  function Load(s: Store, caller: Option<Id>, profileFails: bool, queryFails: bool): (p: Page)
    ensures p.Redirect? <==> !AdminCaller(s, caller, profileFails)
    ensures p.Redirect? ==> p.location == "/"
    ensures p.Dashboard? ==> (p.error.Some? <==> queryFails) && (queryFails ==> p.error == Some(LoadFailed))
    ensures p.Dashboard? && p.error.None? ==> p.kits == s.kits && p.codes == s.codes && p.purchases == s.purchases
    ensures p.Dashboard? && p.error.Some? ==> p.kits == map[] && p.codes == map[] && p.purchases == []
  {
    if !AdminCaller(s, caller, profileFails) then Redirect("/")
    else if queryFails then Dashboard(map[], map[], [], Some(LoadFailed))
    else Dashboard(s.kits, s.codes, s.purchases, None)
  }

  /** The submitted kit fields, already coerced to numbers. */
  datatype KitForm = KitForm(
    name: string, theme: string, level: int, description: string, price: int, kitType: string)

  /** `createKit`: inserts the kit with empty QR and access codes under the
      id the store assigns. */
  function CreateKit(
    s: Store, caller: Option<Id>, profileFails: bool, newId: Id, form: KitForm, insert: Fault): (r: (Reply, Store))
    requires newId !in s.kits
    ensures !AdminCaller(s, caller, profileFails) ==> r == (Refused(Unauthorized), s)
    ensures AdminCaller(s, caller, profileFails) && insert.Err? ==> r == (Refused(insert.message), s)
    ensures AdminCaller(s, caller, profileFails) && insert.Ok? ==>
              && r.0 == KitCreated(newId) && newId in r.1.kits
              && r.1 == s.(kits := s.kits[newId := r.1.kits[newId]])
              && var k := r.1.kits[newId];
              && k.name == form.name && k.theme == form.theme && k.level == form.level
              && k.description == form.description && k.price == form.price && k.kitType == form.kitType
              && k.qrCode == "" && k.accessCode == ""
    ensures r.1 != s ==> r.0.KitCreated?
  {
    if !AdminCaller(s, caller, profileFails) then (Refused(Unauthorized), s)
    else if insert.Err? then (Refused(insert.message), s)
    else
      var k := Kit(form.name, form.theme, form.level, form.description, form.price, form.kitType, "", "");
      (KitCreated(newId), s.(kits := s.kits[newId := k]))
  }

  /** `generateUniqueCode`: eight characters, the i-th picked from the
      alphabet by the i-th random draw (`Math.floor(Math.random() * 36)`). */
  method GenerateUniqueCode(draws: seq<nat>) returns (code: string)
    requires ValidDraw(draws)
    ensures |code| == CodeLength
    ensures forall i :: 0 <= i < |code| ==> code[i] == AlphabetChar(draws[i])
    ensures code == CodeFromDraw(draws)
  {
    AlphabetIsRanges();
    code := "";
    for i := 0 to CodeLength
      invariant |code| == i
      invariant forall j :: 0 <= j < i ==> code[j] == CodeAlphabet[draws[j]]
    {
      code := code + [CodeAlphabet[draws[i]]];
    }
  }

  /** The code one row gets from its eight draws, stated position by
      position rather than by appending. */
  function CodeFromDraw(draw: seq<nat>): (code: string)
    requires ValidDraw(draw)
    ensures |code| == CodeLength
    ensures forall j :: 0 <= j < CodeLength ==> code[j] == AlphabetChar(draw[j])
    ensures forall j :: 0 <= j < CodeLength ==> code[j] == CodeAlphabet[draw[j]]
  {
    AlphabetIsRanges();
    seq(CodeLength, j requires 0 <= j < CodeLength => AlphabetChar(draw[j]))
  }

  /** Every character of a generated code is from the alphabet. */
  lemma CodeFromDrawInAlphabet(draw: seq<nat>)
    requires ValidDraw(draw)
    ensures forall i :: 0 <= i < CodeLength ==> CodeFromDraw(draw)[i] in CodeAlphabet
  {
    AlphabetIsRanges();
    forall i | 0 <= i < CodeLength
      ensures CodeFromDraw(draw)[i] in CodeAlphabet
    {
      assert CodeFromDraw(draw)[i] == CodeAlphabet[draw[i]];
    }
  }

  /** The alphabet's characters by position: the 26 capitals, then the 10
      digits. */
  function AlphabetChar(d: nat): char
    requires d < 36
  {
    if d < 26 then ('A' as int + d) as char else ('0' as int + d - 26) as char
  }

  lemma AlphabetIsRanges()
    ensures |CodeAlphabet| == 36
    ensures forall d :: 0 <= d < 36 ==> CodeAlphabet[d] == AlphabetChar(d)
  {
    assert CodeAlphabet == "ABCDEFGHIJKLMNOPQRSTUVWXYZ" + "0123456789";
  }

  /** Distinct draws give distinct codes: a code tells exactly which draws
      produced it, so two codes collide only when their draws do. */
  lemma CodesMatchDraws(a: seq<nat>, b: seq<nat>, ca: string, cb: string)
    requires ValidDraw(a) && ValidDraw(b) && |ca| == |cb| == CodeLength
    requires forall i :: 0 <= i < CodeLength ==> ca[i] == AlphabetChar(a[i]) && cb[i] == AlphabetChar(b[i])
    ensures ca == cb <==> a == b
  {
    if ca == cb {
      forall i | 0 <= i < CodeLength
        ensures a[i] == b[i]
      {
        assert AlphabetChar(a[i]) == AlphabetChar(b[i]);
      }
    }
  }

  /** The test of the `for (i = 0; i < quantity; i++)` loop on a parsed
      quantity: a comparison with `NaN` is false. */
  predicate LoopRuns(quantity: Parsed, i: nat) {
    quantity.Num? && i < quantity.value
  }

  /** How many rows the loop builds: exactly the indices for which its
      test holds, so `NaN` and non-positive quantities build none. */
  function RowCount(quantity: Parsed): (n: nat)
    ensures forall i: nat :: LoopRuns(quantity, i) <==> i < n
  {
    if quantity.Num? && quantity.value > 0 then quantity.value else 0
  }

  function ParsedToString(p: Parsed): string {
    if p.NaN? then "NaN" else IntToString(p.value)
  }

  /** The submitted `generateKitCodes` fields. `expiresAt` is `None` when
      the field was empty. */
  datatype CodeForm = CodeForm(kitId: Id, codeType: string, quantity: Parsed, expiresAt: Option<Time>)

  predicate FreshIds(s: Store, ids: seq<Id>) {
    && (forall i :: 0 <= i < |ids| ==> ids[i] !in s.codes)
    && (forall i, j :: 0 <= i < j < |ids| ==> ids[i] != ids[j])
  }

  /** Each code gets eight draws, each an index into the alphabet. */
  predicate ValidDraw(draw: seq<nat>) {
    |draw| == CodeLength && forall j :: 0 <= j < CodeLength ==> draw[j] < 36
  }

  predicate ValidDraws(draws: seq<seq<nat>>) {
    forall i :: 0 <= i < |draws| ==> ValidDraw(draws[i])
  }

  /** The new rows keyed by the ids the store assigned them. */
  function NewRows(ids: seq<Id>, rows: seq<KitCode>): (m: map<Id, KitCode>)
    requires |rows| <= |ids|
    requires forall i, j :: 0 <= i < j < |ids| ==> ids[i] != ids[j]
    ensures forall i :: 0 <= i < |rows| ==> ids[i] in m && m[ids[i]] == rows[i]
    ensures forall id :: id in m ==> id in ids[..|rows|]
  {
    var m := map i | 0 <= i < |rows| :: ids[i] := rows[i];
    assert forall id :: id in m ==> id in ids[..|rows|] by {
      forall id | id in m
        ensures id in ids[..|rows|]
      {
        var i :| 0 <= i < |rows| && ids[i] == id;
        assert ids[..|rows|][i] == id;
      }
    }
    m
  }

  /** `row` is the unused row the loop builds for the form from one code's
      draws. */
  predicate IsGeneratedRow(row: KitCode, form: CodeForm, draw: seq<nat>) {
    && row.kitId == form.kitId && row.codeType == form.codeType
    && !row.isUsed && row.usedBy.None? && row.usedAt.None?
    && row.expiresAt == form.expiresAt
    && |row.code| == CodeLength && |draw| == CodeLength
    && (forall j :: 0 <= j < CodeLength ==> draw[j] < 36 && row.code[j] == AlphabetChar(draw[j]))
  }

  /** The row built from one code's draws. */
  function GeneratedRow(form: CodeForm, draw: seq<nat>): KitCode
    requires ValidDraw(draw)
  {
    KitCode(form.kitId, CodeFromDraw(draw), form.codeType, false, None, None, form.expiresAt)
  }

  lemma GeneratedRowIsGenerated(form: CodeForm, draw: seq<nat>)
    requires ValidDraw(draw)
    ensures IsGeneratedRow(GeneratedRow(form, draw), form, draw)
  {
  }

  /** The first `n` rows, one per code's draws. */
  function GeneratedRows(form: CodeForm, draws: seq<seq<nat>>, n: nat): (rows: seq<KitCode>)
    requires n <= |draws| && ValidDraws(draws)
    ensures |rows| == n
    ensures forall i :: 0 <= i < n ==> IsGeneratedRow(rows[i], form, draws[i])
  {
    seq(n, i requires 0 <= i < n => GeneratedRow(form, draws[i]))
  }

  /** `IsGeneratedRow` pins the row down completely. */
  lemma GeneratedRowsDetermined(form: CodeForm, draws: seq<seq<nat>>, rows: seq<KitCode>)
    requires |rows| <= |draws| && ValidDraws(draws)
    requires forall i :: 0 <= i < |rows| ==> IsGeneratedRow(rows[i], form, draws[i])
    ensures rows == GeneratedRows(form, draws, |rows|)
  {
    var g := GeneratedRows(form, draws, |rows|);
    forall i | 0 <= i < |rows|
      ensures rows[i] == g[i]
    {
      assert rows[i].code == CodeFromDraw(draws[i]);
    }
  }

  /** The batch insert of new rows under ids the store has not used. */
  function InsertCodes(s: Store, ids: seq<Id>, rows: seq<KitCode>): (s': Store)
    requires |rows| <= |ids| && FreshIds(s, ids)
    ensures s' == s.(codes := s'.codes)
    ensures forall id :: id in s.codes ==> id in s'.codes && s'.codes[id] == s.codes[id]
    ensures forall i :: 0 <= i < |rows| ==> ids[i] in s'.codes && s'.codes[ids[i]] == rows[i]
    ensures forall id :: id in s'.codes ==> id in s.codes || id in ids[..|rows|]
  {
    var added := NewRows(ids, rows);
    assert forall id :: id in added ==> id !in s.codes;
    s.(codes := s.codes + added)
  }

  /** The loop of `generateKitCodes`: one row per iteration, `n` in all. */
  method BuildRows(form: CodeForm, draws: seq<seq<nat>>, n: nat) returns (rows: seq<KitCode>)
    requires n <= |draws| && ValidDraws(draws)
    ensures |rows| == n
    ensures forall i :: 0 <= i < n ==> IsGeneratedRow(rows[i], form, draws[i])
  {
    rows := [];
    for i := 0 to n
      invariant |rows| == i
      invariant forall k :: 0 <= k < i ==> IsGeneratedRow(rows[k], form, draws[k])
    {
      var code := GenerateUniqueCode(draws[i]);
      var row := KitCode(form.kitId, code, form.codeType, false, None, None, form.expiresAt);
      assert row == GeneratedRow(form, draws[i]);
      GeneratedRowIsGenerated(form, draws[i]);
      rows := rows + [row];
    }
  }

  /** `generateKitCodes`: builds `quantity` fresh unused rows for the kit and
      inserts them in one batch. Codes are not checked against the existing
      ones, so nothing here claims they are unique. The row ids are the ones
      the store assigns; the draws are the random numbers for each code. */
  method GenerateKitCodes(
    s: Store, caller: Option<Id>, profileFails: bool, form: CodeForm, ids: seq<Id>, draws: seq<seq<nat>>,
    insert: Fault)
    returns (reply: Reply, s': Store, rows: seq<KitCode>)
    requires RowCount(form.quantity) <= |ids| && RowCount(form.quantity) <= |draws|
    requires FreshIds(s, ids) && ValidDraws(draws)
    ensures !AdminCaller(s, caller, profileFails) ==> reply == Refused(Unauthorized) && s' == s && rows == []
    ensures AdminCaller(s, caller, profileFails) ==> rows == GeneratedRows(form, draws, RowCount(form.quantity))
    ensures forall i :: 0 <= i < |rows| ==> i < |draws| && IsGeneratedRow(rows[i], form, draws[i])
    ensures AdminCaller(s, caller, profileFails) && insert.Err? ==> reply == Refused(insert.message) && s' == s
    ensures AdminCaller(s, caller, profileFails) && insert.Ok? ==>
              && reply == Done("Generated " + ParsedToString(form.quantity) + " " + form.codeType + " codes")
              && s' == s.(codes := s'.codes)
              && (forall id :: id in s.codes ==> id in s'.codes && s'.codes[id] == s.codes[id])
              && (forall i :: 0 <= i < |rows| ==> ids[i] in s'.codes && s'.codes[ids[i]] == rows[i])
              && (forall id :: id in s'.codes ==> id in s.codes || id in ids[..|rows|])
              && s' == InsertCodes(s, ids, rows)
  {
    if !AdminCaller(s, caller, profileFails) {
      return Refused(Unauthorized), s, [];
    }
    var n := RowCount(form.quantity);
    rows := BuildRows(form, draws, n);
    GeneratedRowsDetermined(form, draws, rows);
    if insert.Err? {
      return Refused(insert.message), s, rows;
    }
    reply := Done("Generated " + ParsedToString(form.quantity) + " " + form.codeType + " codes");
    s' := InsertCodes(s, ids, rows);
  }

  /** Two generated rows may carry the same code: equal draws give equal
      codes. */
  lemma GeneratedCodesMayCollide(form: CodeForm, rows: seq<KitCode>, draws: seq<seq<nat>>, i: nat, j: nat)
    requires |rows| <= |draws| && i < |rows| && j < |rows| && draws[i] == draws[j]
    requires forall k :: 0 <= k < |rows| ==> IsGeneratedRow(rows[k], form, draws[k])
    ensures rows[i].code == rows[j].code
  {
  }

  /** `deleteKitCode`: removes the row with the given id and nothing else. */
  function DeleteKitCode(
    s: Store, caller: Option<Id>, profileFails: bool, codeId: Id, delete: Fault): (r: (Reply, Store))
    ensures !AdminCaller(s, caller, profileFails) ==> r == (Refused(Unauthorized), s)
    ensures AdminCaller(s, caller, profileFails) && delete.Err? ==> r == (Refused(delete.message), s)
    ensures AdminCaller(s, caller, profileFails) && delete.Ok? ==> r.0 == Done("Code deleted successfully")
    ensures r.0.Done? ==>
              && AdminCaller(s, caller, profileFails) && delete.Ok?
              && r.1.codes.Keys == s.codes.Keys - {codeId}
              && (forall id :: id in r.1.codes ==> r.1.codes[id] == s.codes[id])
              && r.1 == s.(codes := r.1.codes)
  {
    if !AdminCaller(s, caller, profileFails) then (Refused(Unauthorized), s)
    else if delete.Err? then (Refused(delete.message), s)
    else (Done("Code deleted successfully"), s.(codes := s.codes - {codeId}))
  }

  /** The ledger row recording an admin grant. */
  function GrantPurchase(user: Id, kit: Id, now: Time): Purchase {
    Purchase(user, kit, 0, "USD", AdminGrant, Completed, None, Some(now))
  }

  /** `grantKitAccess`: upserts the `course_access` permission with the given
      expiry, then records a free admin grant. A failed upsert writes
      nothing; a failed ledger write still reports success. */
  function GrantKitAccess(
    s: Store, caller: Option<Id>, profileFails: bool, user: Id, kit: Id, expiresAt: Option<Time>, now: Time,
    upsert: Fault, ledgerFails: bool): (r: (Reply, Store))
    ensures !AdminCaller(s, caller, profileFails) ==> r == (Refused(Unauthorized), s)
    ensures AdminCaller(s, caller, profileFails) && upsert.Err? ==> r == (Refused(upsert.message), s)
    ensures AdminCaller(s, caller, profileFails) && upsert.Ok? ==>
              && r.0 == Done("Kit access granted successfully")
              && HasCourseAccess(r.1, user, kit)
              && r.1.permissions == s.permissions[PermKey(user, kit, CourseAccess) := Permission(expiresAt)]
              && r.1.purchases == s.purchases + (if ledgerFails then [] else [GrantPurchase(user, kit, now)])
              && r.1 == s.(permissions := r.1.permissions, purchases := r.1.purchases)
  {
    if !AdminCaller(s, caller, profileFails) then (Refused(Unauthorized), s)
    else if upsert.Err? then (Refused(upsert.message), s)
    else
      var s1 := UpsertCourseAccess(s, user, kit, expiresAt);
      (Done("Kit access granted successfully"),
       if ledgerFails then s1 else RecordPurchase(s1, GrantPurchase(user, kit, now)))
  }
}

=== FILE: cart.dfy ===
/** The shopping-cart store: a sequence of line items and an open flag.
    Prices are whole dollars. Persisting the cart to the browser's storage is
    not modelled. */
module Cart {
  import opened Common

  datatype ItemKind = KitItem | CourseItem

  datatype CartItem = CartItem(
    id: string, kind: ItemKind, name: string, price: nat, quantity: int,
    image: Option<string>, description: Option<string>)

  /** What `addItem` is given: an item without a quantity. */
  datatype NewItem = NewItem(
    id: string, kind: ItemKind, name: string, price: nat,
    image: Option<string>, description: Option<string>)

  datatype CartState = CartState(items: seq<CartItem>, isOpen: bool)

  const Empty := CartState([], false)

  predicate HasId(items: seq<CartItem>, id: string) {
    exists i :: 0 <= i < |items| && items[i].id == id
  }

  /** No two lines share an id. */
  predicate UniqueIds(items: seq<CartItem>) {
    forall i, j :: 0 <= i < j < |items| ==> items[i].id != items[j].id
  }

  // ---------------------------------------------------------------- totals

  /** `getTotal`: the sum of price times quantity over the lines. */
  function Total(items: seq<CartItem>): int {
    if items == [] then 0 else items[0].price * items[0].quantity + Total(items[1..])
  }

  /** `getItemCount`: the sum of the quantities. */
  function ItemCount(items: seq<CartItem>): int {
    if items == [] then 0 else items[0].quantity + ItemCount(items[1..])
  }

  lemma {:induction false} SumsOfConcat(a: seq<CartItem>, b: seq<CartItem>)
    ensures Total(a + b) == Total(a) + Total(b)
    ensures ItemCount(a + b) == ItemCount(a) + ItemCount(b)
  {
    if a == [] {
      assert a + b == b;
    } else {
      assert (a + b)[1..] == a[1..] + b;
      SumsOfConcat(a[1..], b);
    }
  }

  /** `getTotal` as its `reduce` computes it: left to right. */
  method GetTotal(c: CartState) returns (total: int)
    ensures total == Total(c.items)
  {
    total := 0;
    for i := 0 to |c.items|
      invariant total == Total(c.items[..i])
    {
      SumsOfConcat(c.items[..i], [c.items[i]]);
      assert c.items[..i + 1] == c.items[..i] + [c.items[i]];
      total := total + c.items[i].price * c.items[i].quantity;
    }
    assert c.items[..|c.items|] == c.items;
  }

  /** `getItemCount` as a left-to-right reduction. */
  method GetItemCount(c: CartState) returns (count: int)
    ensures count == ItemCount(c.items)
  {
    count := 0;
    for i := 0 to |c.items|
      invariant count == ItemCount(c.items[..i])
    {
      SumsOfConcat(c.items[..i], [c.items[i]]);
      assert c.items[..i + 1] == c.items[..i] + [c.items[i]];
      count := count + c.items[i].quantity;
    }
    assert c.items[..|c.items|] == c.items;
  }

  /** With no negative quantities, the total is never negative. */
  lemma {:induction false} TotalNonNegative(items: seq<CartItem>)
    requires forall i :: 0 <= i < |items| ==> items[i].quantity >= 0
    ensures Total(items) >= 0 && ItemCount(items) >= 0
  {
    if items != [] {
      TotalNonNegative(items[1..]);
    }
  }

  // ---------------------------------------------------------------- item edits

  /** Every line with `id` gets one more unit; the others stay. */
  function Incremented(items: seq<CartItem>, id: string): (r: seq<CartItem>)
    ensures |r| == |items|
    ensures forall i :: 0 <= i < |items| ==>
              r[i] == if items[i].id == id then items[i].(quantity := items[i].quantity + 1) else items[i]
  {
    if items == [] then []
    else
      var head := if items[0].id == id then items[0].(quantity := items[0].quantity + 1) else items[0];
      [head] + Incremented(items[1..], id)
  }

  /** Every line with `id` gets quantity `q`; the others stay. */
  function WithQuantity(items: seq<CartItem>, id: string, q: int): (r: seq<CartItem>)
    ensures |r| == |items|
    ensures forall i :: 0 <= i < |items| ==>
              r[i] == if items[i].id == id then items[i].(quantity := q) else items[i]
  {
    if items == [] then []
    else
      var head := if items[0].id == id then items[0].(quantity := q) else items[0];
      [head] + WithQuantity(items[1..], id, q)
  }

  /** The lines whose id is not `id`, in order. */
  function Without(items: seq<CartItem>, id: string): (r: seq<CartItem>)
    ensures |r| == |items| - Lines(items, id)
    ensures forall x :: x in r <==> x in items && x.id != id
  {
    if items == [] then []
    else if items[0].id == id then Without(items[1..], id)
    else [items[0]] + Without(items[1..], id)
  }

  /** Removal works line by line, so the kept lines stay in their order. */
  lemma {:induction false} WithoutConcat(a: seq<CartItem>, b: seq<CartItem>, id: string)
    ensures Without(a + b, id) == Without(a, id) + Without(b, id)
    decreases |a|
  {
    if a != [] {
      assert (a + b)[1..] == a[1..] + b;
      WithoutConcat(a[1..], b, id);
    } else {
      assert a + b == b;
    }
  }

  /** `addItem`: one more unit of a line already in the cart (its stored
      name and price are kept), or a new line with one unit at the end. */
  function AddItem(c: CartState, item: NewItem): (r: CartState)
    ensures r.isOpen == c.isOpen
    ensures !HasId(c.items, item.id) ==>
              r.items == c.items + [CartItem(item.id, item.kind, item.name, item.price, 1, item.image, item.description)]
    ensures HasId(c.items, item.id) ==>
              && |r.items| == |c.items|
              && forall i :: 0 <= i < |c.items| ==>
                   if c.items[i].id == item.id
                   then r.items[i] == c.items[i].(quantity := c.items[i].quantity + 1)
                   else r.items[i] == c.items[i]
  {
    if HasId(c.items, item.id) then c.(items := Incremented(c.items, item.id))
    else c.(items := c.items + [CartItem(item.id, item.kind, item.name, item.price, 1, item.image, item.description)])
  }

  /** `removeItem`. */
  function RemoveItem(c: CartState, id: string): (r: CartState)
    ensures r.isOpen == c.isOpen
    ensures !HasId(r.items, id)
    ensures forall x :: x in r.items <==> x in c.items && x.id != id
    ensures |r.items| == |c.items| - Lines(c.items, id)
  {
    c.(items := Without(c.items, id))
  }

  /** `updateQuantity`: a quantity of zero or less removes the line. */
  function UpdateQuantity(c: CartState, id: string, q: int): (r: CartState)
    ensures r.isOpen == c.isOpen
    ensures q <= 0 ==> r == RemoveItem(c, id)
    ensures q > 0 ==>
              && |r.items| == |c.items|
              && forall i :: 0 <= i < |c.items| ==>
                   if c.items[i].id == id then r.items[i] == c.items[i].(quantity := q)
                   else r.items[i] == c.items[i]
  {
    if q <= 0 then c.(items := Without(c.items, id))
    else c.(items := WithQuantity(c.items, id, q))
  }

  function ClearCart(c: CartState): (r: CartState)
    ensures r.items == [] && r.isOpen == c.isOpen
  {
    c.(items := [])
  }

  function OpenCart(c: CartState): (r: CartState)
    ensures r.isOpen && r.items == c.items
  {
    c.(isOpen := true)
  }

  function CloseCart(c: CartState): (r: CartState)
    ensures !r.isOpen && r.items == c.items
  {
    c.(isOpen := false)
  }

  function ToggleCart(c: CartState): (r: CartState)
    ensures r.isOpen != c.isOpen && r.items == c.items
  {
    c.(isOpen := !c.isOpen)
  }

  lemma ToggleTwiceIsIdentity(c: CartState)
    ensures ToggleCart(ToggleCart(c)) == c
  {
  }

  // ---------------------------------------------------------------- properties

  /** How many lines carry `id`, and the sum of their prices. */
  function Lines(items: seq<CartItem>, id: string): nat {
    if items == [] then 0 else (if items[0].id == id then 1 else 0) + Lines(items[1..], id)
  }

  function LinePrices(items: seq<CartItem>, id: string): nat {
    if items == [] then 0 else (if items[0].id == id then items[0].price else 0) + LinePrices(items[1..], id)
  }

  /** Incrementing adds one unit per matching line, and that line's price
      per matching line to the total. */
  lemma {:induction false} IncrementedSums(items: seq<CartItem>, id: string)
    ensures ItemCount(Incremented(items, id)) == ItemCount(items) + Lines(items, id)
    ensures Total(Incremented(items, id)) == Total(items) + LinePrices(items, id)
  {
    if items != [] {
      assert Incremented(items, id)[1..] == Incremented(items[1..], id);
      IncrementedSums(items[1..], id);
    }
  }

  /** With unique ids, an id present in the cart is on exactly one line. */
  lemma {:induction false} PresentIdOnOneLine(items: seq<CartItem>, id: string, k: int)
    requires UniqueIds(items) && 0 <= k < |items| && items[k].id == id
    ensures Lines(items, id) == 1 && LinePrices(items, id) == items[k].price
  {
    if k == 0 {
      AbsentIdOnNoLine(items[1..], id);
    } else {
      assert items[0].id != id;
      PresentIdOnOneLine(items[1..], id, k - 1);
    }
  }

  lemma {:induction false} AbsentIdOnNoLine(items: seq<CartItem>, id: string)
    requires forall i :: 0 <= i < |items| ==> items[i].id != id
    ensures Lines(items, id) == 0 && LinePrices(items, id) == 0
  {
    if items != [] {
      AbsentIdOnNoLine(items[1..], id);
    }
  }

  /** Adding an item to a cart whose ids are unique keeps them unique, adds
      exactly one unit, and adds the price of the line that receives it:
      the stored price when the id is already there, else the new item's. */
  lemma AddItemAddsOneUnit(c: CartState, item: NewItem)
    requires UniqueIds(c.items)
    ensures UniqueIds(AddItem(c, item).items)
    ensures ItemCount(AddItem(c, item).items) == ItemCount(c.items) + 1
    ensures Total(AddItem(c, item).items) ==
              Total(c.items) + if HasId(c.items, item.id)
                               then LinePrices(c.items, item.id) else item.price
  {
    if HasId(c.items, item.id) {
      var k :| 0 <= k < |c.items| && c.items[k].id == item.id;
      IncrementOnPresentLine(c.items, item.id, k);
    } else {
      var line := CartItem(item.id, item.kind, item.name, item.price, 1, item.image, item.description);
      AppendNewIdKeepsUniqueIds(c.items, line);
      SumsOfConcat(c.items, [line]);
      assert [line][1..] == [];
    }
  }

  /** Incrementing the one line that carries `id` keeps ids unique, adds
      one unit, and adds that line's price. */
  lemma IncrementOnPresentLine(items: seq<CartItem>, id: string, k: int)
    requires UniqueIds(items) && 0 <= k < |items| && items[k].id == id
    ensures UniqueIds(Incremented(items, id))
    ensures ItemCount(Incremented(items, id)) == ItemCount(items) + 1
    ensures Total(Incremented(items, id)) == Total(items) + LinePrices(items, id)
  {
    PresentIdOnOneLine(items, id, k);
    IncrementedSums(items, id);
    var r := Incremented(items, id);
    assert forall i :: 0 <= i < |r| ==> r[i].id == items[i].id;
  }

  /** Appending a line whose id is new keeps ids unique. */
  lemma AppendNewIdKeepsUniqueIds(items: seq<CartItem>, line: CartItem)
    requires UniqueIds(items) && !HasId(items, line.id)
    ensures UniqueIds(items + [line])
  {
    var r := items + [line];
    forall i, j | 0 <= i < j < |r|
      ensures r[i].id != r[j].id
    {
      assert r[i] == items[i];
      if j < |items| { assert r[j] == items[j]; }
    }
  }

  /** Removal keeps ids unique. */
  lemma RemovePreservesUniqueIds(c: CartState, id: string)
    requires UniqueIds(c.items)
    ensures UniqueIds(RemoveItem(c, id).items)
  {
    WithoutKeepsUniqueIds(c.items, id);
  }

  /** Dropping lines keeps the remaining ids unique. */
  lemma {:induction false} WithoutKeepsUniqueIds(items: seq<CartItem>, id: string)
    requires UniqueIds(items)
    ensures UniqueIds(Without(items, id))
  {
    if items != [] {
      WithoutKeepsUniqueIds(items[1..], id);
      var rest := Without(items[1..], id);
      if items[0].id != id {
        assert forall x :: x in rest ==> x in items[1..];
        assert forall j :: 0 <= j < |rest| ==> rest[j].id != items[0].id by {
          forall j | 0 <= j < |rest|
            ensures rest[j].id != items[0].id
          {
            assert rest[j] in items[1..];
          }
        }
        assert Without(items, id) == [items[0]] + rest;
      }
    }
  }

  /** Setting a quantity keeps the ids (and so their uniqueness). */
  lemma UpdatePreservesUniqueIds(c: CartState, id: string, q: int)
    requires UniqueIds(c.items)
    ensures UniqueIds(UpdateQuantity(c, id, q).items)
  {
    if q <= 0 {
      RemovePreservesUniqueIds(c, id);
    }
  }
}

=== FILE: common.dfy ===
/** Helpers shared by every module of the model: optional values, the
    JavaScript coercions the request handlers apply to form fields,
    ECMAScript whitespace trimming and decimal rendering of numbers. */
module Common {

  /** A value that may be `null` / `undefined` in JavaScript. */
  datatype Option<+T> = None | Some(value: T) {
    function GetOr(default: T): T {
      match this
      case Some(v) => v
      case None => default
    }
  }

  /** A write to the backing store either succeeds or reports an error message. */
  datatype Fault = Ok | Err(message: string)

  /** What JavaScript's `parseInt` / `parseFloat` returned for a form field.
      Numbers are whole numbers in this model. */
  datatype Parsed = NaN | Num(value: int)

  /** JavaScript's `parsed || fallback`: `NaN` and `0` are the falsy numbers. */
  function OrDefault(p: Parsed, fallback: int): int {
    if p.Num? && p.value != 0 then p.value else fallback
  }

  lemma OrDefaultSpec(p: Parsed, fallback: int)
    ensures OrDefault(p, fallback) == fallback <==> (p.NaN? || p.value == 0 || p.value == fallback)
    ensures OrDefault(p, fallback) != fallback ==> p == Num(OrDefault(p, fallback))
  {
  }

  /** A form field compared with `=== 'true'`. */
  predicate FormFlag(field: Option<string>) {
    field == Some("true")
  }

  /** JavaScript truthiness of a form field: `null` and `""` are falsy. */
  predicate Present(field: Option<string>) {
    field.Some? && field.value != ""
  }

  /** The only element of a one-element set. */
  lemma SingletonSet<T>(m: set<T>, x: T)
    requires |m| == 1 && x in m
    ensures m == {x}
  {
    var rest := m - {x};
    assert |rest| == 0;
    assert rest == {};
  }

  function TheElement<T>(m: set<T>): (r: T)
    requires |m| == 1
    ensures m == {r}
  {
    assert forall a, b :: a in m && b in m ==> a == b by {
      forall a, b | a in m && b in m
        ensures a == b
      {
        SingletonSet(m, a);
      }
    }
    var x :| x in m;
    SingletonSet(m, x);
    x
  }

  // ---------------------------------------------------------------------
  // String.prototype.trim

  /** ECMAScript WhiteSpace and LineTerminator code points, the characters
      `trim` removes. */
  predicate IsJsSpace(c: char) {
    || ('\t' <= c <= '\r') || c == ' ' || c == '\U{00A0}' || c == '\U{1680}'
    || ('\U{2000}' <= c <= '\U{200A}')
    || c == '\U{2028}' || c == '\U{2029}' || c == '\U{202F}' || c == '\U{205F}'
    || c == '\U{3000}' || c == '\U{FEFF}'
  }

  predicate AllSpace(s: string) {
    AllOf(s, IsJsSpace)
  }

  /** `s.trim()`: the input with its whitespace prefix and suffix removed. */
  function Trim(s: string): (r: string)
    ensures exists i, j {:trigger s[i..j]} ::
              (0 <= i <= j <= |s| && r == s[i..j] && AllSpace(s[..i]) && AllSpace(s[j..]))
    ensures r != [] ==> !IsJsSpace(r[0]) && !IsJsSpace(r[|r| - 1])
    ensures r == [] <==> AllSpace(s)
  {
    TrimBy(s, IsJsSpace)
  }

  lemma TrimIdempotent(s: string)
    ensures Trim(Trim(s)) == Trim(s)
  {
    TrimByIdempotent(s, IsJsSpace);
  }

  // The trimming argument does not depend on which characters count as
  // whitespace, so it is made once for any character class `p`.

  predicate AllOf(s: string, p: char -> bool) {
    forall i :: 0 <= i < |s| ==> p(s[i])
  }

  /** Length of the longest prefix of `p` characters. */
  function LeadingRun(s: string, p: char -> bool): (n: nat)
    ensures n <= |s|
    ensures AllOf(s[..n], p)
    ensures n < |s| ==> !p(s[n])
  {
    if |s| == 0 || !p(s[0]) then 0
    else
      var n := 1 + LeadingRun(s[1..], p);
      assert s[..n] == [s[0]] + s[1..][..n - 1];
      n
  }

  /** Length of the longest suffix of `p` characters. */
  function TrailingRun(s: string, p: char -> bool): (n: nat)
    ensures n <= |s|
    ensures AllOf(s[|s| - n..], p)
    ensures n < |s| ==> !p(s[|s| - n - 1])
  {
    if |s| == 0 || !p(s[|s| - 1]) then 0
    else
      var t := s[..|s| - 1];
      var n := 1 + TrailingRun(t, p);
      assert s[|s| - n..] == t[|t| - (n - 1)..] + [s[|s| - 1]];
      n
  }

  /** A string whose parts before `i` and from `j` on are `p` characters
      is all `p` characters when nothing lies between them. */
  lemma RunsAround(s: string, p: char -> bool, i: nat, j: nat)
    requires i <= j <= |s| && AllOf(s[..i], p) && AllOf(s[j..], p)
    ensures i == j ==> AllOf(s, p)
  {
    if i == j {
      forall m | 0 <= m < |s|
        ensures p(s[m])
      {
        if m < i {
          assert s[m] == s[..i][m];
        } else {
          assert s[m] == s[j..][m - j];
        }
      }
    }
  }

  /** `s` with its leading and trailing `p` characters removed. */
  function TrimBy(s: string, p: char -> bool): (r: string)
    ensures exists i, j {:trigger s[i..j]} ::
              (0 <= i <= j <= |s| && r == s[i..j] && AllOf(s[..i], p) && AllOf(s[j..], p))
    ensures r != [] ==> !p(r[0]) && !p(r[|r| - 1])
    ensures r == [] <==> AllOf(s, p)
  {
    var i := LeadingRun(s, p);
    var t := s[i..];
    var k := TrailingRun(t, p);
    assert s[|s| - k..] == t[|t| - k..];
    assert k < |t| ==> s[|s| - k - 1] == t[|t| - k - 1];
    TrimmedSlice(s, p, i, k);
    s[i..|s| - k]
  }

  /** Cutting a maximal run of `p` characters from each end leaves a slice
      with no `p` character at either end, empty only when every character
      is a `p` character. */
  lemma TrimmedSlice(s: string, p: char -> bool, i: nat, k: nat)
    requires i + k <= |s|
    requires AllOf(s[..i], p) && AllOf(s[|s| - k..], p)
    requires i + k < |s| ==> !p(s[i]) && !p(s[|s| - k - 1])
    ensures var r := s[i..|s| - k];
            && (r != [] ==> !p(r[0]) && !p(r[|r| - 1]))
            && (r == [] <==> AllOf(s, p))
  {
    if i + k == |s| {
      RunsAround(s, p, i, |s| - k);
    }
  }

  lemma TrimByIdempotent(s: string, p: char -> bool)
    ensures TrimBy(TrimBy(s, p), p) == TrimBy(s, p)
  {
    var r := TrimBy(s, p);
    if r != [] {
      assert LeadingRun(r, p) == 0;
      assert TrailingRun(r, p) == 0;
    } else {
      assert TrimBy(r, p) == [];
    }
  }

  // ---------------------------------------------------------------------
  // Decimal rendering of whole numbers (Number.prototype.toString)

  predicate IsDigit(c: char) {
    '0' <= c <= '9'
  }

  predicate AllDigits(s: string) {
    forall i :: 0 <= i < |s| ==> IsDigit(s[i])
  }

  function DigitChar(d: nat): (c: char)
    requires d < 10
  {
    "0123456789"[d]
  }

  function DigitValue(c: char): nat
    requires IsDigit(c)
  {
    (c - '0') as nat
  }

  /** The value of a string of decimal digits. */
  function DecimalValue(s: string): nat
    requires AllDigits(s)
  {
    if s == [] then 0 else 10 * DecimalValue(s[..|s| - 1]) + DigitValue(s[|s| - 1])
  }

  /** The decimal numeral of `n`, without leading zeros. */
  function NatToString(n: nat): (r: string)
    ensures |r| >= 1 && AllDigits(r)
    ensures r[0] == '0' <==> n == 0
  {
    if n < 10 then [DigitChar(n)]
    else NatToString(n / 10) + [DigitChar(n % 10)]
  }

  /** The decimal numeral of `i`, with a leading `-` when negative. */
  function IntToString(i: int): string {
    if i < 0 then "-" + NatToString(-i) else NatToString(i)
  }

  /** Reading the numeral back yields the number: `NatToString` loses nothing. */
  lemma {:induction false} NatToStringRoundTrip(n: nat)
    ensures DecimalValue(NatToString(n)) == n
  {
    if n >= 10 {
      NatToStringRoundTrip(n / 10);
      var r := NatToString(n);
      assert r[..|r| - 1] == NatToString(n / 10);
    }
  }

  lemma NatToStringInjective(m: nat, n: nat)
    requires NatToString(m) == NatToString(n)
    ensures m == n
  {
    NatToStringRoundTrip(m);
    NatToStringRoundTrip(n);
  }
}

=== FILE: course_authoring.dfy ===
/** The course-authoring actions: `createCourse`, `updateCourse`,
    `createLesson` and `deleteLesson`. Each needs a signed-in user; creating
    a course needs `course_access` to its kit, and the other three act only
    on courses the user created. */
module CourseAuthoring {
  import opened Common
  import opened Store
  import opened Sorting

  const LogInToCreateCourses := "Please log in to create courses"
  const LogInToUpdateCourses := "Please log in to update courses"
  const LogInToCreateLessons := "Please log in to create lessons"
  const LogIn := "Please log in"
  const NoKitAccess := "You do not have access to the selected kit"
  const CourseNotEditable := "Course not found or you do not have permission to edit it"
  const CourseNotFoundOrDenied := "Course not found or permission denied"
  const LessonNotFound := "Lesson not found"
  const Forbidden := "Forbidden"

  const LoadFailed := "Failed to load create course data"

  datatype Page =
    | Redirect(status: int, location: string)
    | Editor(kits: seq<KitRow>, userCourses: seq<CourseRow>, error: Option<string>)

  /** The `.in('id', ids)` filter on kits. */
  function KitIn(ids: set<Id>): KitRow -> bool {
    (r: KitRow) => r.id in ids
  }

  /** The kits the user may build a course on: those of their
      `course_access` permissions, none when that read fails. */
  function AuthorKits(s: Store, user: Id, permissionsFails: bool): (r: set<Id>)
    ensures forall k :: k in r <==> !permissionsFails && HasCourseAccess(s, user, k)
  {
    if permissionsFails then {} else CourseKitIds(s, user)
  }

  /** The page load: the kits the user may build on, by level, and the
      user's own courses, newest first. `kits` and `custom` are the rows of
      the two tables the queries read. A failed kit or course query is
      caught and empties the page. */
  function Load(
    s: Store, user: Option<Id>, kits: seq<KitRow>, custom: seq<CourseRow>,
    permissionsFails: bool, kitsFails: bool, coursesFails: bool): (p: Page)
    requires KitTable(kits, s.kits) && CourseTable(custom, s.courses)
    ensures p.Redirect? <==> user.None?
    ensures p.Redirect? ==> p == Redirect(302, "/login")
    ensures user.Some? && (kitsFails || coursesFails) ==> p == Editor([], [], Some(LoadFailed))
    ensures user.Some? && !kitsFails && !coursesFails ==>
              && p.Editor? && p.error.None?
              && Lists(p.kits, kits, KitIn(AuthorKits(s, user.value, permissionsFails)), KitLevel)
              && Lists(p.userCourses, custom, CreatorFilter(user.value), NewestFirst)
  {
    if user.None? then Redirect(302, "/login")
    else if kitsFails || coursesFails then Editor([], [], Some(LoadFailed))
    else
      var held := KitIn(AuthorKits(s, user.value, permissionsFails));
      Editor(SortBy(Filter(kits, held), KitLevel),
             SortBy(Filter(custom, CreatorFilter(user.value)), NewestFirst), None)
  }

  /** The page offers exactly the stored kits the user holds `course_access`
      to, and lists exactly the stored courses they created. */
  lemma LoadOffersHeldKits(
    s: Store, user: Id, kits: seq<KitRow>, custom: seq<CourseRow>, permissionsFails: bool)
    requires KitTable(kits, s.kits) && CourseTable(custom, s.courses)
    ensures var p := Load(s, Some(user), kits, custom, permissionsFails, false, false);
            && (forall r :: r in p.kits <==>
                  r.id in s.kits && r.kit == s.kits[r.id] && !permissionsFails && HasCourseAccess(s, user, r.id))
            && (forall c :: c in p.userCourses <==>
                  c.id in s.courses && c.course == s.courses[c.id] && c.course.creatorId == user)
  {
    var p := Load(s, Some(user), kits, custom, permissionsFails, false, false);
    ListsMembers(p.kits, kits, KitIn(AuthorKits(s, user, permissionsFails)), KitLevel);
    ListsMembers(p.userCourses, custom, CreatorFilter(user), NewestFirst);
  }

  datatype Reply =
    | CourseCreated(courseId: Id, message: string)
    | LessonCreated(lessonId: Id, message: string)
    | Done(message: string)
    | Refused(error: string)

  /** The submitted course fields. `price` is what `parseFloat` returned;
      `estimatedDuration` is `None` when the field was missing or empty and
      otherwise what `parseInt` returned. */
  datatype CourseForm = CourseForm(
    title: string, description: string, kitId: Option<Id>, price: Parsed,
    isPublic: Option<string>, isPublished: Option<string>, estimatedDuration: Option<Parsed>)

  /** The course a successful `createCourse` inserts: owned by the caller,
      unpublished whatever the form says, price defaulting to 0. */
  function NewCourse(user: Id, kit: Id, form: CourseForm, now: Time): CustomCourse {
    CustomCourse(user, kit, form.title, form.description, OrDefault(form.price, 0),
                 FormFlag(form.isPublic), false, form.estimatedDuration, now)
  }

  /** `createCourse`. A failed permission read reads as no permission. */
  function CreateCourse(
    s: Store, user: Option<Id>, newId: Id, form: CourseForm, now: Time,
    permissionCheckFails: bool, insert: Fault): (r: (Reply, Store))
    requires newId !in s.courses
    ensures user.None? ==> r == (Refused(LogInToCreateCourses), s)
    ensures user.Some? && (form.kitId.None? || permissionCheckFails || !HasCourseAccess(s, user.value, form.kitId.value))
            ==> r == (Refused(NoKitAccess), s)
    ensures user.Some? && form.kitId.Some? && !permissionCheckFails && HasCourseAccess(s, user.value, form.kitId.value)
            ==> && (insert.Err? ==> r == (Refused(insert.message), s))
                && (insert.Ok? ==> r.0 == CourseCreated(newId, "Course created successfully!"))
    ensures r.0.Refused? ==> r.1 == s
    ensures r.0.CourseCreated? ==>
              && user.Some? && form.kitId.Some? && HasCourseAccess(s, user.value, form.kitId.value)
              && r.0.courseId == newId && newId in r.1.courses
              && r.1 == s.(courses := s.courses[newId := r.1.courses[newId]])
              && var c := r.1.courses[newId];
              && c.creatorId == user.value && c.kitId == form.kitId.value
              && c.title == form.title && c.description == form.description
              && !c.isPublished && (c.isPublic <==> form.isPublic == Some("true"))
              && c.price == OrDefault(form.price, 0)
              && (c.price == 0 <==> form.price.NaN? || form.price.value == 0)
              && c.estimatedDuration == form.estimatedDuration && c.createdAt == now
  {
    if user.None? then (Refused(LogInToCreateCourses), s)
    else if form.kitId.None? || permissionCheckFails || !HasCourseAccess(s, user.value, form.kitId.value) then
      (Refused(NoKitAccess), s)
    else if insert.Err? then (Refused(insert.message), s)
    else
      (CourseCreated(newId, "Course created successfully!"),
       s.(courses := s.courses[newId := NewCourse(user.value, form.kitId.value, form, now)]))
  }

  /** A course the action created is listed among its author's courses
      the next time the page loads. */
  lemma CreatedCourseIsListed(
    s: Store, user: Id, newId: Id, form: CourseForm, now: Time, permissionCheckFails: bool, insert: Fault,
    kits: seq<KitRow>, custom: seq<CourseRow>, permissionsFails: bool)
    requires newId !in s.courses
    requires var s' := CreateCourse(s, Some(user), newId, form, now, permissionCheckFails, insert).1;
             KitTable(kits, s'.kits) && CourseTable(custom, s'.courses)
    ensures var r := CreateCourse(s, Some(user), newId, form, now, permissionCheckFails, insert);
            r.0.CourseCreated? ==>
              CourseRow(newId, r.1.courses[newId])
                in Load(r.1, Some(user), kits, custom, permissionsFails, false, false).userCourses
  {
    var r := CreateCourse(s, Some(user), newId, form, now, permissionCheckFails, insert);
    if r.0.CourseCreated? {
      LoadOffersHeldKits(r.1, user, kits, custom, permissionsFails);
    }
  }

  /** The course `id` exists and `user` created it (the ownership read). */
  predicate Owns(s: Store, user: Id, id: Id) {
    id in s.courses && s.courses[id].creatorId == user
  }

  /** `updateCourse`: rewrites the editable fields of a course the user
      owns; the creator and the kit never change. */
  function UpdateCourse(
    s: Store, user: Option<Id>, courseId: Id, form: CourseForm,
    ownershipCheckFails: bool, update: Fault): (r: (Reply, Store))
    ensures user.None? ==> r == (Refused(LogInToUpdateCourses), s)
    ensures user.Some? && (ownershipCheckFails || !Owns(s, user.value, courseId))
            ==> r == (Refused(CourseNotEditable), s)
    ensures user.Some? && !ownershipCheckFails && Owns(s, user.value, courseId)
            ==> && (update.Err? ==> r == (Refused(update.message), s))
                && (update.Ok? ==> r.0 == Done("Course updated successfully!"))
    ensures r.0.Refused? ==> r.1 == s
    ensures r.1 != s ==> user.Some? && Owns(s, user.value, courseId)
    ensures r.0.Done? ==>
              && user.Some? && Owns(s, user.value, courseId) && update.Ok? && courseId in r.1.courses
              && r.1 == s.(courses := s.courses[courseId := r.1.courses[courseId]])
              && var (old_, new_) := (s.courses[courseId], r.1.courses[courseId]);
              && new_.creatorId == old_.creatorId && new_.kitId == old_.kitId
              && new_.title == form.title && new_.description == form.description
              && new_.price == OrDefault(form.price, 0)
              && (new_.isPublic <==> form.isPublic == Some("true"))
              && (new_.isPublished <==> form.isPublished == Some("true"))
              && new_.estimatedDuration == form.estimatedDuration
  {
    if user.None? then (Refused(LogInToUpdateCourses), s)
    else if ownershipCheckFails || !Owns(s, user.value, courseId) then (Refused(CourseNotEditable), s)
    else if update.Err? then (Refused(update.message), s)
    else
      var c := s.courses[courseId];
      var c' := c.(title := form.title, description := form.description,
                   price := OrDefault(form.price, 0), isPublic := FormFlag(form.isPublic),
                   isPublished := FormFlag(form.isPublished), estimatedDuration := form.estimatedDuration);
      (Done("Course updated successfully!"), s.(courses := s.courses[courseId := c']))
  }

  /** `createLesson`: adds an unpublished text lesson to a course the user
      owns; an order index that parses to `NaN` or 0 becomes 1. */
  function CreateLesson(
    s: Store, user: Option<Id>, newId: Id, courseId: Id, title: string,
    orderIndex: Parsed, estimatedDuration: Option<Parsed>,
    ownershipCheckFails: bool, insert: Fault): (r: (Reply, Store))
    requires newId !in s.lessons
    ensures user.None? ==> r == (Refused(LogInToCreateLessons), s)
    ensures user.Some? && (ownershipCheckFails || !Owns(s, user.value, courseId))
            ==> r == (Refused(CourseNotFoundOrDenied), s)
    ensures user.Some? && !ownershipCheckFails && Owns(s, user.value, courseId)
            ==> && (insert.Err? ==> r == (Refused(insert.message), s))
                && (insert.Ok? ==> r.0 == LessonCreated(newId, "Lesson created!"))
    ensures r.0.Refused? ==> r.1 == s
    ensures r.0.LessonCreated? ==>
              && user.Some? && Owns(s, user.value, courseId) && r.0.lessonId == newId
              && newId in r.1.lessons
              && r.1 == s.(lessons := s.lessons[newId := r.1.lessons[newId]])
              && var l := r.1.lessons[newId];
              && l.courseId == courseId && l.courseType == Custom && l.contentType == Text
              && l.title == title && !l.isPublished && l.estimatedDuration == estimatedDuration
              && l.orderIndex != 0
              && (orderIndex.Num? && orderIndex.value != 0 ==> l.orderIndex == orderIndex.value)
              && (orderIndex.NaN? || orderIndex.value == 0 ==> l.orderIndex == 1)
  {
    if user.None? then (Refused(LogInToCreateLessons), s)
    else if ownershipCheckFails || !Owns(s, user.value, courseId) then (Refused(CourseNotFoundOrDenied), s)
    else if insert.Err? then (Refused(insert.message), s)
    else
      var l := Lesson(courseId, Custom, title, Text, OrDefault(orderIndex, 1), estimatedDuration, false);
      (LessonCreated(newId, "Lesson created!"), s.(lessons := s.lessons[newId := l]))
  }

  /** `deleteLesson`: only a custom-course lesson, and only by the creator
      of its course. A failed read of the lesson reads as "not found"; a
      failed or empty read of its course reads as "forbidden". */
  function DeleteLesson(
    s: Store, user: Option<Id>, lessonId: Id,
    lessonLookupFails: bool, courseLookupFails: bool, delete: Fault): (r: (Reply, Store))
    ensures user.None? ==> r == (Refused(LogIn), s)
    ensures user.Some? && (lessonLookupFails || lessonId !in s.lessons || s.lessons[lessonId].courseType != Custom)
            ==> r == (Refused(LessonNotFound), s)
    ensures (user.Some? && !lessonLookupFails && lessonId in s.lessons && s.lessons[lessonId].courseType == Custom
             && !courseLookupFails && Owns(s, user.value, s.lessons[lessonId].courseId))
            ==> && (delete.Err? ==> r == (Refused(delete.message), s))
                && (delete.Ok? ==> r.0 == Done("Lesson deleted"))
    ensures r.0.Refused? ==> r.1 == s
    ensures r.0.Done? ==>
              && user.Some? && lessonId in s.lessons && s.lessons[lessonId].courseType == Custom
              && !courseLookupFails && Owns(s, user.value, s.lessons[lessonId].courseId)
              && r.1 == s.(lessons := s.lessons - {lessonId})
    ensures (user.Some? && !lessonLookupFails && lessonId in s.lessons && s.lessons[lessonId].courseType == Custom
             && (courseLookupFails || !Owns(s, user.value, s.lessons[lessonId].courseId)))
            ==> r == (Refused(Forbidden), s)
  {
    if user.None? then (Refused(LogIn), s)
    else if lessonLookupFails || lessonId !in s.lessons || s.lessons[lessonId].courseType != Custom then
      (Refused(LessonNotFound), s)
    else if courseLookupFails || !Owns(s, user.value, s.lessons[lessonId].courseId) then
      (Refused(Forbidden), s)
    else if delete.Err? then (Refused(delete.message), s)
    else (Done("Lesson deleted"), s.(lessons := s.lessons - {lessonId}))
  }
}

=== FILE: course_listing.dfy ===
/** The course catalogue page: its `load`, which lists official and
    community courses for the kit chosen in the query string or, failing
    that, for the kits the user holds, and its `createCourse` action. */
module CourseListing {
  import opened Common
  import opened Store
  import opened Sorting
  import CourseAuthoring

  const LoadFailed := "Failed to load courses"
  const PleaseLogIn := "Please log in"


  /** Which queries fail. A failed permission read or a failed read of the
      user's own courses reads as "no rows"; any other failure is thrown
      and caught by the handler. */
  datatype Faults = Faults(
    kitsFails: bool, permissionsFails: bool, officialFails: bool,
    customFails: bool, userCoursesFails: bool)

  datatype Page = Page(
    kits: seq<KitRow>, officialCourses: seq<OfficialCourse>,
    customCourses: seq<CourseRow>, userCourses: seq<CourseRow>,
    selectedKit: Option<string>, userKits: set<Id>,
    canCreateCourses: bool, error: Option<string>)

  /** The kits whose courses are listed: the kit named in the query string
      when there is a non-empty one, else the kits the user holds. */
  datatype KitScope = OneKit(kit: Id) | AnyOf(kits: set<Id>) | NoKits

  function ScopeOf(selectedKit: Option<string>, userKits: set<Id>): (k: KitScope)
    ensures k.OneKit? <==> Present(selectedKit)
    ensures k.AnyOf? <==> !Present(selectedKit) && userKits != {}
    ensures k.OneKit? ==> k.kit == selectedKit.value
    ensures k.AnyOf? ==> k.kits == userKits
  {
    if Present(selectedKit) then OneKit(selectedKit.value)
    else if userKits != {} then AnyOf(userKits)
    else NoKits
  }

  predicate InScope(scope: KitScope, kit: Id) {
    match scope
    case OneKit(k) => kit == k
    case AnyOf(ks) => kit in ks
    case NoKits => false
  }

  /** The query filters, as predicates on rows. */
  function OfficialFilter(scope: KitScope): OfficialCourse -> bool {
    (c: OfficialCourse) => c.isPublished && InScope(scope, c.kitId)
  }

  function CustomFilter(scope: KitScope): CourseRow -> bool {
    (r: CourseRow) => r.course.isPublished && r.course.isPublic && InScope(scope, r.course.kitId)
  }

  function All<T>(): T -> bool {
    (_: T) => true
  }

  /** Official courses are listed by level ascending. */
  function CourseLevel(c: OfficialCourse): int { c.level }

  /** The page shown when any thrown query failure is caught. */
  function ErrorPage(selectedKit: Option<string>): Page {
    Page([], [], [], [], selectedKit, {}, false, Some(LoadFailed))
  }

  /** The kit ids of the user's `course_access` permissions; empty when
      signed out or when the read fails. */
  function UserKits(s: Store, user: Option<Id>, permissionsFails: bool): (r: set<Id>)
    ensures user.None? || permissionsFails ==> r == {}
    ensures user.Some? && !permissionsFails ==> forall k :: k in r <==> HasCourseAccess(s, user.value, k)
  {
    if user.None? || permissionsFails then {} else CourseKitIds(s, user.value)
  }

  /** The whole `load`. The official and community queries run only when
      there is a kit scope, so only then can their failure matter. `kits`,
      `official` and `custom` are the rows of the store's tables. */
  function Load(
    s: Store, user: Option<Id>, selectedKit: Option<string>,
    kits: seq<KitRow>, official: seq<OfficialCourse>, custom: seq<CourseRow>,
    f: Faults): (p: Page)
    requires KitTable(kits, s.kits) && OfficialTable(official, s.official) && CourseTable(custom, s.courses)
    ensures var scope := ScopeOf(selectedKit, UserKits(s, user, f.permissionsFails));
            (f.kitsFails || (!scope.NoKits? && (f.officialFails || f.customFails)))
            <==> p.error.Some?
    ensures p.error.Some? ==> p == ErrorPage(selectedKit)
    ensures p.selectedKit == selectedKit
    ensures p.canCreateCourses <==> p.userKits != {}
    ensures p.error.None? ==>
              var scope := ScopeOf(selectedKit, p.userKits);
              && p.userKits == UserKits(s, user, f.permissionsFails)
              && Lists(p.kits, kits, All(), KitLevel)
              && Lists(p.officialCourses, official, OfficialFilter(scope), CourseLevel)
              && Lists(p.customCourses, custom, CustomFilter(scope), NewestFirst)
              && (if user.Some? && p.userKits != {} && !f.userCoursesFails
                  then Lists(p.userCourses, custom, CreatorFilter(user.value), NewestFirst)
                  else p.userCourses == [])
  {
    var userKits := UserKits(s, user, f.permissionsFails);
    var scope := ScopeOf(selectedKit, userKits);
    if f.kitsFails || (!scope.NoKits? && (f.officialFails || f.customFails)) then ErrorPage(selectedKit)
    else
      // Without a scope the queries are skipped; no row would pass them.
      FilterRejectingAll(official, OfficialFilter(NoKits));
      FilterRejectingAll(custom, CustomFilter(NoKits));
      var officialCourses := if scope.NoKits? then [] else SortBy(Filter(official, OfficialFilter(scope)), CourseLevel);
      var customCourses := if scope.NoKits? then [] else SortBy(Filter(custom, CustomFilter(scope)), NewestFirst);
      var userCourses :=
        if user.Some? && userKits != {} && !f.userCoursesFails
        then SortBy(Filter(custom, CreatorFilter(user.value)), NewestFirst)
        else [];
      Page(SortBy(Filter(kits, All()), KitLevel), officialCourses, customCourses, userCourses,
           selectedKit, userKits, userKits != {}, None)
  }

  /** With a kit in the query string, the official courses are exactly the
      published ones of that kit, in level order, whether or not the user
      holds the kit; community courses must also be public. */
  lemma SelectedKitListing(
    s: Store, user: Option<Id>, selectedKit: Option<string>,
    kits: seq<KitRow>, official: seq<OfficialCourse>, custom: seq<CourseRow>, f: Faults)
    requires KitTable(kits, s.kits) && OfficialTable(official, s.official) && CourseTable(custom, s.courses)
    requires Present(selectedKit)
    requires !f.kitsFails && !f.officialFails && !f.customFails
    ensures var p := Load(s, user, selectedKit, kits, official, custom, f);
            && p.error.None?
            && SortedBy(p.officialCourses, CourseLevel)
            && (forall c :: c in p.officialCourses <==>
                  c in s.official && c.isPublished && c.kitId == selectedKit.value)
            && (forall r :: r in p.customCourses <==>
                  && r.id in s.courses && r.course == s.courses[r.id]
                  && r.course.isPublished && r.course.isPublic && r.course.kitId == selectedKit.value)
  {
    var p := Load(s, user, selectedKit, kits, official, custom, f);
    var scope := OneKit(selectedKit.value);
    ListsMembers(p.officialCourses, official, OfficialFilter(scope), CourseLevel);
    ListsMembers(p.customCourses, custom, CustomFilter(scope), NewestFirst);
  }

  /** Without a kit in the query string, the listings cover the kits the user
      holds. */
  lemma OwnedKitsListing(
    s: Store, user: Id, selectedKit: Option<string>,
    kits: seq<KitRow>, official: seq<OfficialCourse>, custom: seq<CourseRow>, f: Faults)
    requires KitTable(kits, s.kits) && OfficialTable(official, s.official) && CourseTable(custom, s.courses)
    requires !Present(selectedKit)
    requires !f.kitsFails && !f.permissionsFails && !f.officialFails && !f.customFails
    ensures var p := Load(s, Some(user), selectedKit, kits, official, custom, f);
            && p.error.None?
            && (forall c :: c in p.officialCourses <==>
                  c in s.official && c.isPublished && HasCourseAccess(s, user, c.kitId))
            && (forall r :: r in p.customCourses <==>
                  && r.id in s.courses && r.course == s.courses[r.id]
                  && r.course.isPublished && r.course.isPublic && HasCourseAccess(s, user, r.course.kitId))
  {
    var p := Load(s, Some(user), selectedKit, kits, official, custom, f);
    var scope := ScopeOf(selectedKit, p.userKits);
    if scope.NoKits? {
      assert p.userKits == {};
    } else {
      ListsMembers(p.officialCourses, official, OfficialFilter(scope), CourseLevel);
      ListsMembers(p.customCourses, custom, CustomFilter(scope), NewestFirst);
    }
  }

  /** A signed-out visitor without a kit in the query string sees no
      courses and cannot create any. */
  lemma AnonymousSeesNothing(
    s: Store, selectedKit: Option<string>,
    kits: seq<KitRow>, official: seq<OfficialCourse>, custom: seq<CourseRow>, f: Faults)
    requires KitTable(kits, s.kits) && OfficialTable(official, s.official) && CourseTable(custom, s.courses)
    requires !Present(selectedKit)
    ensures var p := Load(s, None, selectedKit, kits, official, custom, f);
            && p.officialCourses == [] && p.customCourses == [] && p.userCourses == []
            && !p.canCreateCourses
  {
  }

  /** Every listed community course is published and public. */
  lemma CustomCoursesArePublic(
    s: Store, user: Option<Id>, selectedKit: Option<string>,
    kits: seq<KitRow>, official: seq<OfficialCourse>, custom: seq<CourseRow>, f: Faults)
    requires KitTable(kits, s.kits) && OfficialTable(official, s.official) && CourseTable(custom, s.courses)
    ensures var p := Load(s, user, selectedKit, kits, official, custom, f);
            forall r :: r in p.customCourses ==> r.course.isPublished && r.course.isPublic
  {
    var p := Load(s, user, selectedKit, kits, official, custom, f);
    if p.error.None? {
      var scope := ScopeOf(selectedKit, p.userKits);
      ListsMembers(p.customCourses, custom, CustomFilter(scope), NewestFirst);
    }
  }

  datatype Reply = RedirectTo(status: int, location: string) | Refused(error: string)

  /** The `createCourse` action of the catalogue page: a free, unpublished
      course for a kit the user holds, then a 303 redirect to its editor. */
  function CreateCourse(
    s: Store, user: Option<Id>, newId: Id, title: string, description: string,
    kitId: Option<Id>, isPublic: Option<string>, now: Time,
    permissionCheckFails: bool, insert: Fault): (r: (Reply, Store))
    requires newId !in s.courses
    ensures user.None? ==> r == (Refused(PleaseLogIn), s)
    ensures user.Some? && (kitId.None? || permissionCheckFails || !HasCourseAccess(s, user.value, kitId.value))
            ==> r == (Refused(CourseAuthoring.NoKitAccess), s)
    ensures user.Some? && kitId.Some? && !permissionCheckFails && HasCourseAccess(s, user.value, kitId.value)
            ==> && (insert.Err? ==> r == (Refused(insert.message), s))
                && (insert.Ok? ==> r.0 == RedirectTo(303, "/create-course/" + newId))
    ensures r.0.Refused? ==> r.1 == s
    ensures r.0.RedirectTo? ==>
              && user.Some? && kitId.Some? && HasCourseAccess(s, user.value, kitId.value) && insert.Ok?
              && r.0 == RedirectTo(303, "/create-course/" + newId)
              && newId in r.1.courses
              && r.1 == s.(courses := s.courses[newId := r.1.courses[newId]])
              && var c := r.1.courses[newId];
              && c.creatorId == user.value && c.kitId == kitId.value
              && c.title == title && c.description == description && c.estimatedDuration.None?
              && c.price == 0 && !c.isPublished && (c.isPublic <==> isPublic == Some("true"))
              && c.createdAt == now
  {
    if user.None? then (Refused(PleaseLogIn), s)
    else if kitId.None? || permissionCheckFails || !HasCourseAccess(s, user.value, kitId.value) then
      (Refused(CourseAuthoring.NoKitAccess), s)
    else if insert.Err? then (Refused(insert.message), s)
    else
      var c := CustomCourse(user.value, kitId.value, title, description, 0, FormFlag(isPublic), false, None, now);
      (RedirectTo(303, "/create-course/" + newId), s.(courses := s.courses[newId := c]))
  }

  /** The catalogue's `createCourse` writes the same course as the
      authoring page's `createCourse` given a zero price and no duration,
      and refuses in the same cases. */
  lemma SameCourseAsAuthoring(
    s: Store, user: Id, newId: Id, title: string, description: string,
    kitId: Option<Id>, isPublic: Option<string>, now: Time,
    permissionCheckFails: bool, insert: Fault)
    requires newId !in s.courses
    ensures var a := CreateCourse(s, Some(user), newId, title, description, kitId, isPublic, now,
                                  permissionCheckFails, insert);
            var form := CourseAuthoring.CourseForm(title, description, kitId, Num(0), isPublic, None, None);
            var b := CourseAuthoring.CreateCourse(s, Some(user), newId, form, now, permissionCheckFails, insert);
            && a.1 == b.1
            && (a.0.RedirectTo? <==> b.0.CourseCreated?)
            && (a.0.Refused? <==> b.0.Refused?)
  {
  }
}

=== FILE: email.dfy ===
/** The email service: template lookup, variable substitution and the two
    confirmation senders. The HTML and text bodies of the built-in default
    templates and the delivery itself are not modelled; templates are data. */
module Email {
  import opened Common
  import opened Store

  // ---------------------------------------------------------------- replace-all

  /** `pat` occurs in `s` at position `i`. */
  predicate OccursAt(s: string, pat: string, i: int) {
    0 <= i && i + |pat| <= |s| && s[i..i + |pat|] == pat
  }

  predicate Occurs(s: string, pat: string) {
    exists i :: 0 <= i <= |s| - |pat| && OccursAt(s, pat, i)
  }

  /** A global replace of a literal pattern: scan left to right, replace
      each match and resume after it, so matches never overlap. Text
      without the pattern comes back unchanged. */
  function ReplaceAll(s: string, pat: string, rep: string): (r: string)
    requires pat != []
    ensures !Occurs(s, pat) ==> r == s
    decreases |s|
  {
    if |s| < |pat| then s
    else if s[..|pat|] == pat then
      assert OccursAt(s, pat, 0);
      rep + ReplaceAll(s[|pat|..], pat, rep)
    else
      OccursInTail(s, pat);
      assert s == [s[0]] + s[1..];
      [s[0]] + ReplaceAll(s[1..], pat, rep)
  }

  /** An occurrence after the first character is an occurrence. */
  lemma OccursInTail(s: string, pat: string)
    requires s != []
    ensures Occurs(s[1..], pat) ==> Occurs(s, pat)
  {
    if Occurs(s[1..], pat) {
      var i :| 0 <= i <= |s[1..]| - |pat| && OccursAt(s[1..], pat, i);
      assert s[1..][i..i + |pat|] == s[i + 1..i + 1 + |pat|];
      assert OccursAt(s, pat, i + 1);
    }
  }

  /** Replacing a pattern by itself changes nothing. */
  lemma {:induction false} ReplaceAllBySelf(s: string, pat: string)
    requires pat != []
    ensures ReplaceAll(s, pat, pat) == s
    decreases |s|
  {
    if |s| >= |pat| {
      if s[..|pat|] == pat {
        ReplaceAllBySelf(s[|pat|..], pat);
        assert s == s[..|pat|] + s[|pat|..];
      } else {
        ReplaceAllBySelf(s[1..], pat);
        assert s == [s[0]] + s[1..];
      }
    }
  }

  /** A character that cannot start the pattern is copied through. */
  lemma SkipsNonStart(t: string, pat: string, rep: string)
    requires pat != [] && t != [] && t[0] != pat[0]
    ensures ReplaceAll(t, pat, rep) == [t[0]] + ReplaceAll(t[1..], pat, rep)
  {
    if |t| < |pat| {
      assert ReplaceAll(t[1..], pat, rep) == t[1..];
      assert t == [t[0]] + t[1..];
    } else {
      assert t[..|pat|][0] == t[0];
    }
  }

  /** A prefix that does not contain the pattern's first character is
      copied through unchanged. */
  lemma {:induction false} CopiesPrefix(t: string, n: nat, pat: string, rep: string)
    requires pat != [] && n <= |t|
    requires forall j :: 0 <= j < n ==> t[j] != pat[0]
    ensures ReplaceAll(t, pat, rep) == t[..n] + ReplaceAll(t[n..], pat, rep)
    decreases n
  {
    if n == 0 {
      assert t[..0] == [] && t[0..] == t;
    } else {
      var u := t[1..];
      assert forall j :: 0 <= j < n - 1 ==> u[j] == t[j + 1];
      CopiesPrefix(u, n - 1, pat, rep);
      CopiesPrefixStep(t, n, pat, rep);
    }
  }

  /** One step of `CopiesPrefix`: a copied first character followed by a
      copied prefix of the rest. */
  lemma CopiesPrefixStep(t: string, n: nat, pat: string, rep: string)
    requires pat != [] && 0 < n <= |t| && t[0] != pat[0]
    requires ReplaceAll(t[1..], pat, rep) == t[1..][..n - 1] + ReplaceAll(t[1..][n - 1..], pat, rep)
    ensures ReplaceAll(t, pat, rep) == t[..n] + ReplaceAll(t[n..], pat, rep)
  {
    SkipsNonStart(t, pat, rep);
    assert t[1..][n - 1..] == t[n..];
    ConsPrefix(t, n, ReplaceAll(t, pat, rep), ReplaceAll(t[1..], pat, rep), ReplaceAll(t[n..], pat, rep));
  }

  /** The sequence step shared by the two prefix lemmas: a first character
      followed by a prefix of the rest is a prefix. */
  lemma ConsPrefix(t: string, n: nat, a: string, b: string, c: string)
    requires 0 < n <= |t| && a == [t[0]] + b && b == t[1..][..n - 1] + c
    ensures a == t[..n] + c
  {
    assert t[..n] == [t[0]] + t[1..][..n - 1];
  }

  /** A match at the start is replaced, and the scan resumes after it. */
  lemma ReplaceAllAtMatch(pat: string, w: string, rep: string)
    requires pat != []
    ensures ReplaceAll(pat + w, pat, rep) == rep + ReplaceAll(w, pat, rep)
  {
    assert (pat + w)[..|pat|] == pat;
    assert (pat + w)[|pat|..] == w;
  }

  /** A prefix in which the pattern starts nowhere is copied through
      unchanged; the scan then continues from the end of the prefix. */
  lemma {:induction false} CopiesUnmatchedPrefix(t: string, n: nat, pat: string, rep: string)
    requires pat != [] && n <= |t|
    requires forall j :: 0 <= j < n ==> !OccursAt(t, pat, j)
    ensures ReplaceAll(t, pat, rep) == t[..n] + ReplaceAll(t[n..], pat, rep)
    decreases n
  {
    if n == 0 {
      assert t[..0] == [] && t[0..] == t;
    } else {
      var u := t[1..];
      forall j | 0 <= j < n - 1
        ensures !OccursAt(u, pat, j)
      {
        assert !OccursAt(t, pat, j + 1);
        if j + |pat| <= |u| {
          assert u[j..j + |pat|] == t[j + 1..j + 1 + |pat|];
        }
      }
      CopiesUnmatchedPrefix(u, n - 1, pat, rep);
      UnmatchedStep(t, n, pat, rep);
    }
  }

  /** Without a match at the start, the first character is copied. */
  lemma SkipsUnmatched(t: string, pat: string, rep: string)
    requires pat != [] && t != [] && !OccursAt(t, pat, 0)
    ensures ReplaceAll(t, pat, rep) == [t[0]] + ReplaceAll(t[1..], pat, rep)
  {
    if |t| < |pat| {
      assert ReplaceAll(t[1..], pat, rep) == t[1..];
      assert t == [t[0]] + t[1..];
    } else {
      assert t[0..|pat|] == t[..|pat|];
    }
  }

  /** One step of `CopiesUnmatchedPrefix`. */
  lemma UnmatchedStep(t: string, n: nat, pat: string, rep: string)
    requires pat != [] && 0 < n <= |t| && !OccursAt(t, pat, 0)
    requires ReplaceAll(t[1..], pat, rep) == t[1..][..n - 1] + ReplaceAll(t[1..][n - 1..], pat, rep)
    ensures ReplaceAll(t, pat, rep) == t[..n] + ReplaceAll(t[n..], pat, rep)
  {
    SkipsUnmatched(t, pat, rep);
    assert t[1..][n - 1..] == t[n..];
    ConsPrefix(t, n, ReplaceAll(t, pat, rep), ReplaceAll(t[1..], pat, rep), ReplaceAll(t[n..], pat, rep));
  }

  /** The first match is replaced by the replacement, the text before it is
      kept, and the scan resumes after it. */
  lemma ReplaceAllFirstMatch(u: string, pat: string, w: string, rep: string)
    requires pat != [] && forall j :: 0 <= j < |u| ==> !OccursAt(u + pat + w, pat, j)
    ensures ReplaceAll(u + pat + w, pat, rep) == u + rep + ReplaceAll(w, pat, rep)
  {
    var t := u + pat + w;
    CopiesUnmatchedPrefix(t, |u|, pat, rep);
    assert t[..|u|] == u;
    assert t[|u|..] == pat + w;
    ReplaceAllAtMatch(pat, w, rep);
  }

  /** Text none of whose characters can begin the pattern holds no match
      before the pattern placed after it. */
  lemma NoMatchInForeignPrefix(u: string, pat: string, w: string)
    requires pat != [] && forall j :: 0 <= j < |u| ==> u[j] != pat[0]
    ensures forall j :: 0 <= j < |u| ==> !OccursAt(u + pat + w, pat, j)
  {
    var t := u + pat + w;
    forall j | 0 <= j < |u|
      ensures !OccursAt(t, pat, j)
    {
      assert t[j] == u[j];
      if j + |pat| <= |t| {
        assert t[j..j + |pat|][0] == t[j];
      }
    }
  }

  // ---------------------------------------------------------------- placeholders

  /** The text `{key}` that stands for a variable. */
  function Placeholder(key: string): (p: string)
    ensures |p| == |key| + 2 && p[0] == '{' && p[|p| - 1] == '}'
    ensures forall j :: 1 <= j <= |key| ==> p[j] == key[j - 1]
  {
    "{" + key + "}"
  }

  predicate BraceFree(key: string) {
    forall j :: 0 <= j < |key| ==> key[j] != '{' && key[j] != '}'
  }

  /** Brace-free placeholders cannot overlap: when one starts the text, any
      occurrence of another lies after it, unless it is the same one. */
  lemma PlaceholderAlignment(s: string, key: string, other: string, i: int)
    requires BraceFree(key) && BraceFree(other)
    requires |Placeholder(key)| <= |s| && s[..|Placeholder(key)|] == Placeholder(key)
    requires OccursAt(s, Placeholder(other), i)
    ensures i >= |Placeholder(key)| || (i == 0 && key == other)
  {
    var pk, po := Placeholder(key), Placeholder(other);
    // Inside `pk` only position 0 holds an opening brace.
    assert s[i] == po[0];
    assert forall j :: 0 < j < |pk| ==> s[j] == pk[j];
    if i == 0 {
      // Both start at 0, so they close at the same position.
      assert forall j :: 0 < j < |po| ==> s[j] == po[j];
      assert s[..|po|] == po;
      assert key == pk[1..|pk| - 1];
      assert other == po[1..|po| - 1];
    }
  }

  lemma DropPrefixOccurrence(s: string, n: nat, pat: string, i: int)
    requires n <= i && OccursAt(s, pat, i)
    ensures OccursAt(s[n..], pat, i - n)
  {
    assert s[n..][i - n..i - n + |pat|] == s[i..i + |pat|];
  }

  lemma AddPrefixOccurrence(x: string, u: string, pat: string, j: int)
    requires OccursAt(u, pat, j)
    ensures OccursAt(x + u, pat, |x| + j)
  {
    assert (x + u)[|x| + j..|x| + j + |pat|] == u[j..j + |pat|];
  }

  /** An occurrence in what follows a replaced match is shifted by the
      replacement's length. */
  lemma OccursAfterMatch(s: string, pat: string, rep: string, q: string, k: int)
    requires pat != [] && |pat| <= |s| && s[..|pat|] == pat
    requires OccursAt(ReplaceAll(s[|pat|..], pat, rep), q, k)
    ensures OccursAt(ReplaceAll(s, pat, rep), q, |rep| + k)
  {
    assert ReplaceAll(s, pat, rep) == rep + ReplaceAll(s[|pat|..], pat, rep);
    AddPrefixOccurrence(rep, ReplaceAll(s[|pat|..], pat, rep), q, k);
  }

  /** An occurrence in what follows a copied character is shifted by one. */
  lemma OccursAfterSkip(s: string, pat: string, rep: string, q: string, k: int)
    requires pat != [] && |pat| <= |s| && s[..|pat|] != pat
    requires OccursAt(ReplaceAll(s[1..], pat, rep), q, k)
    ensures OccursAt(ReplaceAll(s, pat, rep), q, 1 + k)
  {
    assert ReplaceAll(s, pat, rep) == [s[0]] + ReplaceAll(s[1..], pat, rep);
    AddPrefixOccurrence([s[0]], ReplaceAll(s[1..], pat, rep), q, k);
  }

  /** A placeholder at the very start that is not the one being replaced
      is copied through: its characters after the brace hold no brace. */
  lemma SurvivesAtStart(s: string, key: string, other: string, rep: string)
    requires BraceFree(other)
    requires |Placeholder(key)| <= |s| && s[..|Placeholder(key)|] != Placeholder(key)
    requires OccursAt(s, Placeholder(other), 0)
    ensures OccursAt(ReplaceAll(s, Placeholder(key), rep), Placeholder(other), 0)
  {
    var pk, po := Placeholder(key), Placeholder(other);
    var t := s[1..];
    forall j | 0 <= j < |po| - 1
      ensures t[j] != pk[0]
    {
      assert t[j] == s[..|po|][j + 1] == po[j + 1];
    }
    CopiesPrefix(t, |po| - 1, pk, rep);
    var r, c := ReplaceAll(s, pk, rep), ReplaceAll(t[|po| - 1..], pk, rep);
    assert r == [s[0]] + ReplaceAll(t, pk, rep);
    ConsPrefix(s, |po|, r, ReplaceAll(t, pk, rep), c);
    assert r[..|po|] == s[..|po|];
  }

  /** Replacing one variable leaves every placeholder of a different
      variable in place; `j` is where the one at `i` ends up. */
  lemma {:induction false} PlaceholderSurvivesReplace(s: string, key: string, other: string, rep: string, i: int)
    returns (j: int)
    requires BraceFree(key) && BraceFree(other) && key != other
    requires OccursAt(s, Placeholder(other), i)
    ensures OccursAt(ReplaceAll(s, Placeholder(key), rep), Placeholder(other), j)
    decreases |s|, 1
  {
    var pk := Placeholder(key);
    if |s| < |pk| {
      assert ReplaceAll(s, pk, rep) == s;
      j := i;
    } else if s[..|pk|] == pk {
      j := SurvivesAfterMatch(s, key, other, rep, i);
    } else if i == 0 {
      SurvivesAtStart(s, key, other, rep);
      j := 0;
    } else {
      j := SurvivesAfterSkip(s, key, other, rep, i);
    }
  }

  /** The text starts with the replaced placeholder: the other one lies
      after it and survives in the rest. */
  lemma {:induction false} SurvivesAfterMatch(s: string, key: string, other: string, rep: string, i: int)
    returns (j: int)
    requires BraceFree(key) && BraceFree(other) && key != other
    requires OccursAt(s, Placeholder(other), i)
    requires |Placeholder(key)| <= |s| && s[..|Placeholder(key)|] == Placeholder(key)
    ensures OccursAt(ReplaceAll(s, Placeholder(key), rep), Placeholder(other), j)
    decreases |s|, 0
  {
    var pk, po := Placeholder(key), Placeholder(other);
    assert i >= |pk| by { PlaceholderAlignment(s, key, other, i); }
    assert OccursAt(s[|pk|..], po, i - |pk|) by { DropPrefixOccurrence(s, |pk|, po, i); }
    var k := PlaceholderSurvivesReplace(s[|pk|..], key, other, rep, i - |pk|);
    OccursAfterMatch(s, pk, rep, po, k);
    j := |rep| + k;
  }

  /** The text starts with a character that is copied: the other
      placeholder lies after it and survives in the rest. */
  lemma {:induction false} SurvivesAfterSkip(s: string, key: string, other: string, rep: string, i: int)
    returns (j: int)
    requires BraceFree(key) && BraceFree(other) && key != other
    requires OccursAt(s, Placeholder(other), i) && i > 0
    requires |Placeholder(key)| <= |s| && s[..|Placeholder(key)|] != Placeholder(key)
    ensures OccursAt(ReplaceAll(s, Placeholder(key), rep), Placeholder(other), j)
    decreases |s|, 0
  {
    var pk, po := Placeholder(key), Placeholder(other);
    assert OccursAt(s[1..], po, i - 1) by { DropPrefixOccurrence(s, 1, po, i); }
    var k := PlaceholderSurvivesReplace(s[1..], key, other, rep, i - 1);
    OccursAfterSkip(s, pk, rep, po, k);
    j := 1 + k;
  }

  // ---------------------------------------------------------------- variables

  /** The variables of one substitution, in the order their keys were
      written (the order `Object.entries` yields them). */
  type Variables = seq<(string, string)>

  /** `replaceVariables`: each key in turn, every occurrence of its
      placeholder replaced by its value. A later key also sees the text
      that earlier values brought in. Content that mentions none of the
      supplied keys comes back as is. */
  function ReplaceVariables(content: string, vars: Variables): (r: string)
    ensures !Mentions(content, vars) ==> r == content
    decreases |vars|
  {
    if vars == [] then content
    else
      MentionsTail(content, vars);
      ReplaceVariables(ReplaceAll(content, Placeholder(vars[0].0), vars[0].1), vars[1..])
  }

  predicate Mentions(content: string, vars: Variables) {
    exists k :: 0 <= k < |vars| && Occurs(content, Placeholder(vars[k].0))
  }

  /** A key after the first that the content mentions is a key it mentions. */
  lemma MentionsTail(content: string, vars: Variables)
    requires vars != []
    ensures Mentions(content, vars[1..]) ==> Mentions(content, vars)
  {
    if Mentions(content, vars[1..]) {
      var k :| 0 <= k < |vars[1..]| && Occurs(content, Placeholder(vars[1..][k].0));
      assert vars[1..][k] == vars[k + 1];
    }
  }

  /** Text without braces holds no placeholder. */
  lemma BraceFreeHasNoPlaceholder(t: string, key: string)
    requires BraceFree(t)
    ensures !Occurs(t, Placeholder(key))
  {
    var p := Placeholder(key);
    forall i | 0 <= i <= |t| - |p|
      ensures !OccursAt(t, p, i)
    {
      assert t[i..i + |p|][0] == t[i] != p[0];
    }
  }

  /** One variable: the first placeholder of its key is replaced by the
      value, the text before it is kept, and every later placeholder is
      replaced in turn. Braces before it do no harm as long as they do not
      spell the placeholder. */
  lemma PlaceholderReplacedByValue(u: string, key: string, value: string, w: string)
    requires forall j :: 0 <= j < |u| ==> !OccursAt(u + Placeholder(key) + w, Placeholder(key), j)
    ensures ReplaceVariables(u + Placeholder(key) + w, [(key, value)])
            == u + value + ReplaceAll(w, Placeholder(key), value)
  {
    ReplaceAllFirstMatch(u, Placeholder(key), w, value);
    assert [(key, value)][1..] == [];
  }

  /** A style rule such as `p{m}` before a placeholder does not stop the
      placeholder from being filled in. */
  lemma BracesBeforePlaceholder(value: string)
    ensures ReplaceVariables("p{m}" + Placeholder("userName"), [("userName", value)]) == "p{m}" + value
  {
    var u, p := "p{m}", Placeholder("userName");
    forall j | 0 <= j < |u|
      ensures !OccursAt(u + p + "", p, j)
    {
      if j + |p| <= |u + p| {
        assert (u + p)[j..j + |p|][0] == u[j];
        if j == 1 {
          assert (u + p)[j..j + |p|][1] == 'm' != p[1];
        }
      }
    }
    PlaceholderReplacedByValue(u, "userName", value, "");
    assert u + p + "" == u + p;
  }

  /** A template whose only brace-delimited text is the placeholder of the
      first key comes out as the text around it with the key's value in its
      place, provided that value brings in no braces of its own. */
  lemma FillsPlaceholder(u: string, w: string, vars: Variables)
    requires vars != [] && BraceFree(u) && BraceFree(w) && BraceFree(vars[0].1)
    ensures ReplaceVariables(u + Placeholder(vars[0].0) + w, vars) == u + vars[0].1 + w
  {
    var p, v := Placeholder(vars[0].0), vars[0].1;
    assert forall j :: 0 <= j < |u| ==> u[j] != p[0];
    NoMatchInForeignPrefix(u, p, w);
    ReplaceAllFirstMatch(u, p, w, v);
    assert ReplaceAll(w, p, v) == w by {
      BraceFreeHasNoPlaceholder(w, vars[0].0);
    }
    var t := u + v + w;
    assert BraceFree(t) by {
      forall j | 0 <= j < |t|
        ensures t[j] != '{' && t[j] != '}'
      {
        if j < |u| { assert t[j] == u[j]; }
        else if j < |u| + |v| { assert t[j] == v[j - |u|]; }
        else { assert t[j] == w[j - |u| - |v|]; }
      }
    }
    assert !Mentions(t, vars[1..]) by {
      forall k | 0 <= k < |vars[1..]|
        ensures !Occurs(t, Placeholder(vars[1..][k].0))
      {
        BraceFreeHasNoPlaceholder(t, vars[1..][k].0);
      }
    }
  }

  predicate Supplies(vars: Variables, key: string) {
    exists k :: 0 <= k < |vars| && vars[k].0 == key
  }

  /** A placeholder whose key is not supplied survives the substitution,
      provided every key is an ordinary brace-free name. */
  lemma {:induction false} UnsuppliedPlaceholderSurvives(content: string, vars: Variables, other: string)
    requires BraceFree(other) && !Supplies(vars, other)
    requires forall k :: 0 <= k < |vars| ==> BraceFree(vars[k].0)
    requires Occurs(content, Placeholder(other))
    ensures Occurs(ReplaceVariables(content, vars), Placeholder(other))
    decreases |vars|
  {
    if vars != [] {
      var i :| OccursAt(content, Placeholder(other), i);
      assert vars[0].0 != other;
      var j := PlaceholderSurvivesReplace(content, vars[0].0, other, vars[0].1, i);
      assert !Supplies(vars[1..], other) by {
        forall k | 0 <= k < |vars[1..]|
          ensures vars[1..][k].0 != other
        {
          assert vars[1..][k] == vars[k + 1];
        }
      }
      UnsuppliedPlaceholderSurvives(
        ReplaceAll(content, Placeholder(vars[0].0), vars[0].1), vars[1..], other);
    }
  }

  // ---------------------------------------------------------------- labels

  /** The amount shown in a purchase confirmation. */
  function AmountLabel(amount: int): (r: string)
    ensures r == "FREE" <==> amount == 0
    ensures amount > 0 ==> |r| >= 2 && r[0] == '$' && AllDigits(r[1..]) && DecimalValue(r[1..]) == amount
  {
    if amount == 0 then "FREE"
    else
      NatToStringRoundTripPositive(amount);
      var r := "$" + IntToString(amount);
      assert r[0] != "FREE"[0];
      r
  }

  lemma NatToStringRoundTripPositive(amount: int)
    ensures amount > 0 ==> DecimalValue(NatToString(amount)) == amount
  {
    if amount > 0 {
      NatToStringRoundTrip(amount);
    }
  }

  const DefaultSiteUrl := "http://localhost:5173"

  /** The link to the catalogue: the configured site address, when it is
      set and non-empty, followed by `/courses`. */
  function CoursesUrl(siteUrl: Option<string>): string {
    (if Present(siteUrl) then siteUrl.value else DefaultSiteUrl) + "/courses"
  }

  // ---------------------------------------------------------------- templates

  datatype Template = Template(id: Id, name: string, subject: string, htmlContent: string, textContent: string)

  /** `getEmailTemplate`: nothing on a failed call or an empty answer,
      else the first row. */
  function GetEmailTemplate(callFails: bool, data: Option<seq<Template>>): (t: Option<Template>)
    ensures t.Some? <==> !callFails && data.Some? && |data.value| > 0
    ensures t.Some? ==> t.value == data.value[0]
  {
    if callFails || data.None? || |data.value| == 0 then None else Some(data.value[0])
  }

  /** What creating and re-reading a default template does: the stored
      template, or a thrown error with its message when it is an `Error`. */
  datatype Creation = CreatedTemplate(template: Template) | CreationThrew(message: Option<string>)

  datatype SendResult = Success | Failure(error: string)

  datatype Message = Message(to: string, subject: string, html: string, text: string)

  datatype EmailLog = EmailLog(userId: Id, templateId: Id, toEmail: string, subject: string, content: string, status: string)

  /** The result, the log row written (purchase confirmations only) and the
      message handed to delivery. */
  datatype SendOutcome = SendOutcome(result: SendResult, log: Option<EmailLog>, sent: Option<Message>)

  function ErrorMessage(m: Option<string>): string {
    if m.Some? then m.value else "Unknown error"
  }

  /** The template used: the stored one, else a freshly created default. */
  function ChooseTemplate(stored: Option<Template>, create: Creation): (t: Option<Template>)
    ensures stored.Some? ==> t == stored
    ensures stored.None? ==> (t.Some? <==> create.CreatedTemplate?)
    ensures stored.None? && create.CreatedTemplate? ==> t == Some(create.template)
  {
    if stored.Some? then stored
    else if create.CreatedTemplate? then Some(create.template)
    else None
  }

  function SubjectVariables(kit: Kit, userName: string): Variables {
    [("kitName", kit.name), ("userName", userName)]
  }

  function PurchaseVariables(purchase: Purchase, kit: Kit, userName: string, purchaseDate: string, siteUrl: Option<string>): Variables {
    [("kitName", kit.name), ("kitTheme", kit.theme), ("kitLevel", IntToString(kit.level)),
     ("userName", userName), ("purchaseDate", purchaseDate), ("amount", AmountLabel(purchase.amount)),
     ("coursesUrl", CoursesUrl(siteUrl))]
  }

  function RedemptionVariables(kit: Kit, userName: string, redemptionDate: string, siteUrl: Option<string>): Variables {
    [("kitName", kit.name), ("kitTheme", kit.theme), ("kitLevel", IntToString(kit.level)),
     ("userName", userName), ("redemptionDate", redemptionDate), ("coursesUrl", CoursesUrl(siteUrl))]
  }

  /** `sendPurchaseConfirmation`. It never throws: a failure to obtain any
      template becomes a failed result. `purchaseDate` is the formatted
      purchase time. */
  function SendPurchaseConfirmation(
    stored: Option<Template>, create: Creation, purchase: Purchase, kit: Kit,
    userEmail: string, userName: string, purchaseDate: string, siteUrl: Option<string>): (o: SendOutcome)
    ensures o.result.Failure? <==> stored.None? && create.CreationThrew?
    ensures o.result.Failure? ==> o.result.error == ErrorMessage(create.message) && o.log.None? && o.sent.None?
    ensures o.result.Success? ==>
              var t := ChooseTemplate(stored, create).value;
              var subject := ReplaceVariables(t.subject, SubjectVariables(kit, userName));
              var vars := PurchaseVariables(purchase, kit, userName, purchaseDate, siteUrl);
              && o.sent == Some(Message(userEmail, subject, ReplaceVariables(t.htmlContent, vars),
                                        ReplaceVariables(t.textContent, vars)))
              && o.log == Some(EmailLog(purchase.userId, t.id, userEmail, subject, o.sent.value.html, "pending"))
  {
    match ChooseTemplate(stored, create)
    case None => SendOutcome(Failure(ErrorMessage(create.message)), None, None)
    case Some(t) =>
      var subject := ReplaceVariables(t.subject, SubjectVariables(kit, userName));
      var vars := PurchaseVariables(purchase, kit, userName, purchaseDate, siteUrl);
      var html := ReplaceVariables(t.htmlContent, vars);
      var text := ReplaceVariables(t.textContent, vars);
      SendOutcome(Success, Some(EmailLog(purchase.userId, t.id, userEmail, subject, html, "pending")),
                  Some(Message(userEmail, subject, html, text)))
  }

  /** `sendCodeRedemptionConfirmation`: the same, without a log row. */
  function SendCodeRedemptionConfirmation(
    stored: Option<Template>, create: Creation, kit: Kit,
    userEmail: string, userName: string, redemptionDate: string, siteUrl: Option<string>): (o: SendOutcome)
    ensures o.result.Failure? <==> stored.None? && create.CreationThrew?
    ensures o.result.Failure? ==> o.result.error == ErrorMessage(create.message) && o.sent.None?
    ensures o.log.None?
    ensures o.result.Success? ==>
              var t := ChooseTemplate(stored, create).value;
              var vars := RedemptionVariables(kit, userName, redemptionDate, siteUrl);
              o.sent == Some(Message(userEmail, ReplaceVariables(t.subject, SubjectVariables(kit, userName)),
                                     ReplaceVariables(t.htmlContent, vars), ReplaceVariables(t.textContent, vars)))
  {
    match ChooseTemplate(stored, create)
    case None => SendOutcome(Failure(ErrorMessage(create.message)), None, None)
    case Some(t) =>
      var vars := RedemptionVariables(kit, userName, redemptionDate, siteUrl);
      SendOutcome(Success, None,
                  Some(Message(userEmail, ReplaceVariables(t.subject, SubjectVariables(kit, userName)),
                               ReplaceVariables(t.htmlContent, vars), ReplaceVariables(t.textContent, vars))))
  }

  /** The subjects of the two built-in templates, around their one
      placeholder. */
  const PurchaseSubjectLead := "Welcome to "
  const PurchaseSubjectTail := " - Your Electrofun Kit is Ready!"
  const DefaultPurchaseSubject := PurchaseSubjectLead + Placeholder("kitName") + PurchaseSubjectTail
  const RedemptionSubjectLead := "Kit Unlocked: "
  const RedemptionSubjectTail := " - Welcome to Electrofun!"
  const DefaultRedemptionSubject := RedemptionSubjectLead + Placeholder("kitName") + RedemptionSubjectTail

  /** The built-in purchase subject names the purchased kit. */
  lemma DefaultPurchaseSubjectNamesKit(kit: Kit, userName: string)
    requires BraceFree(kit.name)
    ensures ReplaceVariables(DefaultPurchaseSubject, SubjectVariables(kit, userName))
            == PurchaseSubjectLead + kit.name + PurchaseSubjectTail
  {
    assert BraceFree(PurchaseSubjectLead) && BraceFree(PurchaseSubjectTail);
    FillsPlaceholder(PurchaseSubjectLead, PurchaseSubjectTail, SubjectVariables(kit, userName));
  }

  /** The built-in redemption subject names the redeemed kit. */
  lemma DefaultRedemptionSubjectNamesKit(kit: Kit, userName: string)
    requires BraceFree(kit.name)
    ensures ReplaceVariables(DefaultRedemptionSubject, SubjectVariables(kit, userName))
            == RedemptionSubjectLead + kit.name + RedemptionSubjectTail
  {
    assert BraceFree(RedemptionSubjectLead) && BraceFree(RedemptionSubjectTail);
    FillsPlaceholder(RedemptionSubjectLead, RedemptionSubjectTail, SubjectVariables(kit, userName));
  }

  /** The subject only fills in the kit and user names: any other
      placeholder in it, such as `{amount}`, reaches the recipient as
      written. */
  lemma SubjectKeepsOtherPlaceholders(subject: string, kit: Kit, userName: string, other: string)
    requires BraceFree(other) && other != "kitName" && other != "userName"
    requires Occurs(subject, Placeholder(other))
    ensures Occurs(ReplaceVariables(subject, SubjectVariables(kit, userName)), Placeholder(other))
  {
    var vars := SubjectVariables(kit, userName);
    assert BraceFree(vars[0].0) && BraceFree(vars[1].0);
    UnsuppliedPlaceholderSurvives(subject, vars, other);
  }
}

=== FILE: lesson_files.dfy ===
/** The lesson-file upload endpoint: classify the file by extension, check
    the caller may add files to the lesson, upload the source (and, for a
    component, its compiled module) to the file bucket, record the row, and
    remove what was uploaded when a later step fails.

    The bucket is a set of object paths. An upload never overwrites: it
    fails when the path is already taken. The component compiler is an
    oracle whose outcome is an input. */
module LessonFiles {
  import opened Common
  import opened Store

  // ---------------------------------------------------------------- file types

  const VideoExtensions: set<string> := {"mp4", "webm", "ogg", "mov", "avi"}

  /** The text after the last `.` of `name`, or all of `name` when it has no
      dot (what `split('.').pop()` returns). */
  function Extension(name: string): (r: string)
    ensures |r| <= |name| && r == name[|name| - |r|..]
    ensures forall i :: 0 <= i < |r| ==> r[i] != '.'
    ensures |r| < |name| ==> name[|name| - |r| - 1] == '.'
  {
    if name == [] then []
    else if name[|name| - 1] == '.' then []
    else Extension(name[..|name| - 1]) + [name[|name| - 1]]
  }

  /** Lower-casing of the ASCII letters. No other character lower-cases to
      a letter of a recognised extension in a single character, so this is
      as good as full `toLowerCase` for the classification. */
  function LowerChar(c: char): char {
    if 'A' <= c <= 'Z' then (c as int - 'A' as int + 'a' as int) as char else c
  }

  function Lower(s: string): (r: string)
    ensures |r| == |s|
    ensures forall i :: 0 <= i < |s| ==> r[i] == LowerChar(s[i])
  {
    if s == [] then [] else [LowerChar(s[0])] + Lower(s[1..])
  }

  /** The type named by a lower-cased extension. */
  function Classify(ext: string): (t: Option<FileType>)
    ensures t == Some(Markdown) <==> ext == "md"
    ensures t == Some(Svelte) <==> ext == "svelte"
    ensures t == Some(VideoFile) <==> ext in VideoExtensions
  {
    if ext == "md" then Some(Markdown)
    else if ext == "svelte" then Some(Svelte)
    else if ext in VideoExtensions then Some(VideoFile)
    else None
  }

  /** `getFileType`: the type named by the lower-cased text after the
      last dot, and no type for any other extension. */
  function GetFileType(name: string): (t: Option<FileType>)
    ensures var e := Lower(Extension(name));
            && (t == Some(Markdown) <==> e == "md")
            && (t == Some(Svelte) <==> e == "svelte")
            && (t == Some(VideoFile) <==> e in VideoExtensions)
            && (t.None? <==> e != "md" && e != "svelte" && e !in VideoExtensions)
  {
    Classify(Lower(Extension(name)))
  }

  /** Only the part after the last dot matters: whatever comes before it,
      a name ending in `.ext` is classified as `ext` alone. */
  lemma {:induction false} ExtensionAfterLastDot(base: string, ext: string)
    requires forall i :: 0 <= i < |ext| ==> ext[i] != '.'
    ensures Extension(base + "." + ext) == ext
  {
    var name := base + "." + ext;
    if ext == [] {
      assert name[|name| - 1] == '.';
    } else {
      var last := ext[|ext| - 1];
      assert name[..|name| - 1] == base + "." + ext[..|ext| - 1];
      ExtensionAfterLastDot(base, ext[..|ext| - 1]);
      assert ext == ext[..|ext| - 1] + [last];
    }
  }

  lemma FileTypeOfSuffix(base: string, ext: string)
    requires forall i :: 0 <= i < |ext| ==> ext[i] != '.'
    ensures GetFileType(base + "." + ext) == GetFileType(ext)
  {
    ExtensionAfterLastDot(base, ext);
    ExtensionAfterLastDot([], ext);
    assert Extension(ext) == ext by {
      ExtensionOfDotless(ext);
    }
  }

  /** A name without a dot is its own extension. */
  lemma {:induction false} ExtensionOfDotless(name: string)
    requires forall i :: 0 <= i < |name| ==> name[i] != '.'
    ensures Extension(name) == name
  {
    if name != [] {
      var init := name[..|name| - 1];
      assert forall i :: 0 <= i < |init| ==> init[i] == name[i];
      ExtensionOfDotless(init);
      assert Extension(name) == Extension(init) + [name[|name| - 1]];
      assert name == init + [name[|name| - 1]];
    }
  }

  /** Case does not matter: lower-casing the whole name first changes
      nothing. */
  lemma {:induction false} LowerCommutesWithExtension(name: string)
    ensures Extension(Lower(name)) == Lower(Extension(name))
    decreases |name|
  {
    if name != [] {
      var init, c := name[..|name| - 1], name[|name| - 1];
      assert name == init + [c];
      LowerCommutesWithExtension(init);
      calc {
        Extension(Lower(name));
        == { LowerSnoc(init, c); }
        Extension(Lower(init) + [LowerChar(c)]);
        == { ExtensionSnoc(Lower(init), LowerChar(c)); }
        if LowerChar(c) == '.' then [] else Extension(Lower(init)) + [LowerChar(c)];
        == { LowerSnoc(Extension(init), c); }
        if c == '.' then [] else Lower(Extension(init) + [c]);
        == { ExtensionSnoc(init, c); }
        Lower(Extension(name));
      }
    }
  }

  /** Appending a character either ends the extension at a dot or extends
      it by that character. */
  lemma ExtensionSnoc(s: string, c: char)
    ensures Extension(s + [c]) == if c == '.' then [] else Extension(s) + [c]
  {
    assert (s + [c])[..|s|] == s;
  }

  /** Lower-casing works character by character. */
  lemma LowerSnoc(s: string, c: char)
    ensures Lower(s + [c]) == Lower(s) + [LowerChar(c)]
  {
    assert forall i :: 0 <= i < |s| ==> (s + [c])[i] == s[i];
  }

  lemma FileTypeIgnoresCase(name: string)
    ensures GetFileType(Lower(name)) == GetFileType(name)
  {
    LowerCommutesWithExtension(name);
    LowerIdempotent(Extension(name));
  }

  lemma LowerIdempotent(s: string)
    ensures Lower(Lower(s)) == Lower(s)
  {
  }

  // ---------------------------------------------------------------- the bucket

  /** The non-overwriting upload: the path must be free. */
  function Upload(bucket: set<string>, path: string, fails: bool): (r: Option<set<string>>)
    ensures r.Some? <==> !fails && path !in bucket
    ensures r.Some? ==> r.value == bucket + {path}
  {
    if fails || path in bucket then None else Some(bucket + {path})
  }

  /** A removal. Its own failure is not checked by the handler, so a failed
      removal simply leaves the bucket as it was. */
  function Remove(bucket: set<string>, paths: set<string>, fails: bool): (r: set<string>)
    ensures r <= bucket
    ensures !fails ==> r == bucket - paths
    ensures fails ==> r == bucket
  {
    if fails then bucket else bucket - paths
  }

  function SourcePath(lessonId: Id, fileId: Id, name: string): string {
    lessonId + "/" + fileId + "/" + name
  }

  function CompiledPath(lessonId: Id, fileId: Id): string {
    lessonId + "/" + fileId + "/compiled.js"
  }

  /** A component's source and its compiled module never share a path, so
      the second upload cannot collide with the first. */
  lemma SourceAndCompiledPathsDiffer(lessonId: Id, fileId: Id, name: string)
    requires GetFileType(name) == Some(Svelte)
    ensures SourcePath(lessonId, fileId, name) != CompiledPath(lessonId, fileId)
  {
    var prefix := lessonId + "/" + fileId + "/";
    assert SourcePath(lessonId, fileId, name) == prefix + name;
    assert CompiledPath(lessonId, fileId) == prefix + "compiled.js";
    assert name != "compiled.js" by {
      ExtensionAfterLastDot("compiled", "js");
      assert "compiled" + "." + "js" == "compiled.js";
    }
    if prefix + name == prefix + "compiled.js" {
      PrefixCancels(prefix, name, "compiled.js");
    }
  }

  lemma PrefixCancels(p: string, a: string, b: string)
    requires p + a == p + b
    ensures a == b
  {
    assert a == (p + a)[|p|..];
  }

  // ---------------------------------------------------------------- the handler

  const UploadFailed := "Failed to upload file to storage"
  const CompiledUploadFailed := "Failed to store compiled component"
  const SaveFailed := "Failed to save file record"
  const UnsupportedType := "Unsupported file type. Allowed: .md, .svelte, .mp4, .webm, .ogg, .mov, .avi"

  /** What the compiler oracle does with the component's source. */
  datatype CompileResult = Compiled(js: string) | CompileThrew(message: Option<string>)

  /** Which calls fail. A failed profile read reads as "not admin"; a failed
      read of the lesson's course reads as "not the creator". */
  datatype Faults = Faults(
    formDataFails: bool, lessonLookupFails: bool, profileLookupFails: bool,
    courseLookupFails: bool, uploadFails: bool, compiledUploadFails: bool,
    removeFails: bool, insertFails: bool)

  datatype Body = Error(error: string) | Created(id: Id, row: LessonFile)

  datatype Outcome = Outcome(status: int, body: Body, store: Store, bucket: set<string>)

  /** The upload decision for a lesson that exists: an admin may add files
      to any lesson, the creator of a community course to its lessons. */
  function MayUpload(s: Store, user: Id, lesson: Lesson, profileLookupFails: bool, courseLookupFails: bool): (ok: bool)
    ensures ok && lesson.courseType != Custom ==> !profileLookupFails && IsAdmin(s, Some(user))
    ensures ok && !(IsAdmin(s, Some(user)) && !profileLookupFails) ==>
              && !courseLookupFails && lesson.courseId in s.courses
              && s.courses[lesson.courseId].creatorId == user
    ensures !profileLookupFails && IsAdmin(s, Some(user)) ==> ok
  {
    || (!profileLookupFails && IsAdmin(s, Some(user)))
    || (&& lesson.courseType == Custom && !courseLookupFails
        && lesson.courseId in s.courses && s.courses[lesson.courseId].creatorId == user)
  }

  function CompileErrorMessage(m: Option<string>): string {
    if m.Some? then "Compile error: " + m.value else "Failed to compile Svelte component"
  }

  /** The objects a request uploads for `row`. */
  function Uploaded(row: LessonFile): set<string> {
    {row.storagePath} + (if row.compiledPath.Some? then {row.compiledPath.value} else {})
  }

  /** After a failure: nothing that was there before is lost, and if the
      clean-up removal works, the bucket is exactly as it was before. */
  predicate Restored(before: set<string>, after: set<string>, removeFails: bool) {
    before <= after && (!removeFails ==> after == before)
  }

  /** The row insert, once this request's objects are in the bucket; when
      it fails they are removed again. `before` is the bucket without them. */
  function Record(
    s: Store, before: set<string>, fileId: Id, row: LessonFile, f: Faults): (o: Outcome)
    requires fileId !in s.files
    requires Uploaded(row) !! before
    ensures o.status in {201, 500}
    ensures o.status == 500 <==> f.insertFails
    ensures o.status == 500 ==> o.body == Error(SaveFailed)
    ensures o.status == 500 ==> o.store == s && Restored(before, o.bucket, f.removeFails)
    ensures o.status == 201 ==>
              && o.body == Created(fileId, row) && o.store == s.(files := s.files[fileId := row])
              && o.bucket == before + Uploaded(row)
  {
    var bucket := before + Uploaded(row);
    if f.insertFails then
      Outcome(500, Error(SaveFailed), s, Remove(bucket, Uploaded(row), f.removeFails))
    else
      Outcome(201, Created(fileId, row), s.(files := s.files[fileId := row]), bucket)
  }

  /** The steps after the source has been uploaded into `before`: compile
      and store a component, then insert the row. On failure everything
      this request uploaded is removed again. */
  function Finish(
    s: Store, before: set<string>, lessonId: Id, fileId: Id, name: string, fileType: FileType,
    tabOrder: Parsed, compile: CompileResult, f: Faults): (o: Outcome)
    requires fileId !in s.files
    requires SourcePath(lessonId, fileId, name) !in before
    ensures o.status in {201, 422, 500}
    ensures o.status == 422 <==> fileType == Svelte && compile.CompileThrew?
    ensures o.status == 422 ==> o.body == Error(CompileErrorMessage(compile.message))
    // The compiled upload, for a component that compiled, must find its path free.
    ensures fileType == Svelte && compile.Compiled?
            && (f.compiledUploadFails || CompiledPath(lessonId, fileId) in before + {SourcePath(lessonId, fileId, name)})
            ==> o.status == 500 && o.body == Error(CompiledUploadFailed)
    // Once every object is stored, the insert decides.
    ensures (fileType != Svelte || (compile.Compiled? && !f.compiledUploadFails
                                    && CompiledPath(lessonId, fileId) !in before + {SourcePath(lessonId, fileId, name)}))
            ==> (o.status == 201 <==> !f.insertFails)
                && (f.insertFails ==> o.status == 500 && o.body == Error(SaveFailed))
    ensures o.status != 201 ==> o.store == s && Restored(before, o.bucket, f.removeFails)
    ensures o.status == 201 ==>
              var compiledPath := if fileType == Svelte then Some(CompiledPath(lessonId, fileId)) else None;
              var row := LessonFile(lessonId, name, fileType, SourcePath(lessonId, fileId, name), compiledPath, tabOrder);
              && o.body == Created(fileId, row)
              && o.store == s.(files := s.files[fileId := row])
              && o.bucket == before + Uploaded(row)
  {
    var source := SourcePath(lessonId, fileId, name);
    if fileType != Svelte then
      Record(s, before, fileId, LessonFile(lessonId, name, fileType, source, None, tabOrder), f)
    else if compile.CompileThrew? then
      Outcome(422, Error(CompileErrorMessage(compile.message)), s,
              Remove(before + {source}, {source}, f.removeFails))
    else
      var compiled := CompiledPath(lessonId, fileId);
      match Upload(before + {source}, compiled, f.compiledUploadFails)
      case None =>
        Outcome(500, Error(CompiledUploadFailed), s,
                Remove(before + {source}, {source}, f.removeFails))
      case Some(_) =>
        var row := LessonFile(lessonId, name, fileType, source, Some(compiled), tabOrder);
        assert Uploaded(row) == {source, compiled};
        Record(s, before, fileId, row, f)
  }

  /** The request gets past the validation and authorisation chain. */
  predicate PassesChecks(
    s: Store, user: Option<Id>, lessonId: Option<string>, file: Option<string>, f: Faults) {
    && user.Some? && !f.formDataFails && Present(lessonId) && file.Some? && GetFileType(file.value).Some?
    && !f.lessonLookupFails && lessonId.value in s.lessons
    && MayUpload(s, user.value, s.lessons[lessonId.value], f.profileLookupFails, f.courseLookupFails)
  }

  /** The validation and authorisation chain: the status and message of
      the first check that fails, or nothing when every check passes. */
  function Refusal(
    s: Store, user: Option<Id>, lessonId: Option<string>, file: Option<string>, f: Faults): (r: Option<(int, string)>)
    ensures r.None? <==> PassesChecks(s, user, lessonId, file, f)
    ensures user.None? ==> r == Some((401, "Unauthorized"))
    ensures user.Some? && f.formDataFails ==> r == Some((400, "Invalid form data"))
    ensures user.Some? && !f.formDataFails && (!Present(lessonId) || file.None?) ==>
              r == Some((400, "lesson_id and file are required"))
    ensures user.Some? && !f.formDataFails && Present(lessonId) && file.Some? && GetFileType(file.value).None? ==>
              r == Some((400, UnsupportedType))
    ensures (user.Some? && !f.formDataFails && Present(lessonId) && file.Some? && GetFileType(file.value).Some?
             && (f.lessonLookupFails || lessonId.value !in s.lessons)) ==>
              r == Some((404, "Lesson not found"))
    ensures (user.Some? && !f.formDataFails && Present(lessonId) && file.Some? && GetFileType(file.value).Some?
             && !f.lessonLookupFails && lessonId.value in s.lessons
             && !MayUpload(s, user.value, s.lessons[lessonId.value], f.profileLookupFails, f.courseLookupFails)) ==>
              r == Some((403, "Forbidden"))
  {
    if user.None? then Some((401, "Unauthorized"))
    else if f.formDataFails then Some((400, "Invalid form data"))
    else if !Present(lessonId) || file.None? then Some((400, "lesson_id and file are required"))
    else if GetFileType(file.value).None? then Some((400, UnsupportedType))
    else if f.lessonLookupFails || lessonId.value !in s.lessons then Some((404, "Lesson not found"))
    else if !MayUpload(s, user.value, s.lessons[lessonId.value], f.profileLookupFails, f.courseLookupFails) then
      Some((403, "Forbidden"))
    else None
  }

  /** Past the checks: upload the source without overwriting, then finish. */
  function SaveUpload(
    s: Store, bucket: set<string>, lessonId: Id, fileId: Id, name: string, fileType: FileType,
    tabOrder: Parsed, compile: CompileResult, f: Faults): (o: Outcome)
    requires fileId !in s.files
    ensures f.uploadFails || SourcePath(lessonId, fileId, name) in bucket ==>
              o == Outcome(500, Error(UploadFailed), s, bucket)
    ensures !f.uploadFails && SourcePath(lessonId, fileId, name) !in bucket ==>
              o == Finish(s, bucket, lessonId, fileId, name, fileType, tabOrder, compile, f)
    ensures o.status in {201, 422, 500}
    ensures o.status != 201 ==> o.store == s && Restored(bucket, o.bucket, f.removeFails)
    ensures o.status == 201 ==>
              var compiledPath := if fileType == Svelte then Some(CompiledPath(lessonId, fileId)) else None;
              var row := LessonFile(lessonId, name, fileType, SourcePath(lessonId, fileId, name), compiledPath, tabOrder);
              && o.body == Created(fileId, row)
              && o.store == s.(files := s.files[fileId := row])
              && o.bucket == bucket + Uploaded(row)
  {
    match Upload(bucket, SourcePath(lessonId, fileId, name), f.uploadFails)
    case None => Outcome(500, Error(UploadFailed), s, bucket)
    case Some(_) => Finish(s, bucket, lessonId, fileId, name, fileType, tabOrder, compile, f)
  }

  /** The `POST` handler. `file` is the uploaded file's name, when a file
      was sent; `fileId` is the fresh id drawn for it. */
  function Post(
    s: Store, bucket: set<string>, user: Option<Id>, lessonId: Option<string>, tabOrder: Parsed,
    file: Option<string>, fileId: Id, compile: CompileResult, f: Faults): (o: Outcome)
    requires fileId !in s.files
    // The validation chain, in order.
    ensures user.None? ==> o.status == 401 && o.body == Error("Unauthorized")
    ensures user.Some? && f.formDataFails ==> o.status == 400 && o.body == Error("Invalid form data")
    ensures user.Some? && !f.formDataFails && (!Present(lessonId) || file.None?) ==>
              o.status == 400 && o.body == Error("lesson_id and file are required")
    ensures user.Some? && !f.formDataFails && Present(lessonId) && file.Some? && GetFileType(file.value).None? ==>
              o.status == 400 && o.body == Error(UnsupportedType)
    ensures (user.Some? && !f.formDataFails && Present(lessonId) && file.Some? && GetFileType(file.value).Some?
             && (f.lessonLookupFails || lessonId.value !in s.lessons)) ==>
              o.status == 404 && o.body == Error("Lesson not found")
    ensures (user.Some? && !f.formDataFails && Present(lessonId) && file.Some? && GetFileType(file.value).Some?
             && !f.lessonLookupFails && lessonId.value in s.lessons
             && !MayUpload(s, user.value, s.lessons[lessonId.value], f.profileLookupFails, f.courseLookupFails)) ==>
              o.status == 403 && o.body == Error("Forbidden")
    // Nothing reaches the database unless the row is created.
    ensures o.status != 201 ==> o.store == s
    // Nothing already in the bucket is removed, and on failure, if the
    // clean-up removal works, the bucket is as it was.
    ensures o.status != 201 ==> Restored(bucket, o.bucket, f.removeFails)
    // The only way past the checks.
    ensures o.status in {201, 422, 500} ==>
              && user.Some? && Present(lessonId) && file.Some? && GetFileType(file.value).Some?
              && !f.lessonLookupFails && lessonId.value in s.lessons
              && MayUpload(s, user.value, s.lessons[lessonId.value], f.profileLookupFails, f.courseLookupFails)
    ensures o.status == 201 ==>
              && user.Some? && Present(lessonId) && file.Some?
              && var source := SourcePath(lessonId.value, fileId, file.value);
              && var svelte := GetFileType(file.value) == Some(Svelte);
              && o.body == Created(fileId, LessonFile(
                   lessonId.value, file.value, GetFileType(file.value).value, source,
                   if svelte then Some(CompiledPath(lessonId.value, fileId)) else None, tabOrder))
              && o.store == s.(files := s.files[fileId := o.body.row])
              && o.bucket == bucket + Uploaded(o.body.row)
    // Past the checks: the source upload, then the remaining steps.
    ensures PassesChecks(s, user, lessonId, file, f)
            && (f.uploadFails || SourcePath(lessonId.value, fileId, file.value) in bucket) ==>
              o.status == 500 && o.body == Error(UploadFailed) && o.store == s && o.bucket == bucket
    ensures PassesChecks(s, user, lessonId, file, f)
            && !f.uploadFails && SourcePath(lessonId.value, fileId, file.value) !in bucket ==>
              o == Finish(s, bucket, lessonId.value, fileId, file.value, GetFileType(file.value).value,
                          tabOrder, compile, f)
    ensures o.status in {201, 400, 401, 403, 404, 422, 500}
  {
    match Refusal(s, user, lessonId, file, f)
    case Some((status, message)) => Outcome(status, Error(message), s, bucket)
    case None =>
      SaveUpload(s, bucket, lessonId.value, fileId, file.value, GetFileType(file.value).value, tabOrder, compile, f)
  }

  /** A request that passes the checks and whose storage and database calls
      all work is answered 201; a component must also compile, and its
      object paths must be free. */
  lemma WorkingCallsCreate(
    s: Store, bucket: set<string>, user: Option<Id>, lessonId: Option<string>, tabOrder: Parsed,
    file: Option<string>, fileId: Id, compile: CompileResult, f: Faults)
    requires fileId !in s.files
    ensures var o := Post(s, bucket, user, lessonId, tabOrder, file, fileId, compile, f);
            PassesChecks(s, user, lessonId, file, f)
            && !f.uploadFails && !f.insertFails
            && SourcePath(lessonId.value, fileId, file.value) !in bucket
            && (GetFileType(file.value) == Some(Svelte) ==>
                  && compile.Compiled? && !f.compiledUploadFails
                  && CompiledPath(lessonId.value, fileId) !in bucket + {SourcePath(lessonId.value, fileId, file.value)})
            ==> o.status == 201
  {
  }
}

=== FILE: profile.dfy ===
/** The profile (dashboard) page load: the user's profile, the kits they
    hold, their lesson progress with course and lesson titles resolved, and
    a few analytics counts. Each query's failure is logged and reads as "no
    rows"; only an unexpected exception reaches the handler's fallback. */
module Profile {
  import opened Common
  import opened Store

  const LoginRedirect := "/login?redirect=/dashboard"
  const UnknownCourse := "Unknown Course"
  const UnknownLesson := "Unknown Lesson"
  const LoadFailed := "Failed to load dashboard data"

  datatype ProfileRow = ProfileRow(role: string)

  const DefaultProfile := ProfileRow("student")

  datatype ProgressStatus = NotStarted | InProgress | Finished

  /** The columns embedded from a joined course or lesson. */
  datatype CourseEmbed = CourseEmbed(id: Id, title: string)
  datatype LessonEmbed = LessonEmbed(id: Id, title: Option<string>, courseId: Id)

  /** A `user_lesson_progress` row with its joined lesson and courses. */
  datatype Progress = Progress(
    id: Id, lessonId: Id, courseId: Id, courseType: CourseType, status: ProgressStatus,
    lesson: Option<LessonEmbed>, official: Option<CourseEmbed>, custom: Option<CourseEmbed>)

  /** A progress row as the page returns it: every column of the row, with
      `courseId` replacing the row's own `course_id`. */
  datatype ProcessedProgress = ProcessedProgress(
    row: Progress, courseTitle: string, courseId: Option<Id>, lessonTitle: string)

  datatype KitInfo = KitInfo(id: Id, name: string, level: int, theme: string, imageUrl: Option<string>, description: string)

  /** The joined `kits` value of a `user_kits` row: missing, one row, or an
      array of rows (possibly empty). */
  datatype KitEmbed = NoKit | One(kit: KitInfo) | Many(kits: seq<KitInfo>)

  datatype UserKitRow = UserKitRow(kitId: Id, kits: KitEmbed)

  datatype Order = Order(id: Id, createdAt: Time)

  datatype Analytics = Analytics(
    totalCourses: nat, completedCourses: nat, inProgressCourses: nat,
    totalLessons: nat, completedLessons: nat, averageCompletionTime: int, learningStreak: int)

  const NoAnalytics := Analytics(0, 0, 0, 0, 0, 0, 0)

  datatype Page =
    | Redirect(status: int, location: string)
    | Dashboard(profile: ProfileRow, progress: seq<ProcessedProgress>, kits: seq<KitInfo>,
                recentOrders: seq<Order>, analytics: Analytics, error: Option<string>)

  // ---------------------------------------------------------------- analytics

  /** The statuses of the rows, in order. */
  function Statuses(rows: seq<Progress>): (r: seq<ProgressStatus>)
    ensures |r| == |rows| && forall i :: 0 <= i < |rows| ==> r[i] == rows[i].status
  {
    seq(|rows|, i requires 0 <= i < |rows| => rows[i].status)
  }

  /** How many rows have status `st`: the multiplicity of `st` among the
      rows' statuses. */
  function CountStatus(rows: seq<Progress>, st: ProgressStatus): (n: nat)
    ensures n <= |rows|
    ensures n == multiset(Statuses(rows))[st]
  {
    if rows == [] then 0
    else
      assert Statuses(rows) == [rows[0].status] + Statuses(rows[1..]);
      (if rows[0].status == st then 1 else 0) + CountStatus(rows[1..], st)
  }

  /** Counts add up over concatenated row lists. */
  lemma CountStatusConcat(a: seq<Progress>, b: seq<Progress>, st: ProgressStatus)
    ensures CountStatus(a + b, st) == CountStatus(a, st) + CountStatus(b, st)
  {
    assert Statuses(a + b) == Statuses(a) + Statuses(b);
  }

  /** No row is counted both as completed and as in progress. */
  lemma {:induction false} CompletedAndInProgressWithinTotal(rows: seq<Progress>)
    ensures CountStatus(rows, Finished) + CountStatus(rows, InProgress) <= |rows|
  {
    if rows != [] {
      CompletedAndInProgressWithinTotal(rows[1..]);
    }
  }

  function ComputeAnalytics(rows: seq<Progress>): (a: Analytics)
    ensures a.totalCourses == a.totalLessons == |rows|
    ensures a.completedCourses == a.completedLessons == CountStatus(rows, Finished)
    ensures a.inProgressCourses == CountStatus(rows, InProgress)
    ensures a.completedCourses + a.inProgressCourses <= a.totalCourses
    ensures a.averageCompletionTime == 0 && a.learningStreak == 0
  {
    CompletedAndInProgressWithinTotal(rows);
    var completed := CountStatus(rows, Finished);
    Analytics(|rows|, completed, CountStatus(rows, InProgress), |rows|, completed, 0, 0)
  }

  // ---------------------------------------------------------------- titles

  /** The course a progress row belongs to: the official course when the
      join found one, else the community course, else unknown. */
  function ResolveCourse(p: Progress): (r: (string, Option<Id>))
    ensures p.official.Some? ==> r == (p.official.value.title, Some(p.official.value.id))
    ensures p.official.None? && p.custom.Some? ==> r == (p.custom.value.title, Some(p.custom.value.id))
    ensures p.official.None? && p.custom.None? ==> r == (UnknownCourse, None)
  {
    if p.official.Some? then (p.official.value.title, Some(p.official.value.id))
    else if p.custom.Some? then (p.custom.value.title, Some(p.custom.value.id))
    else (UnknownCourse, None)
  }

  /** The lesson title, or a placeholder when the lesson or its title is
      missing or empty. */
  function LessonTitle(p: Progress): (t: string)
    ensures t != ""
    ensures p.lesson.Some? && Present(p.lesson.value.title) ==> t == p.lesson.value.title.value
    ensures !(p.lesson.Some? && Present(p.lesson.value.title)) ==> t == UnknownLesson
  {
    if p.lesson.Some? && Present(p.lesson.value.title) then p.lesson.value.title.value else UnknownLesson
  }

  function Process(p: Progress): ProcessedProgress {
    var (title, id) := ResolveCourse(p);
    ProcessedProgress(p, title, id, LessonTitle(p))
  }

  function ProcessAll(rows: seq<Progress>): (r: seq<ProcessedProgress>)
    ensures |r| == |rows|
    ensures forall i :: 0 <= i < |rows| ==> r[i] == Process(rows[i]) && r[i].row == rows[i]
  {
    if rows == [] then [] else [Process(rows[0])] + ProcessAll(rows[1..])
  }

  // ---------------------------------------------------------------- kits

  /** Step one: the joined kit values, dropping the missing ones. */
  function DropMissing(rows: seq<UserKitRow>): (r: seq<KitEmbed>)
    ensures |r| <= |rows|
    ensures forall e :: e in r <==> !e.NoKit? && exists row :: row in rows && row.kits == e
  {
    if rows == [] then []
    else if rows[0].kits.NoKit? then DropMissing(rows[1..])
    else [rows[0].kits] + DropMissing(rows[1..])
  }

  /** Dropping distributes over concatenation, so the kept values stay in
      their order. */
  lemma {:induction false} DropMissingConcat(a: seq<UserKitRow>, b: seq<UserKitRow>)
    ensures DropMissing(a + b) == DropMissing(a) + DropMissing(b)
    decreases |a|
  {
    if a != [] {
      assert (a + b)[1..] == a[1..] + b;
      DropMissingConcat(a[1..], b);
    } else {
      assert a + b == b;
    }
  }

  /** Step two: an array becomes its first element, which is missing when
      the array is empty. */
  function FirstOfArrays(embeds: seq<KitEmbed>): (r: seq<Option<KitInfo>>)
    ensures |r| == |embeds|
    ensures forall i :: 0 <= i < |embeds| ==>
              && (embeds[i].One? ==> r[i] == Some(embeds[i].kit))
              && (embeds[i].Many? && embeds[i].kits != [] ==> r[i] == Some(embeds[i].kits[0]))
              && (embeds[i].NoKit? || embeds[i] == Many([]) ==> r[i] == None)
  {
    if embeds == [] then []
    else
      var e := embeds[0];
      var first := match e
        case NoKit => None
        case One(k) => Some(k)
        case Many(ks) => if |ks| > 0 then Some(ks[0]) else None;
      [first] + FirstOfArrays(embeds[1..])
  }

  /** Step three: drop what is missing again. */
  function DropNone(xs: seq<Option<KitInfo>>): (r: seq<KitInfo>)
    ensures |r| <= |xs|
    ensures forall k :: k in r <==> Some(k) in xs
  {
    if xs == [] then []
    else if xs[0].None? then DropNone(xs[1..])
    else [xs[0].value] + DropNone(xs[1..])
  }

  /** Dropping distributes over concatenation, so the kept kits stay in
      their order. */
  lemma {:induction false} DropNoneConcat(a: seq<Option<KitInfo>>, b: seq<Option<KitInfo>>)
    ensures DropNone(a + b) == DropNone(a) + DropNone(b)
    decreases |a|
  {
    if a != [] {
      assert (a + b)[1..] == a[1..] + b;
      DropNoneConcat(a[1..], b);
    } else {
      assert a + b == b;
    }
  }

  /** The three-step flattening the page performs. */
  function FlattenKits(rows: seq<UserKitRow>): seq<KitInfo> {
    DropNone(FirstOfArrays(DropMissing(rows)))
  }

  /** The kit a row contributes, if any. */
  function KitOf(row: UserKitRow): Option<KitInfo> {
    match row.kits
    case NoKit => None
    case One(k) => Some(k)
    case Many(ks) => if |ks| > 0 then Some(ks[0]) else None
  }

  /** One pass over the rows: each contributes its single kit or the first
      of its array, and contributes nothing when it has none. */
  function KitsOfRows(rows: seq<UserKitRow>): (r: seq<KitInfo>)
    ensures |r| <= |rows|
  {
    if rows == [] then []
    else if KitOf(rows[0]).None? then KitsOfRows(rows[1..])
    else [KitOf(rows[0]).value] + KitsOfRows(rows[1..])
  }

  /** The three-step flattening agrees with the one-pass reading. */
  lemma {:induction false} FlattenKitsIsOnePass(rows: seq<UserKitRow>)
    ensures FlattenKits(rows) == KitsOfRows(rows)
  {
    if rows != [] {
      FlattenKitsIsOnePass(rows[1..]);
      if !rows[0].kits.NoKit? {
        var embeds := DropMissing(rows);
        assert embeds == [rows[0].kits] + DropMissing(rows[1..]);
        assert embeds[1..] == DropMissing(rows[1..]);
        var firsts := FirstOfArrays(embeds);
        assert firsts[0] == KitOf(rows[0]);
        assert firsts[1..] == FirstOfArrays(DropMissing(rows[1..]));
      }
    }
  }

  /** A user whose rows all hold a single kit sees exactly those kits, in
      order. */
  lemma {:induction false} SingleKitsKept(rows: seq<UserKitRow>)
    requires forall i :: 0 <= i < |rows| ==> rows[i].kits.One?
    ensures |FlattenKits(rows)| == |rows|
    ensures forall i :: 0 <= i < |rows| ==> FlattenKits(rows)[i] == rows[i].kits.kit
  {
    FlattenKitsIsOnePass(rows);
    SingleKitsKeptOnePass(rows);
  }

  lemma {:induction false} SingleKitsKeptOnePass(rows: seq<UserKitRow>)
    requires forall i :: 0 <= i < |rows| ==> rows[i].kits.One?
    ensures |KitsOfRows(rows)| == |rows|
    ensures forall i :: 0 <= i < |rows| ==> KitsOfRows(rows)[i] == rows[i].kits.kit
  {
    if rows != [] {
      SingleKitsKeptOnePass(rows[1..]);
    }
  }

  // ---------------------------------------------------------------- the load

  /** The page load. Each query's answer is `None` when it failed;
      `unexpected` stands for an exception thrown while building the page. */
  function Load(
    user: Option<Id>, profile: Option<ProfileRow>, userKits: Option<seq<UserKitRow>>,
    progress: Option<seq<Progress>>, orders: Option<seq<Order>>, unexpected: bool): (p: Page)
    ensures user.None? <==> p.Redirect?
    ensures p.Redirect? ==> p == Redirect(302, LoginRedirect)
    ensures user.Some? && unexpected ==> p == Dashboard(DefaultProfile, [], [], [], NoAnalytics, Some(LoadFailed))
    ensures user.Some? && !unexpected ==>
              var rows := if progress.Some? then progress.value else [];
              && p.Dashboard? && p.error.None?
              && p.profile == (if profile.Some? then profile.value else DefaultProfile)
              && p.analytics.totalCourses == |rows|
              && p.analytics.completedCourses == CountStatus(rows, Finished)
              && p.analytics.inProgressCourses == CountStatus(rows, InProgress)
              && p.analytics.completedCourses + p.analytics.inProgressCourses <= p.analytics.totalCourses
              && |p.progress| == |rows|
              && (forall i :: 0 <= i < |rows| ==> p.progress[i] == Process(rows[i]))
              && p.kits == KitsOfRows(if userKits.Some? then userKits.value else [])
              && p.recentOrders == (if orders.Some? then orders.value else [])
  {
    if user.None? then Redirect(302, LoginRedirect)
    else if unexpected then Dashboard(DefaultProfile, [], [], [], NoAnalytics, Some(LoadFailed))
    else
      var rows := if progress.Some? then progress.value else [];
      var kitRows := if userKits.Some? then userKits.value else [];
      FlattenKitsIsOnePass(kitRows);
      Dashboard(
        if profile.Some? then profile.value else DefaultProfile,
        ProcessAll(rows), FlattenKits(kitRows),
        if orders.Some? then orders.value else [],
        ComputeAnalytics(rows), None)
  }
}

=== FILE: redeem.dfy ===
/** The `redeemCode` action: a guarded pipeline that ends in a
    compare-and-swap claim of a single-use kit code, followed by the
    permission grant and the ledger entry.

    The action is split into the checks made before the claim (`Check`) and
    the claim with its follow-up writes (`Commit`), so that two requests can
    be interleaved: both may pass their checks against the same store, but
    only the first commit finds the code unused. */
module Redeem {
  import opened Common
  import opened Store

  const PleaseLogIn := "Please log in to redeem codes"
  const EnterValidCode := "Please enter a valid code"
  const InvalidOrExpired := "Invalid or expired code"
  const CodeExpired := "This code has expired"
  const AlreadyHasAccess := "You already have access to this kit"
  const AlreadyUsed := "This code has already been used"
  const GrantFailed := "Failed to grant kit access"
  const ProcessingFailed := "Failed to process code redemption"

  /** Which calls to the backing store fail during one request. A failed
      read of the permission table reads as "no permission". */
  datatype Faults = Faults(
    lookupFails: bool, permissionCheckFails: bool, claimFails: bool,
    grantFails: bool, ledgerFails: bool)

  datatype Reply = Redeemed(kit: Kit, message: string) | Refused(error: string)

  /** The reply, the store afterwards, the code row this request claimed
      (if the conditional update succeeded) and whether the confirmation
      email was attempted. */
  datatype Outcome = Outcome(reply: Reply, store: Store, claimed: Option<Id>, emailAttempted: bool)

  /** The result of the checks made before the claim: the id of the row
      found and the row as it was read. */
  datatype Check = Proceed(id: Id, row: KitCode) | Stop(error: string)

  /** Ids of the unused rows whose code is `code`. */
  function UnusedMatches(s: Store, code: string): set<Id> {
    set id | id in s.codes && s.codes[id].code == code && !s.codes[id].isUsed
  }

  /** `.eq('code', code).eq('is_used', false).single()`: a row only when
      exactly one unused row carries the code. */
  function Lookup(s: Store, code: string, fails: bool): (r: Option<Id>)
    ensures r.Some? <==> !fails && |UnusedMatches(s, code)| == 1
    ensures r.Some? ==>
              && r.value in s.codes && s.codes[r.value].code == code && !s.codes[r.value].isUsed
              && UnusedMatches(s, code) == {r.value}
  {
    var m := UnusedMatches(s, code);
    if fails || |m| != 1 then None
    else Some(TheElement(m))
  }

  /** `kitCode.expires_at && new Date(kitCode.expires_at) < new Date()`:
      a code without an expiry date never expires, and one with a date is
      still good at that very instant. */
  function IsExpired(c: KitCode, now: Time): (b: bool)
    ensures c.expiresAt.None? ==> !b
    ensures c.expiresAt.Some? ==> (b <==> now > c.expiresAt.value)
  {
    c.expiresAt.Some? && c.expiresAt.value < now
  }

  /** Once a code has expired it stays expired. */
  lemma ExpiryIsFinal(c: KitCode, now: Time, later: Time)
    requires IsExpired(c, now) && now <= later
    ensures IsExpired(c, later)
  {
  }

  /** The checks made for a signed-in user before the claim. */
  function CheckRequest(s: Store, user: Id, code: Option<string>, now: Time, f: Faults): (c: Check)
    ensures c.Proceed? ==>
              && code.Some? && !AllSpace(code.value)
              && Lookup(s, Trim(code.value), f.lookupFails) == Some(c.id)
              && c.row == s.codes[c.id]
              && !IsExpired(c.row, now)
              && (f.permissionCheckFails || !HasCourseAccess(s, user, c.row.kitId))
    ensures c.Stop? ==> c.error in {EnterValidCode, InvalidOrExpired, CodeExpired, AlreadyHasAccess}
    // Conversely, a request that passes every check proceeds with the row
    // it found.
    ensures (code.Some? && !AllSpace(code.value) && Lookup(s, Trim(code.value), f.lookupFails).Some?
             && var id := Lookup(s, Trim(code.value), f.lookupFails).value;
             && !IsExpired(s.codes[id], now)
             && (f.permissionCheckFails || !HasCourseAccess(s, user, s.codes[id].kitId)))
            ==> c == Proceed(Lookup(s, Trim(code.value), f.lookupFails).value,
                             s.codes[Lookup(s, Trim(code.value), f.lookupFails).value])
  {
    if code.None? || Trim(code.value) == [] then Stop(EnterValidCode)
    else
      match Lookup(s, Trim(code.value), f.lookupFails)
      case None => Stop(InvalidOrExpired)
      case Some(id) =>
        var kc := s.codes[id];
        if IsExpired(kc, now) then Stop(CodeExpired)
        else if !f.permissionCheckFails && HasCourseAccess(s, user, kc.kitId) then Stop(AlreadyHasAccess)
        else Proceed(id, kc)
  }

  /** The code row after a successful claim by `user` at `now`. */
  function UsedBy(c: KitCode, user: Id, now: Time): KitCode {
    c.(isUsed := true, usedBy := Some(user), usedAt := Some(now))
  }

  /** The conditional update `... .eq('id', id).eq('is_used', false)`: it
      succeeds only while the row exists and is still unused. */
  function Claim(s: Store, id: Id, user: Id, now: Time, fails: bool): (r: Option<Store>)
    ensures r.Some? <==> !fails && id in s.codes && !s.codes[id].isUsed
    ensures r.Some? ==> r.value == s.(codes := s.codes[id := UsedBy(s.codes[id], user, now)])
  {
    if fails || id !in s.codes || s.codes[id].isUsed then None
    else Some(s.(codes := s.codes[id := UsedBy(s.codes[id], user, now)]))
  }

  /** The ledger row written for a redemption. */
  function RedemptionPurchase(user: Id, kit: Id, codeId: Id, now: Time): Purchase {
    Purchase(user, kit, 0, "USD", CodeRedemption, Completed, Some(codeId), Some(now))
  }

  function SuccessMessage(k: Kit): string {
    "Successfully redeemed " + k.name + "! You now have access to all courses for this kit."
  }

  /** The claim and the writes that follow it, against whatever the store
      holds when the claim runs; `kc` is the row as the lookup read it. */
  function Commit(s: Store, user: Id, id: Id, kc: KitCode, now: Time, f: Faults): (o: Outcome)
    ensures o.claimed.Some? <==> !f.claimFails && id in s.codes && !s.codes[id].isUsed
    ensures o.claimed.None? ==> o == Outcome(Refused(AlreadyUsed), s, None, false)
    // After the claim the reply depends only on the grant and on the kit.
    ensures o.claimed.Some? ==>
              && (o.emailAttempted <==> !f.grantFails)
              && (f.grantFails ==> o.reply == Refused(GrantFailed))
              && (!f.grantFails && kc.kitId !in s.kits ==> o.reply == Refused(ProcessingFailed))
              && (!f.grantFails && kc.kitId in s.kits ==>
                    o.reply == Redeemed(s.kits[kc.kitId], SuccessMessage(s.kits[kc.kitId])))
    ensures o.claimed.Some? ==>
              && o.claimed == Some(id) && Claimed(s, o.store, id)
              && o.store.codes == s.codes[id := UsedBy(s.codes[id], user, now)]
    ensures o.reply.Redeemed? ==>
              && o.claimed.Some?
              && o.store.permissions == s.permissions[PermKey(user, kc.kitId, CourseAccess) := Permission(None)]
              && o.store.purchases ==
                   s.purchases + (if f.ledgerFails then [] else [RedemptionPurchase(user, kc.kitId, id, now)])
              && kc.kitId in s.kits && o.reply.kit == s.kits[kc.kitId]
    ensures o.reply == Refused(GrantFailed) ==>
              && o.claimed.Some? && o.store.permissions == s.permissions
              && o.store.purchases == s.purchases
    ensures o.store.roles == s.roles && o.store.kits == s.kits && o.store.courses == s.courses
            && o.store.lessons == s.lessons && o.store.files == s.files
  {
    match Claim(s, id, user, now, f.claimFails)
    case None => Outcome(Refused(AlreadyUsed), s, None, false)
    case Some(s1) =>
      if f.grantFails then Outcome(Refused(GrantFailed), s1, Some(id), false)
      else
        var s2 := UpsertCourseAccess(s1, user, kc.kitId, None);
        var s3 := if f.ledgerFails then s2 else RecordPurchase(s2, RedemptionPurchase(user, kc.kitId, id, now));
        // The reply reads the kit joined to the code; a missing kit throws
        // inside the handler's try block, after every write has happened.
        if kc.kitId in s.kits then
          Outcome(Redeemed(s.kits[kc.kitId], SuccessMessage(s.kits[kc.kitId])), s3, Some(id), true)
        else
          Outcome(Refused(ProcessingFailed), s3, Some(id), true)
  }

  /** The whole `redeemCode` action. */
  function RedeemCode(s: Store, user: Option<Id>, code: Option<string>, now: Time, f: Faults): (o: Outcome)
    // Whatever happens, used codes stay as they are and the ledger only grows.
    ensures UsedCodesFrozen(s, o.store) && LedgerExtends(s, o.store)
    // Early exits leave the store untouched.
    ensures o.claimed.None? ==> o.store == s && !o.emailAttempted
    ensures o.reply.Refused? && o.reply.error !in {GrantFailed, ProcessingFailed} ==> o.store == s
    ensures user.None? ==> o.reply == Refused(PleaseLogIn)
    ensures user.Some? && (code.None? || AllSpace(code.value)) ==> o.reply == Refused(EnterValidCode)
    ensures (user.Some? && code.Some? && !AllSpace(code.value)
             && (f.lookupFails || |UnusedMatches(s, Trim(code.value))| != 1))
            ==> o.reply == Refused(InvalidOrExpired)
    ensures (user.Some? && code.Some? && !AllSpace(code.value)
             && Lookup(s, Trim(code.value), f.lookupFails).Some?
             && IsExpired(s.codes[Lookup(s, Trim(code.value), f.lookupFails).value], now))
            ==> o.reply == Refused(CodeExpired)
    ensures (user.Some? && code.Some? && !AllSpace(code.value)
             && Lookup(s, Trim(code.value), f.lookupFails).Some?
             && var kc := s.codes[Lookup(s, Trim(code.value), f.lookupFails).value];
             && !IsExpired(kc, now) && !f.permissionCheckFails && HasCourseAccess(s, user.value, kc.kitId))
            ==> o.reply == Refused(AlreadyHasAccess)
    // A request that passes every check claims its row unless the claim's
    // call fails, and with a working grant for a listed kit it is redeemed.
    ensures (user.Some? && code.Some? && !AllSpace(code.value)
             && Lookup(s, Trim(code.value), f.lookupFails).Some?
             && var id := Lookup(s, Trim(code.value), f.lookupFails).value;
             && !IsExpired(s.codes[id], now)
             && (f.permissionCheckFails || !HasCourseAccess(s, user.value, s.codes[id].kitId)))
            ==> var id := Lookup(s, Trim(code.value), f.lookupFails).value;
                && (o.claimed.Some? <==> !f.claimFails)
                && (o.claimed.Some? ==> o.claimed == Some(id))
                && (!f.claimFails && !f.grantFails && s.codes[id].kitId in s.kits ==> o.reply.Redeemed?)
    // A claim takes the one unused, unexpired row carrying the trimmed code
    // and marks it used by the caller.
    ensures o.claimed.Some? ==>
              && user.Some? && code.Some?
              && var id := o.claimed.value;
              && UnusedMatches(s, Trim(code.value)) == {id}
              && !IsExpired(s.codes[id], now)
              && (f.permissionCheckFails || !HasCourseAccess(s, user.value, s.codes[id].kitId))
              && Claimed(s, o.store, id)
              && o.store.codes == s.codes[id := UsedBy(s.codes[id], user.value, now)]
    // Success: permission granted without expiry and one ledger row added
    // (unless the ledger write failed, which does not change the reply).
    ensures o.reply.Redeemed? ==>
              && o.claimed.Some? && user.Some?
              && var id := o.claimed.value;
              && var kit := s.codes[id].kitId;
              && o.store.permissions == s.permissions[PermKey(user.value, kit, CourseAccess) := Permission(None)]
              && o.store.purchases ==
                   s.purchases + (if f.ledgerFails then [] else [RedemptionPurchase(user.value, kit, id, now)])
              && kit in s.kits && o.reply.kit == s.kits[kit] && o.emailAttempted
    // A failed grant after the claim leaves the code used: no rollback.
    ensures o.reply == Refused(GrantFailed) ==>
              && o.claimed.Some? && o.store.codes[o.claimed.value].isUsed
              && o.store.permissions == s.permissions && o.store.purchases == s.purchases
  {
    if user.None? then Outcome(Refused(PleaseLogIn), s, None, false)
    else
      match CheckRequest(s, user.value, code, now, f)
      case Stop(e) => Outcome(Refused(e), s, None, false)
      case Proceed(id, kc) =>
        CommitKeepsUsedAndLedger(s, user.value, id, kc, now, f);
        Commit(s, user.value, id, kc, now, f)
  }

  /** A commit freezes every used code it does not claim and only appends
      to the ledger. */
  lemma CommitKeepsUsedAndLedger(s: Store, user: Id, id: Id, kc: KitCode, now: Time, f: Faults)
    ensures var o := Commit(s, user, id, kc, now, f);
            UsedCodesFrozen(s, o.store) && LedgerExtends(s, o.store)
  {
    var o := Commit(s, user, id, kc, now, f);
    if o.claimed.Some? {
      assert s.purchases <= o.store.purchases;
    }
  }

  /** Two requests that passed their checks against the same store with the
      same code found the same row; once the first commit claims it, the
      second commit finds it used and changes nothing. */
  lemma InterleavedClaims(
    s: Store, userA: Id, userB: Id, code: Option<string>, nowA: Time, nowB: Time, fA: Faults, fB: Faults)
    requires CheckRequest(s, userA, code, nowA, fA).Proceed?
    requires CheckRequest(s, userB, code, nowB, fB).Proceed?
    ensures CheckRequest(s, userA, code, nowA, fA).id == CheckRequest(s, userB, code, nowB, fB).id
    ensures var ca := CheckRequest(s, userA, code, nowA, fA);
            var cb := CheckRequest(s, userB, code, nowB, fB);
            var a := Commit(s, userA, ca.id, ca.row, nowA, fA);
            var b := Commit(a.store, userB, cb.id, cb.row, nowB, fB);
            a.claimed.Some? ==> b == Outcome(Refused(AlreadyUsed), a.store, None, false)
  {
  }

  /** Redeeming again, by anyone, after a redemption that claimed a code
      (whether or not its later writes succeeded) never claims that code. */
  lemma SecondRedeemFails(
    s: Store, userA: Option<Id>, userB: Option<Id>, codeA: Option<string>, codeB: Option<string>,
    nowA: Time, nowB: Time, fA: Faults, fB: Faults)
    ensures var a := RedeemCode(s, userA, codeA, nowA, fA);
            var b := RedeemCode(a.store, userB, codeB, nowB, fB);
            a.claimed.Some? ==> b.claimed != a.claimed
  {
  }
}

=== FILE: shop.dfy ===
/** The shop page: its load, which lists the kits the user already holds,
    and the `purchaseKit` action, which grants a kit for free and records it
    in the ledger. */
module Shop {
  import opened Common
  import opened Store

  const PleaseLogIn := "Please log in to purchase kits"
  const KitIdRequired := "Kit ID is required"
  const PurchaseFailed := "Failed to purchase kit"
  const Purchased := "Kit purchased successfully!"
  const LoadFailed := "Failed to load shop data"

  datatype Reply = Bought(message: string) | Refused(error: string)

  /** The reply, the store afterwards and whether the confirmation email
      was attempted. */
  datatype Outcome = Outcome(reply: Reply, store: Store, emailAttempted: bool)

  /** The kits on sale and the ids of the kits the user holds. */
  datatype Page = Page(kits: map<Id, Kit>, userKits: set<Id>, error: Option<string>)

  /** The page load. A failed permission query reads as no permissions; a
      failed kit query empties the page. Permission expiry is fetched but
      never consulted. */
  function Load(s: Store, user: Option<Id>, kitsQueryFails: bool, permissionsQueryFails: bool): (p: Page)
    ensures kitsQueryFails ==> p == Page(map[], {}, Some(LoadFailed))
    ensures !kitsQueryFails ==> p.kits == s.kits && p.error.None?
    ensures user.None? || permissionsQueryFails ==> p.userKits == {}
    ensures user.Some? && !kitsQueryFails && !permissionsQueryFails ==>
              forall k :: k in p.userKits <==> HasCourseAccess(s, user.value, k)
  {
    if kitsQueryFails then Page(map[], {}, Some(LoadFailed))
    else
      var userKits := if user.None? || permissionsQueryFails then {} else CourseKitIds(s, user.value);
      Page(s.kits, userKits, None)
  }

  /** A held kit is listed even when its permission's expiry has passed. */
  lemma ExpiredPermissionStillListed(s: Store, user: Id, kit: Id, now: Time)
    requires PermKey(user, kit, CourseAccess) in s.permissions
    requires s.permissions[PermKey(user, kit, CourseAccess)].expiresAt.Some?
    requires s.permissions[PermKey(user, kit, CourseAccess)].expiresAt.value < now
    ensures kit in Load(s, Some(user), false, false).userKits
  {
  }

  /** The ledger row written for a shop purchase: free, and recorded with
      the `admin_grant` method. */
  function PurchaseRow(user: Id, kit: Id, now: Time): Purchase {
    Purchase(user, kit, 0, "USD", AdminGrant, Completed, None, Some(now))
  }

  /** `purchaseKit`. The upsert's failure is reported with a fixed message;
      the ledger write's failure is logged and ignored; the confirmation
      email is attempted only when the ledger row was written and the kit
      was found. */
  function PurchaseKit(
    s: Store, user: Option<Id>, kitId: Option<Id>, now: Time,
    upsertFails: bool, ledgerFails: bool, kitLookupFails: bool): (o: Outcome)
    ensures user.None? ==> o == Outcome(Refused(PleaseLogIn), s, false)
    ensures user.Some? && !Present(kitId) ==> o == Outcome(Refused(KitIdRequired), s, false)
    ensures user.Some? && Present(kitId) && upsertFails ==> o == Outcome(Refused(PurchaseFailed), s, false)
    ensures user.Some? && Present(kitId) && !upsertFails ==> o.reply == Bought(Purchased)
    ensures o.reply.Refused? ==> o.store == s && !o.emailAttempted
    ensures o.reply.Bought? ==>
              && user.Some? && Present(kitId) && !upsertFails
              && HasCourseAccess(o.store, user.value, kitId.value)
              && o.store.permissions ==
                   s.permissions[PermKey(user.value, kitId.value, CourseAccess) := Permission(None)]
              && o.store.purchases ==
                   s.purchases + (if ledgerFails then [] else [PurchaseRow(user.value, kitId.value, now)])
              && o.store == s.(permissions := o.store.permissions, purchases := o.store.purchases)
    ensures o.emailAttempted <==>
              o.reply.Bought? && !ledgerFails && !kitLookupFails && kitId.value in s.kits
  {
    if user.None? then Outcome(Refused(PleaseLogIn), s, false)
    else if !Present(kitId) then Outcome(Refused(KitIdRequired), s, false)
    else if upsertFails then Outcome(Refused(PurchaseFailed), s, false)
    else
      var s1 := UpsertCourseAccess(s, user.value, kitId.value, None);
      var s2 := if ledgerFails then s1 else RecordPurchase(s1, PurchaseRow(user.value, kitId.value, now));
      var kitFound := !kitLookupFails && kitId.value in s2.kits;
      Outcome(Bought(Purchased), s2, !ledgerFails && kitFound)
  }
}

=== FILE: sorting.dfy ===
/** Filtering and ordering of query results. The store returns the rows a
    query matches ordered by one column; rows with equal keys may come in any
    order, so a listing is specified as "exactly the matching rows, sorted by
    the key". `SortBy` is one such order. */
module Sorting {

  /** The rows of `xs` that satisfy `p`, in their original order. */
  function Filter<T(!new)>(xs: seq<T>, p: T -> bool): (r: seq<T>)
    ensures |r| <= |xs|
    ensures forall x :: x in r <==> x in xs && p(x)
  {
    if xs == [] then []
    else if p(xs[0]) then [xs[0]] + Filter(xs[1..], p)
    else Filter(xs[1..], p)
  }

  predicate SortedBy<T>(xs: seq<T>, key: T -> int) {
    forall i, j :: 0 <= i < j < |xs| ==> key(xs[i]) <= key(xs[j])
  }

  /** Every key in `xs` is at least `b`. */
  predicate KeysAtLeast<T>(xs: seq<T>, key: T -> int, b: int) {
    forall i :: 0 <= i < |xs| ==> b <= key(xs[i])
  }

  /** A key bound that holds for the head and the tail holds for the whole. */
  lemma ConsKeys<T>(y: T, ys: seq<T>, key: T -> int, b: int)
    ensures KeysAtLeast([y] + ys, key, b) <==> b <= key(y) && KeysAtLeast(ys, key, b)
  {
    if b <= key(y) && KeysAtLeast(ys, key, b) {
      forall i | 0 <= i < |[y] + ys|
        ensures b <= key(([y] + ys)[i])
      {
        if i > 0 { assert ([y] + ys)[i] == ys[i - 1]; }
      }
    }
    if KeysAtLeast([y] + ys, key, b) {
      assert ([y] + ys)[0] == y;
      forall i | 0 <= i < |ys|
        ensures b <= key(ys[i])
      {
        assert ys[i] == ([y] + ys)[i + 1];
      }
    }
  }

  /** A sorted tail whose keys are at least the head's makes a sorted list. */
  lemma ConsSorted<T>(y: T, ys: seq<T>, key: T -> int)
    requires SortedBy(ys, key) && KeysAtLeast(ys, key, key(y))
    ensures SortedBy([y] + ys, key)
  {
    forall i, j | 0 <= i < j < |[y] + ys|
      ensures key(([y] + ys)[i]) <= key(([y] + ys)[j])
    {
      assert ([y] + ys)[j] == ys[j - 1];
      if i > 0 { assert ([y] + ys)[i] == ys[i - 1]; }
    }
  }

  /** Inserts `x` before the first element whose key is not smaller. */
  function Insert<T(==)>(x: T, xs: seq<T>, key: T -> int): (r: seq<T>)
    requires SortedBy(xs, key)
    ensures SortedBy(r, key)
    ensures multiset(r) == multiset(xs) + multiset{x}
    ensures forall b :: KeysAtLeast(xs, key, b) && b <= key(x) ==> KeysAtLeast(r, key, b)
  {
    if xs == [] || key(x) <= key(xs[0]) then
      assert KeysAtLeast(xs, key, key(x));
      ConsSorted(x, xs, key);
      forall b ensures KeysAtLeast(xs, key, b) && b <= key(x) ==> KeysAtLeast([x] + xs, key, b) {
        ConsKeys(x, xs, key, b);
      }
      [x] + xs
    else
      var rest := Insert(x, xs[1..], key);
      assert xs == [xs[0]] + xs[1..];
      assert SortedBy(xs[1..], key);
      assert KeysAtLeast(xs[1..], key, key(xs[0]));
      ConsSorted(xs[0], rest, key);
      forall b ensures KeysAtLeast(xs, key, b) && b <= key(x) ==> KeysAtLeast([xs[0]] + rest, key, b) {
        ConsKeys(xs[0], rest, key, b);
        ConsKeys(xs[0], xs[1..], key, b);
      }
      [xs[0]] + rest
  }

  /** Insertion sort on the key. */
  function SortBy<T(==)>(xs: seq<T>, key: T -> int): (r: seq<T>)
    ensures SortedBy(r, key)
    ensures multiset(r) == multiset(xs)
  {
    if xs == [] then []
    else
      assert xs == [xs[0]] + xs[1..];
      Insert(xs[0], SortBy(xs[1..], key), key)
  }

  /** Sorting rows that are already in key order leaves them as they are. */
  lemma {:induction false} SortSortedIsIdentity<T>(xs: seq<T>, key: T -> int)
    requires SortedBy(xs, key)
    ensures SortBy(xs, key) == xs
  {
    if xs != [] {
      assert SortedBy(xs[1..], key);
      SortSortedIsIdentity(xs[1..], key);
    }
  }

  /** `r` lists exactly the rows of `xs` that satisfy `p`, ordered by `key`. */
  predicate Lists<T(==,!new)>(r: seq<T>, xs: seq<T>, p: T -> bool, key: T -> int) {
    multiset(r) == multiset(Filter(xs, p)) && SortedBy(r, key)
  }

  /** Membership in a listing is membership in the filtered table. */
  lemma ListsMembers<T(!new)>(r: seq<T>, xs: seq<T>, p: T -> bool, key: T -> int)
    requires Lists(r, xs, p, key)
    ensures forall x :: x in r <==> x in xs && p(x)
  {
    forall x
      ensures x in r <==> x in xs && p(x)
    {
      assert x in r <==> x in multiset(r);
      assert x in Filter(xs, p) <==> x in multiset(Filter(xs, p));
    }
  }

  /** A filter that rejects every row yields nothing. */
  lemma FilterRejectingAll<T(!new)>(xs: seq<T>, p: T -> bool)
    requires forall x :: x in xs ==> !p(x)
    ensures Filter(xs, p) == []
  {
  }
}

=== FILE: store.dfy ===
/** The rows of the backing relational store that the request handlers read
    and write, as one immutable value. Each table is a map keyed by its
    primary key, except the purchase ledger, which is append-only and is
    therefore a sequence. */
module Store {
  import opened Common

  type Id = string

  /** Instants are whole numbers (milliseconds since the epoch). */
  type Time = int

  /** The only permission type the handlers write or read. */
  const CourseAccess: string := "course_access"

  /** The profile role that unlocks the admin actions. */
  const AdminRole: string := "admin"

  datatype PaymentMethod = Stripe | CodeRedemption | AdminGrant
  datatype PaymentStatus = Pending | Completed | PaymentFailed | Refunded
  datatype CourseType = Official | Custom
  datatype ContentType = Text | Video | Interactive | Quiz | Code | SvelteContent
  datatype FileType = Markdown | VideoFile | Svelte

  // Rows kept in a map carry no id field: the map key is the row's id.

  datatype Kit = Kit(
    name: string, theme: string, level: int, description: string,
    price: int, kitType: string, qrCode: string, accessCode: string)

  /** A single-use redemption code for a kit. */
  datatype KitCode = KitCode(
    kitId: Id, code: string, codeType: string,
    isUsed: bool, usedBy: Option<Id>, usedAt: Option<Time>, expiresAt: Option<Time>)

  /** The key of a `user_permissions` row. The upsert's conflict target is
      assumed to be exactly these three columns. */
  datatype PermKey = PermKey(userId: Id, kitId: Id, permissionType: string)

  datatype Permission = Permission(expiresAt: Option<Time>)

  /** A row of the append-only purchase ledger. */
  datatype Purchase = Purchase(
    userId: Id, kitId: Id, amount: int, currency: string,
    paymentMethod: PaymentMethod, paymentStatus: PaymentStatus,
    kitCodeId: Option<Id>, completedAt: Option<Time>)

  /** A community course authored by a user. */
  datatype CustomCourse = CustomCourse(
    creatorId: Id, kitId: Id, title: string, description: string,
    price: int, isPublic: bool, isPublished: bool, estimatedDuration: Option<Parsed>,
    createdAt: Time)

  /** A row of the `official_courses` table (the columns the pages read),
      with its id. */
  datatype OfficialCourse = OfficialCourse(id: Id, kitId: Id, title: string, level: int, isPublished: bool)

  datatype Lesson = Lesson(
    courseId: Id, courseType: CourseType, title: string,
    contentType: ContentType, orderIndex: int, estimatedDuration: Option<Parsed>,
    isPublished: bool)

  /** A stored lesson asset: the uploaded source and, for components, the
      compiled module. */
  datatype LessonFile = LessonFile(
    lessonId: Id, fileName: string, fileType: FileType,
    storagePath: string, compiledPath: Option<string>, tabOrder: Parsed)

  datatype Store = Store(
    roles: map<Id, string>,
    kits: map<Id, Kit>,
    codes: map<Id, KitCode>,
    permissions: map<PermKey, Permission>,
    purchases: seq<Purchase>,
    courses: map<Id, CustomCourse>,
    official: set<OfficialCourse>,
    lessons: map<Id, Lesson>,
    files: map<Id, LessonFile>)

  // Rows as a query returns them, with their ids, and the orders the pages
  // ask for.

  /** A row of the `kits` table. */
  datatype KitRow = KitRow(id: Id, kit: Kit)

  /** A row of the `custom_courses` table. */
  datatype CourseRow = CourseRow(id: Id, course: CustomCourse)

  /** `rows` is what a query over the whole `kits` table returns: each row
      it lists is a row of the table, and every row of the table is listed. */
  predicate KitTable(rows: seq<KitRow>, kits: map<Id, Kit>) {
    && (forall r :: r in rows ==> r.id in kits && kits[r.id] == r.kit)
    && (forall id :: id in kits ==> KitRow(id, kits[id]) in rows)
  }

  /** The same for the `custom_courses` table. */
  predicate CourseTable(rows: seq<CourseRow>, courses: map<Id, CustomCourse>) {
    && (forall r :: r in rows ==> r.id in courses && courses[r.id] == r.course)
    && (forall id :: id in courses ==> CourseRow(id, courses[id]) in rows)
  }

  /** The same for the `official_courses` table. */
  predicate OfficialTable(rows: seq<OfficialCourse>, official: set<OfficialCourse>) {
    && (forall c :: c in rows ==> c in official)
    && (forall c :: c in official ==> c in rows)
  }

  /** Kits are listed by level ascending. */
  function KitLevel(r: KitRow): int { r.kit.level }

  /** Community courses are listed newest first. */
  function NewestFirst(r: CourseRow): int { -r.course.createdAt }

  /** The `creator_id` filter. */
  function CreatorFilter(user: Id): CourseRow -> bool {
    (r: CourseRow) => r.course.creatorId == user
  }

  /** The profile check every admin handler repeats: a signed-in caller whose
      profile role is `admin`. A missing profile is not an admin. */
  predicate IsAdmin(s: Store, caller: Option<Id>) {
    caller.Some? && caller.value in s.roles && s.roles[caller.value] == AdminRole
  }

  predicate HasCourseAccess(s: Store, user: Id, kit: Id) {
    PermKey(user, kit, CourseAccess) in s.permissions
  }

  /** The kit ids of the user's `course_access` permissions, expired or not. */
  function CourseKitIds(s: Store, user: Id): (r: set<Id>)
    ensures forall k :: k in r <==> HasCourseAccess(s, user, k)
  {
    set key | key in s.permissions && key.userId == user && key.permissionType == CourseAccess
      :: key.kitId
  }

  /** The `user_permissions` upsert of a `course_access` row. */
  function UpsertCourseAccess(s: Store, user: Id, kit: Id, expiresAt: Option<Time>): (s': Store)
    ensures HasCourseAccess(s', user, kit)
    ensures s'.permissions[PermKey(user, kit, CourseAccess)] == Permission(expiresAt)
    ensures forall k :: k != PermKey(user, kit, CourseAccess) ==>
              (k in s'.permissions <==> k in s.permissions)
              && (k in s.permissions ==> s'.permissions[k] == s.permissions[k])
    ensures s' == s.(permissions := s'.permissions)
  {
    s.(permissions := s.permissions[PermKey(user, kit, CourseAccess) := Permission(expiresAt)])
  }

  /** Appends one row to the purchase ledger. */
  function RecordPurchase(s: Store, p: Purchase): (s': Store)
    ensures s'.purchases == s.purchases + [p]
    ensures s' == s.(purchases := s'.purchases)
  {
    s.(purchases := s.purchases + [p])
  }

  /** A code that has been used is frozen: it stays as it is for as long as
      it exists. Every transition of the model keeps this relation. */
  predicate UsedCodesFrozen(s: Store, s': Store) {
    forall id :: id in s.codes && s.codes[id].isUsed && id in s'.codes ==>
      s'.codes[id] == s.codes[id]
  }

  /** The code `id` exists, unused, in `s` and is used in `s'`. */
  predicate Claimed(s: Store, s': Store, id: Id) {
    id in s.codes && !s.codes[id].isUsed && id in s'.codes && s'.codes[id].isUsed
  }

  /** The ledger only grows. */
  predicate LedgerExtends(s: Store, s': Store) {
    |s.purchases| <= |s'.purchases| && s'.purchases[..|s.purchases|] == s.purchases
  }
}

=== FILE: system.dfy ===
/** The whole application as one state machine: the store and the lesson
    asset bucket, changed only by the server actions modelled in the other
    modules. The properties proved here hold whatever order requests arrive
    in and whichever calls to the backing services fail. */
module System {
  import opened Common
  import opened Store
  import Redeem
  import Shop
  import AdminKits
  import CourseAuthoring
  import CourseListing
  import LessonFiles

  /** The database and the object storage bucket of lesson assets. */
  datatype World = World(store: Store, bucket: set<string>)

  /** One request to a server action that writes, with everything it reads
      from outside the store: the signed-in user, the clock, the fresh ids
      the store hands out, the random draws and the failures of the calls it
      makes. */
  datatype Op =
    | RedeemCode(user: Option<Id>, code: Option<string>, now: Time, redeemFaults: Redeem.Faults)
    | PurchaseKit(
        user: Option<Id>, kitId: Option<Id>, now: Time,
        upsertFails: bool, ledgerFails: bool, kitLookupFails: bool)
    | CreateKit(caller: Option<Id>, profileFails: bool, newId: Id, kitForm: AdminKits.KitForm, insert: Fault)
    | GenerateKitCodes(
        caller: Option<Id>, profileFails: bool, codeForm: AdminKits.CodeForm, ids: seq<Id>, draws: seq<seq<nat>>, insert: Fault)
    | DeleteKitCode(caller: Option<Id>, profileFails: bool, codeId: Id, delete: Fault)
    | GrantKitAccess(
        caller: Option<Id>, profileFails: bool, grantee: Id, kit: Id, expiresAt: Option<Time>, now: Time,
        upsert: Fault, ledgerFails: bool)
    | CreateCourse(
        user: Option<Id>, newId: Id, courseForm: CourseAuthoring.CourseForm, now: Time,
        permissionCheckFails: bool, insert: Fault)
    | CreateListedCourse(
        user: Option<Id>, newId: Id, title: string, description: string, kitId: Option<Id>,
        isPublic: Option<string>, now: Time, permissionCheckFails: bool, insert: Fault)
    | UpdateCourse(
        user: Option<Id>, courseId: Id, courseForm: CourseAuthoring.CourseForm,
        ownershipCheckFails: bool, update: Fault)
    | CreateLesson(
        user: Option<Id>, newId: Id, courseId: Id, title: string, orderIndex: Parsed,
        estimatedDuration: Option<Parsed>, ownershipCheckFails: bool, insert: Fault)
    | DeleteLesson(
        user: Option<Id>, lessonId: Id, lessonLookupFails: bool, courseLookupFails: bool, delete: Fault)
    | UploadLessonFile(
        user: Option<Id>, fileLesson: Option<string>, tabOrder: Parsed, file: Option<string>,
        fileId: Id, compile: LessonFiles.CompileResult, fileFaults: LessonFiles.Faults)

  /** What the store guarantees about the inputs it supplies: ids it hands
      out are unused, and there is a full set of draws for every code. */
  predicate Enabled(w: World, op: Op) {
    match op
    case CreateKit(_, _, newId, _, _) => newId !in w.store.kits
    case GenerateKitCodes(_, _, form, ids, draws, _) =>
      var n := AdminKits.RowCount(form.quantity);
      n <= |ids| && n <= |draws| && AdminKits.FreshIds(w.store, ids) && AdminKits.ValidDraws(draws)
    case CreateCourse(_, newId, _, _, _, _) => newId !in w.store.courses
    case CreateListedCourse(_, newId, _, _, _, _, _, _, _) => newId !in w.store.courses
    case CreateLesson(_, newId, _, _, _, _, _, _) => newId !in w.store.lessons
    case UploadLessonFile(_, _, _, _, fileId, _, _) => fileId !in w.store.files
    case _ => true
  }

  /** The store the generation action leaves behind: its method builds
      exactly `GeneratedRows` and inserts them with `InsertCodes`. */
  function Generated(s: Store, caller: Option<Id>, profileFails: bool, form: AdminKits.CodeForm, ids: seq<Id>,
                     draws: seq<seq<nat>>, insert: Fault): (s': Store)
    requires AdminKits.RowCount(form.quantity) <= |ids| && AdminKits.RowCount(form.quantity) <= |draws|
    requires AdminKits.FreshIds(s, ids) && AdminKits.ValidDraws(draws)
    ensures !AdminKits.AdminCaller(s, caller, profileFails) || insert.Err? ==> s' == s
    ensures s' == s.(codes := s'.codes)
    ensures forall id :: id in s.codes ==> id in s'.codes && s'.codes[id] == s.codes[id]
    ensures forall id :: id in s'.codes && id !in s.codes ==> !s'.codes[id].isUsed
  {
    if !AdminKits.AdminCaller(s, caller, profileFails) || insert.Err? then s
    else
      var n := AdminKits.RowCount(form.quantity);
      var rows := AdminKits.GeneratedRows(form, draws, n);
      AdminKits.InsertCodes(s, ids, rows)
  }

  /** Every code row that is still there is as it was. */
  predicate KeepsCodes(s: Store, s': Store) {
    forall id :: id in s.codes && id in s'.codes ==> s'.codes[id] == s.codes[id]
  }

  /** The file rows and the bucket are untouched. */
  predicate KeepsFiles(w: World, w': World) {
    w'.store.files == w.store.files && w'.bucket == w.bucket
  }

  /** The actions of the admin kit panel. */
  predicate AdminOp(op: Op) {
    op.CreateKit? || op.GenerateKitCodes? || op.DeleteKitCode? || op.GrantKitAccess?
  }

  /** The course-authoring actions of both pages. */
  predicate AuthoringOp(op: Op) {
    op.CreateCourse? || op.CreateListedCourse? || op.UpdateCourse? || op.CreateLesson? || op.DeleteLesson?
  }

  // One step of each group of actions, with what the group leaves alone.

  function ApplyRedeem(w: World, op: Op): (w': World)
    requires op.RedeemCode?
    ensures KeepsFiles(w, w')
    ensures UsedCodesFrozen(w.store, w'.store) && LedgerExtends(w.store, w'.store)
  {
    w.(store := Redeem.RedeemCode(w.store, op.user, op.code, op.now, op.redeemFaults).store)
  }

  function ApplyPurchase(w: World, op: Op): (w': World)
    requires op.PurchaseKit?
    ensures KeepsFiles(w, w') && w'.store.codes == w.store.codes
    ensures LedgerExtends(w.store, w'.store)
  {
    var o := Shop.PurchaseKit(w.store, op.user, op.kitId, op.now, op.upsertFails, op.ledgerFails, op.kitLookupFails);
    assert o.store.purchases[..|w.store.purchases|] == w.store.purchases;
    w.(store := o.store)
  }

  function ApplyAdmin(w: World, op: Op): (w': World)
    requires Enabled(w, op) && AdminOp(op)
    ensures KeepsFiles(w, w') && KeepsCodes(w.store, w'.store)
    ensures LedgerExtends(w.store, w'.store)
  {
    var s := w.store;
    match op
    case CreateKit(caller, profileFails, newId, form, insert) =>
      var s' := AdminKits.CreateKit(s, caller, profileFails, newId, form, insert).1;
      assert s'.purchases == s.purchases;
      w.(store := s')
    case GenerateKitCodes(caller, profileFails, form, ids, draws, insert) =>
      var s' := Generated(s, caller, profileFails, form, ids, draws, insert);
      assert s'.purchases == s.purchases;
      w.(store := s')
    case DeleteKitCode(caller, profileFails, codeId, delete) =>
      var s' := AdminKits.DeleteKitCode(s, caller, profileFails, codeId, delete).1;
      assert s'.purchases == s.purchases;
      w.(store := s')
    case GrantKitAccess(caller, profileFails, grantee, kit, expiresAt, now, upsert, ledgerFails) =>
      var s' := AdminKits.GrantKitAccess(s, caller, profileFails, grantee, kit, expiresAt, now, upsert, ledgerFails).1;
      assert s'.purchases[..|s.purchases|] == s.purchases;
      w.(store := s')
  }

  function ApplyAuthoring(w: World, op: Op): (w': World)
    requires Enabled(w, op) && AuthoringOp(op)
    ensures KeepsFiles(w, w') && w'.store.codes == w.store.codes
    ensures w'.store.purchases == w.store.purchases
  {
    var s := w.store;
    match op
    case CreateCourse(user, newId, form, now, permissionCheckFails, insert) =>
      w.(store := CourseAuthoring.CreateCourse(s, user, newId, form, now, permissionCheckFails, insert).1)
    case CreateListedCourse(user, newId, title, description, kitId, isPublic, now, permissionCheckFails, insert) =>
      w.(store := CourseListing.CreateCourse(
           s, user, newId, title, description, kitId, isPublic, now, permissionCheckFails, insert).1)
    case UpdateCourse(user, courseId, form, ownershipCheckFails, update) =>
      w.(store := CourseAuthoring.UpdateCourse(s, user, courseId, form, ownershipCheckFails, update).1)
    case CreateLesson(user, newId, courseId, title, orderIndex, duration, ownershipCheckFails, insert) =>
      w.(store := CourseAuthoring.CreateLesson(
           s, user, newId, courseId, title, orderIndex, duration, ownershipCheckFails, insert).1)
    case DeleteLesson(user, lessonId, lessonLookupFails, courseLookupFails, delete) =>
      w.(store := CourseAuthoring.DeleteLesson(s, user, lessonId, lessonLookupFails, courseLookupFails, delete).1)
  }

  function ApplyUpload(w: World, op: Op): (w': World)
    requires Enabled(w, op) && op.UploadLessonFile?
    ensures w'.store.codes == w.store.codes && w'.store.purchases == w.store.purchases
  {
    var o := LessonFiles.Post(
      w.store, w.bucket, op.user, op.fileLesson, op.tabOrder, op.file, op.fileId, op.compile, op.fileFaults);
    World(o.store, o.bucket)
  }

  /** One step of the application. */
  function Apply(w: World, op: Op): World
    requires Enabled(w, op)
  {
    if op.RedeemCode? then ApplyRedeem(w, op)
    else if op.PurchaseKit? then ApplyPurchase(w, op)
    else if AdminOp(op) then ApplyAdmin(w, op)
    else if AuthoringOp(op) then ApplyAuthoring(w, op)
    else ApplyUpload(w, op)
  }

  /** Every stored lesson file has its objects in the bucket. */
  predicate FilesStored(w: World) {
    forall id :: id in w.store.files ==> LessonFiles.Uploaded(w.store.files[id]) <= w.bucket
  }

  /** Every step keeps used codes as they are and only appends to the
      ledger. */
  lemma StepKeepsUsedCodesAndLedger(w: World, op: Op)
    requires Enabled(w, op)
    ensures UsedCodesFrozen(w.store, Apply(w, op).store)
    ensures LedgerExtends(w.store, Apply(w, op).store)
  {
    var s, s' := w.store, Apply(w, op).store;
    if !op.RedeemCode? && !op.PurchaseKit? && !AdminOp(op) {
      assert s'.purchases[..|s.purchases|] == s.purchases;
    }
  }

  /** Every action other than a redemption leaves each code that still
      exists as it was. */
  lemma OthersKeepCodes(w: World, op: Op)
    requires Enabled(w, op) && !op.RedeemCode?
    ensures forall id :: id in w.store.codes && id in Apply(w, op).store.codes ==>
              Apply(w, op).store.codes[id] == w.store.codes[id]
  {
  }

  /** A code goes from unused to used only by a redemption, and only by the
      one whose conditional update claimed it. */
  lemma OnlyRedemptionClaims(w: World, op: Op, id: Id)
    requires Enabled(w, op)
    requires Claimed(w.store, Apply(w, op).store, id)
    ensures op.RedeemCode?
    ensures Redeem.RedeemCode(w.store, op.user, op.code, op.now, op.redeemFaults).claimed == Some(id)
  {
    if !op.RedeemCode? {
      OthersKeepCodes(w, op);
    }
  }

  /** Every step keeps each stored file's objects in the bucket: an upload
      that fails leaves earlier objects in place, and one that succeeds
      adds its own before recording the row. */
  lemma StepKeepsFilesStored(w: World, op: Op)
    requires Enabled(w, op) && FilesStored(w)
    ensures FilesStored(Apply(w, op))
  {
    if op.UploadLessonFile? {
      PostKeepsFilesStored(w, op.user, op.fileLesson, op.tabOrder, op.file, op.fileId, op.compile, op.fileFaults);
    } else {
      assert KeepsFiles(w, Apply(w, op));
    }
  }

  /** The upload endpoint keeps each stored file's objects in the bucket. */
  lemma PostKeepsFilesStored(
    w: World, user: Option<Id>, lessonId: Option<string>, tabOrder: Parsed, file: Option<string>,
    fileId: Id, compile: LessonFiles.CompileResult, f: LessonFiles.Faults)
    requires fileId !in w.store.files && FilesStored(w)
    ensures var o := LessonFiles.Post(w.store, w.bucket, user, lessonId, tabOrder, file, fileId, compile, f);
            FilesStored(World(o.store, o.bucket))
  {
    var o := LessonFiles.Post(w.store, w.bucket, user, lessonId, tabOrder, file, fileId, compile, f);
    if o.status == 201 {
      forall id | id in o.store.files
        ensures LessonFiles.Uploaded(o.store.files[id]) <= o.bucket
      {
        if id != fileId {
          assert o.store.files[id] == w.store.files[id];
        }
      }
    }
  }

  /** `ws` is the sequence of worlds a sequence of enabled requests goes
      through. */
  predicate IsRun(ws: seq<World>, ops: seq<Op>) {
    && |ws| == |ops| + 1
    && forall i :: 0 <= i < |ops| ==> Enabled(ws[i], ops[i]) && ws[i + 1] == Apply(ws[i], ops[i])
  }

  /** The step lemmas, for every step of a run. */
  lemma RunSteps(ws: seq<World>, ops: seq<Op>)
    requires IsRun(ws, ops)
    ensures forall k :: 0 <= k < |ws| - 1 ==>
              UsedCodesFrozen(ws[k].store, ws[k + 1].store) && LedgerExtends(ws[k].store, ws[k + 1].store)
  {
    forall k | 0 <= k < |ws| - 1
      ensures UsedCodesFrozen(ws[k].store, ws[k + 1].store) && LedgerExtends(ws[k].store, ws[k + 1].store)
    {
      StepKeepsUsedCodesAndLedger(ws[k], ops[k]);
    }
  }

  /** Along a sequence of stores whose every step keeps used codes frozen, a
      used code stays exactly as it is for as long as it exists. */
  lemma {:induction false} UsedStaysUsed(ws: seq<World>, id: Id, i: nat, k: nat)
    requires forall j :: 0 <= j < |ws| - 1 ==> UsedCodesFrozen(ws[j].store, ws[j + 1].store)
    requires i <= k < |ws|
    requires forall j :: i <= j <= k ==> id in ws[j].store.codes
    requires ws[i].store.codes[id].isUsed
    ensures ws[k].store.codes[id] == ws[i].store.codes[id]
    decreases k
  {
    if k > i {
      UsedStaysUsed(ws, id, i, k - 1);
      assert UsedCodesFrozen(ws[k - 1].store, ws[k].store);
    }
  }

  /** A code that exists throughout a run is claimed at most once in it. */
  lemma ClaimedAtMostOnce(ws: seq<World>, ops: seq<Op>, id: Id, i: nat, j: nat)
    requires IsRun(ws, ops) && i < j < |ops|
    requires forall k :: 0 <= k < |ws| ==> id in ws[k].store.codes
    ensures Claimed(ws[i].store, ws[i + 1].store, id) ==> !Claimed(ws[j].store, ws[j + 1].store, id)
  {
    if Claimed(ws[i].store, ws[i + 1].store, id) {
      RunSteps(ws, ops);
      UsedStaysUsed(ws, id, i + 1, j);
    }
  }

  /** Along a sequence of stores whose every step extends the ledger, the
      last ledger extends the first. */
  lemma {:induction false} LedgerExtendsAlong(ws: seq<World>, k: nat)
    requires forall j :: 0 <= j < |ws| - 1 ==> LedgerExtends(ws[j].store, ws[j + 1].store)
    requires k < |ws|
    ensures LedgerExtends(ws[0].store, ws[k].store)
    decreases k
  {
    if k > 0 {
      LedgerExtendsAlong(ws, k - 1);
      assert LedgerExtends(ws[k - 1].store, ws[k].store);
      var a, b, c := ws[0].store.purchases, ws[k - 1].store.purchases, ws[k].store.purchases;
      assert c[..|a|] == c[..|b|][..|a|];
    }
  }

  /** Over a whole run the ledger only grows. */
  lemma RunExtendsLedger(ws: seq<World>, ops: seq<Op>)
    requires IsRun(ws, ops)
    ensures LedgerExtends(ws[0].store, ws[|ws| - 1].store)
  {
    RunSteps(ws, ops);
    LedgerExtendsAlong(ws, |ws| - 1);
  }

  /** Over a whole run every stored file keeps its objects in the bucket,
      starting from a world where that holds. */
  lemma {:induction false} RunKeepsFilesStored(ws: seq<World>, ops: seq<Op>, k: nat)
    requires IsRun(ws, ops) && k < |ws| && FilesStored(ws[0])
    ensures FilesStored(ws[k])
    decreases k
  {
    if k > 0 {
      RunKeepsFilesStored(ws, ops, k - 1);
      StepKeepsFilesStored(ws[k - 1], ops[k - 1]);
    }
  }
}
